=== FILE: README.md ===
# Math-problem helper: a Dafny model of its pure core

The app photographs or takes a typed math expression, asks a remote
recogniser for its LaTeX and solutions, and shows the result. This project
models the logic that decides what the user sees:

- the classifier that labels an expression ("Find the limit", "Solve the
  Second degree equation", "Calculate Addition, Multiplication", ...) and
  picks the variable to solve for, in its English form (`utils/mathUtils.js`)
  and its Turkish form on the home screen (`app/index.jsx`);
- the seven-step rewrite of an expression into LaTeX, with the function-name
  escapes of the English version;
- the home screen's typed-input submission, its instruction line, its
  numbered solution blocks and the formula handed to the graph;
- the results panel's instruction text and solution rendering, including the
  fallback messages when nothing was isolated;
- the coordinate system's sampling of a formula into a path of `moveTo` and
  `lineTo` commands, the cache of computed paths, and the pinch, pan and tap
  gestures;
- the two crop frames (the gesture-driven one and the older state-driven
  one) and the scaling of a crop from screen to photo pixels;
- the image-file check by extension.

Regular expressions are modelled as explicit scanners whose contracts say
which match the JavaScript engine returns (the leftmost, with lazy or greedy
repetition as written). Letter case is ASCII only. Numbers are exact reals.
The formula evaluator (mathjs, `eval`) and the screen size are parameters.

Modules follow the source files: `Basics`, `Strings`, `Scan`, `Classify` and
`Latex` hold what both classifiers and both LaTeX converters share;
`MathUtils`, `HomeScreen`, `ResultsPanel`, `CoordinateSystem`, `Crop`,
`ReanimatedCropper`, `Cropper` and `ImageUtils` hold the rest.

Some behaviour of the code is easy to misread:

- `"x+y=5"` has an operator and `=`, so the code labels it "Solve the
  equation" with letter `x` (`MathUtils.TwoLettersEquationExample`), not a
  two-variable equation.
- The results panel's fallback isolates `y` when no letter is known (its
  comment says `x`).
- The Turkish render compares the label with "İki değişkenli denklem", which
  the Turkish classifier never produces (`HomeScreen.NeverTwoVariable`).
- The older crop frame adds each event's translation to the size the
  previous event left, so translations compound
  (`Cropper.TranslationsCompound`).
- The Turkish limit pattern requires the backslash of `\to`
  (`HomeScreen.LimitNeedsBackslash`).

## Model

| member | source | states |
|---|---|---|
| MathUtils.DegreeWord | utils/constants.js:21-27 | digits 1 to 5 map to First to Fifth; any other degree text is shown as itself |
| MathUtils.DegreeWordInjective | utils/mathUtils.js:27 | two different numerals never get the same degree word |
| MathUtils.Analyze | utils/mathUtils.js:8-90 | the chosen letter is empty or one lower-case letter that occurs in the lower-cased expression |
| MathUtils.AnalyzeIgnoresCase | utils/mathUtils.js:10 | the analysis of an expression equals the analysis of its lower-cased form |
| MathUtils.LabelShape | utils/mathUtils.js:13-89 | for each branch the rule selects, the label has that branch's fixed text or prefix |
| MathUtils.DegreeLabelShape | utils/mathUtils.js:29-31 | a degree label starts "Solve the " followed by a capitalised word or a digit |
| MathUtils.LettersLabelShape | utils/mathUtils.js:58-68 | in the letters branch, x together with y gives "Two-variable equation", otherwise a "Solve for " label |
| MathUtils.LimitLabel | utils/mathUtils.js:13-20 | the label is "Find the limit" exactly when the lower-cased text contains "lim" |
| MathUtils.LimitBranch | utils/mathUtils.js:13-20 | text containing "lim" is labelled "Find the limit"; its letter is empty exactly when the pattern has no match, and otherwise is the letter of the leftmost match |
| MathUtils.EquationLabel | utils/mathUtils.js:36-51 | the label is "Solve the equation" exactly when there is no "lim", no degree match, and both an operator and `=` |
| MathUtils.EquationKindIsRule | utils/mathUtils.js:36-51 | the "Solve the equation" label comes from the equation branch and from no other |
| MathUtils.OtherLabels | utils/mathUtils.js:29-31 | degree, "Solve for" and "Calculate" labels all differ from "Solve the equation" |
| MathUtils.TwoVariableLabel | utils/mathUtils.js:58-63 | "Two-variable equation" exactly when no earlier branch applies and both x and y occur |
| MathUtils.FallbackLabel | utils/mathUtils.js:86-89 | "Expression analysis" exactly when the text has no operator and no letter |
| MathUtils.DegreeLetter | utils/mathUtils.js:23-33 | at the leftmost degree match, the letter is the matched letter and the label names its degree word |
| MathUtils.SolveForFirstLetter | utils/mathUtils.js:54-68 | in the letters branch without both x and y, the label joins the distinct letters and the letter is the first letter of the text |
| MathUtils.EquationLetter | utils/mathUtils.js:37-44 | in the equation branch the letter is the first bare letter, or empty when there is none |
| MathUtils.SolveForOnly | utils/mathUtils.js:65-68 | a text whose only letter is c is labelled "Solve for c" with letter c |
| MathUtils.ArithmeticNames | utils/mathUtils.js:72-83 | the arithmetic label is "Calculate " followed by the names of exactly the operators the expression contains, in the order `+ - * /`, comma-joined; the letter is empty |
| MathUtils.TwoLettersEquationExample | utils/mathUtils.js:36-44 | "x+y=5" is "Solve the equation" with letter x |
| MathUtils.GluedLetterExample | utils/mathUtils.js:38-39 | in "2x+3=9" the x is glued to a digit, so no word boundary precedes it and the letter is empty |
| MathUtils.SecondDegreeExample | utils/mathUtils.js:23-32 | "X^2-4=0" is "Solve the Second degree equation" with letter x |
| MathUtils.GluedPowerExample | utils/mathUtils.js:23-68 | "2x^2" has no degree match and falls to "Solve for x" with letter x |
| MathUtils.ArithmeticExample | utils/mathUtils.js:72-83 | "3+4*2" is "Calculate Addition, Multiplication" with no letter |
| MathUtils.LimitExample | utils/mathUtils.js:13-19 | "lim x to 0" is "Find the limit" with letter x (the backslash is optional) |
| MathUtils.ToLatex | utils/mathUtils.js:97-132 | empty input gives empty output; the output has no `*` and no capital letter |
| MathUtils.PowerConversionExample | utils/mathUtils.js:101-120 | "2*x**2" becomes "2x^{ 2 }" |
| MathUtils.FractionConversionExample | utils/mathUtils.js:114-117 | "1/2" becomes "\\frac{1}{2}" |
| MathUtils.SqrtConversionExample | utils/mathUtils.js:110 | "sqrt(x)" becomes "\\sqrt{x}" |
| MathUtils.SineConversionExample | utils/mathUtils.js:123 | "sin(x)" becomes "\\sin(x)" |
| MathUtils.LimitConversionExample | utils/mathUtils.js:128-129 | "lim x\\to0" becomes "\\lim x\\to0"; the `\to` rewrite changes nothing |
| Classify.LazyLetter | utils/mathUtils.js:14 | the lazy `.*?([a-z])` stops at the nearest letter its tail accepts and never crosses a line terminator |
| Classify.LimitMatchFrom | utils/mathUtils.js:14 | the match found is the leftmost "lim", then the nearest accepted letter; no match means no way to match at all |
| Classify.LimitLetter | utils/mathUtils.js:14-15 | the letter is empty exactly when the limit pattern cannot match, and otherwise is the letter of the leftmost match |
| Classify.LimitWitnessWeakens | app/index.jsx:349 | every match of the pattern that requires the backslash also matches the English pattern, where it is optional |
| Classify.DegreeMatch | utils/mathUtils.js:23-24 | the position found is the leftmost letter-power-digits match between word boundaries; none means no match anywhere |
| Classify.DegreeDigits | utils/mathUtils.js:24-26 | the captured degree is a non-empty run of digits |
| Classify.FirstBareLetter | utils/mathUtils.js:38-39 | empty exactly when the optional-power pattern cannot match; otherwise the letter of its leftmost match |
| Classify.Letters | utils/mathUtils.js:56 | the letters matched by `/[a-z]/g` are exactly the lower-case letters of the text, one match per occurrence |
| Classify.LettersInOrder | utils/mathUtils.js:56 | the matches follow the text: the letter at position k is the match numbered by the count of letters before k |
| Classify.LettersFirstOrder | utils/mathUtils.js:56 | of two letters of the text, the one that occurs first in the text occurs first among the matches, and the other way round |
| Classify.DistinctLetters | utils/mathUtils.js:56 | the set of letters holds each letter of the text once, and no other, in the order of their first occurrence in the text |
| Classify.FirstLetterFirst | utils/mathUtils.js:56-67 | the first distinct letter is the first letter of the text |
| Classify.LettersHead | utils/mathUtils.js:56 | the first matched letter is the first letter of the text |
| Classify.OnlyLetter | utils/mathUtils.js:56 | a text whose every letter is c has the letter set [c] |
| Classify.OperationNames | utils/mathUtils.js:73-77 | given four different names, the k-th name is listed exactly when the k-th of `+ - * /` occurs; only listed names appear, in the list's order; the result is empty exactly when the text has no operator |
| Classify.OperationNamesUnique | utils/mathUtils.js:73-77 | any list that names exactly the operators present, in the list's order, is the one built |
| Classify.ListsOperatorsIgnoresCase | utils/mathUtils.js:10 | lower-casing does not change which operators a text contains |
| Classify.PlusTimesNames | utils/mathUtils.js:73-77 | with + and * present and - and / absent, the names are the first and third in that order |
| Classify.HasOperatorIff | utils/mathUtils.js:36 | the operator class matches exactly when one of + - * / occurs |
| Classify.SelectRule | utils/mathUtils.js:13-89 | a selected degree rule records the leftmost degree match |
| Classify.RulePrecedence | utils/mathUtils.js:13-89 | each of the six branches is taken exactly when its own test holds and every earlier test fails |
| Classify.DegreeRuleAt | utils/mathUtils.js:13-33 | with no "lim" and a leftmost degree match at p, the degree branch is taken at p |
| Classify.NoPowerNoDegree | utils/mathUtils.js:23 | text without `^` and without `*` has no degree match |
| Classify.LimHasLetter | utils/mathUtils.js:13 | text containing "lim" contains a letter |
| Latex.PowerMarks | utils/mathUtils.js:101 | replacing `**` by `^` adds no character other than `^` |
| Latex.DropStars | utils/mathUtils.js:107 | the result has no `*` and only characters of the input |
| Latex.OpenRun | utils/mathUtils.js:110 | `[^)]+` runs up to, and not through, the next `)` |
| Latex.SqrtBraces | utils/mathUtils.js:110 | the sqrt rewrite adds only the characters of "\\sqrt{}" |
| Latex.PlainSqrt | utils/mathUtils.js:110 | "sqrt(t)" with t non-empty and free of `)` becomes "\\sqrt{t}" |
| Latex.SqrtPlain | utils/mathUtils.js:110 | text without "sqrt(" passes the sqrt rewrite unchanged |
| Latex.FracOpen | utils/mathUtils.js:114 | the free-slash rewrite adds only the characters of "\\frac{" |
| Latex.FracOpenKeeps | utils/mathUtils.js:114 | text with no free slash passes the free-slash rewrite unchanged |
| Latex.LazyClose | utils/mathUtils.js:117 | a group denominator's lazy `.+?` stops at the first `)` it reaches without consuming a line terminator, and there is no match exactly when no such `)` exists |
| Latex.LazyFirstClose | utils/mathUtils.js:117 | a group numerator closes at the first `)` reached without consuming a line terminator that is followed by `/` and a valid denominator; an earlier `)` without them is consumed; no match exactly when no such `)` exists |
| Latex.FractionAt | utils/mathUtils.js:117 | a fraction found at i has its slash after i and its end within the text |
| Latex.NumeralFractionAt | utils/mathUtils.js:117 | a digit-run numerator, when it makes a fraction, is followed by the slash |
| Latex.GroupFractionAt | utils/mathUtils.js:117 | a parenthesised numerator, when it makes a fraction, is followed by the slash |
| Latex.FracClose | utils/mathUtils.js:117 | the fraction rewrite adds only the characters of "\\frac{}" |
| Latex.NumeralFraction | utils/mathUtils.js:117 | "a/b" with a and b digit runs becomes "\\frac{a}{b}" |
| Latex.GroupFraction | utils/mathUtils.js:117 | "(a)/(b)" with a and b non-empty and free of `)` and line terminators becomes "\\frac{(a)}{(b)}" |
| Latex.FracPlain | utils/mathUtils.js:114-117 | text without `/` passes both fraction rewrites unchanged |
| Latex.WordRun | utils/mathUtils.js:120 | `\w+` takes the longest run of word characters |
| Latex.PowerBraces | utils/mathUtils.js:120 | the power rewrite adds only the characters of "^{ }" |
| Latex.WordPower | utils/mathUtils.js:120 | "a^b" with a and b words becomes "a^{ b }" |
| Latex.PowerBracesPlain | utils/mathUtils.js:120 | text without `^` passes the power rewrite unchanged |
| Latex.EscapeFunctions | utils/mathUtils.js:123-129 | the escapes add only backslashes and letters of the escaped names |
| Latex.EscapeWithoutParen | utils/mathUtils.js:123-128 | without `(` only the "lim" escape can apply |
| Latex.ArrowRewriteIsIdentity | utils/mathUtils.js:129 | replacing `\to` by `\to` leaves every text unchanged |
| Latex.RewriteOfPlain | utils/mathUtils.js:101-120 | text with no star, slash, caret, "sqrt(" or capital passes all seven rewrites unchanged |
| Latex.FrontPlain | utils/mathUtils.js:101-107 | text with no star and no capital passes the first three rewrites unchanged |
| Latex.Rewrite | utils/mathUtils.js:101-120 | after the seven rewrites no `*` and no capital letter remain |
| Latex.EscapeKeepsClean | utils/mathUtils.js:123-129 | the escapes bring back no `*` and no capital letter |
| Strings.Lower | utils/mathUtils.js:10 | lower-casing keeps the length, maps exactly the capitals A-Z, and leaves no capital |
| Strings.LowerIdempotent | utils/mathUtils.js:104 | lower-casing twice is lower-casing once |
| Strings.LowerNoCapitals | utils/mathUtils.js:10 | text without capitals is its own lower-case form |
| Strings.Trim | app/index.jsx:472 | the trimmed text is a slice of the input, with only white space cut off either end, and starts and ends with non-space |
| Strings.Split | app/index.jsx:491 | splitting at c gives one part more than c occurs |
| Strings.SplitPieces | app/index.jsx:491 | no part of a split contains the separator |
| Strings.SplitJoin | app/index.jsx:491 | joining the parts with the separator gives back the text |
| Strings.ReplaceFirst | components/CoordinateSystem.jsx:23 | without an occurrence the text is unchanged; otherwise the leftmost occurrence alone is replaced |
| HomeScreen.DegreeToWord | app/index.jsx:333-342 | digits 1 to 5 map to the Turkish ordinals Birinci to Beşinci; other text is shown as itself |
| HomeScreen.DegreeToWordInjective | app/index.jsx:361 | two different numerals never get the same Turkish ordinal |
| HomeScreen.AnalyzeTr | app/index.jsx:344-408 | the chosen letter is empty or one lower-case letter of the lower-cased expression |
| HomeScreen.ArithmeticNamesTr | app/index.jsx:391-401 | the Turkish arithmetic label is the Turkish names of exactly the operators the expression contains, in the order `+ - * /`, comma-joined, followed by " hesaplayınız"; the letter is empty |
| HomeScreen.AnalyzeTrIgnoresCase | app/index.jsx:345 | the Turkish analysis ignores letter case |
| HomeScreen.KindEnding | app/index.jsx:352-405 | the label ends in `.` exactly for an equation without letters, in `e` exactly for an invalid expression, and in `z` otherwise |
| HomeScreen.NeverTwoVariable | app/index.jsx:344-408 | the Turkish classifier never yields the two-variable label, in Turkish or in English |
| HomeScreen.InvalidLabel | app/index.jsx:403-407 | "Geçersiz ifade" exactly when the text has no operator and no letter |
| HomeScreen.NoLetterEquationLabel | app/index.jsx:375-379 | the letterless-equation label exactly when the equation branch is taken and the text has no letter |
| HomeScreen.LimitLetterSharper | app/index.jsx:349-353 | when the Turkish limit pattern finds a letter, the English pattern, whose backslash is optional, finds a letter as well, not necessarily the same one |
| HomeScreen.SameLetter | app/index.jsx:357-389 | outside the limit branch and the x-and-y case, both classifiers choose the same letter |
| HomeScreen.NoBackslashNoLimit | app/index.jsx:349 | without a backslash the Turkish limit pattern never matches |
| HomeScreen.LimitNeedsBackslash | app/index.jsx:348-354 | a limit without a backslash gets the limit label and an empty letter |
| HomeScreen.LimitBranchTr | app/index.jsx:348-354 | text containing "lim" is labelled "Limiti hesaplayınız"; its letter is empty exactly when the pattern, which requires the backslash, has no match, and otherwise is the letter of the leftmost match |
| HomeScreen.LimitWithoutBackslash | app/index.jsx:349 | "lim x to 0" gets no Turkish limit letter but the English letter x |
| HomeScreen.ToLatexTr | app/index.jsx:410-433 | the output has no `*` and no capital letter |
| HomeScreen.EnglishEscapesTurkish | app/index.jsx:410-433 | the English conversion is the Turkish one followed by the function escapes, except that empty input stays empty |
| HomeScreen.GraphSource | app/index.jsx:490-501 | the graphed formula becomes the input when it has no `=`, or one `=` and a y; otherwise the previous one is kept |
| HomeScreen.SolveText | app/index.jsx:507-510 | the text evaluated is the right side minus the parenthesised left side |
| HomeScreen.SolveAttempt | app/index.jsx:504-517 | one `=` and no y give a single solution, or "Unable to solve" when evaluation fails; otherwise the solutions are kept |
| HomeScreen.ManualSubmit | app/index.jsx:471-526 | blank input changes nothing; otherwise the response, label and letter come from the trimmed input, the graph follows `GraphSource` and the solutions follow `SolveAttempt` |
| HomeScreen.ManualSubmitIdempotent | app/index.jsx:471-526 | submitting the same input twice leaves the screen as one submission does |
| HomeScreen.InstructionTr | app/index.jsx:756-760 | "… için çözünüz" with a letter; "İşlemi sadeleştiriniz" for the two-variable label; "Hesaplayınız" otherwise |
| HomeScreen.InstructionForAnalysisTr | app/index.jsx:756-760 | after the Turkish analysis the simplify instruction never shows, and "Hesaplayınız" shows exactly when there is no letter |
| HomeScreen.RenderTr | app/index.jsx:765-792 | one block per solution, each with its prefix and the converted solution; the two-variable label shows the converted graphed formula |
| HomeScreen.RenderTrMatchesPanel | app/index.jsx:774-792 | with solutions the home screen draws exactly the results panel's blocks; without solutions it draws none |
| HomeScreen.GraphedFunction | app/index.jsx:839-841 | no graph for empty text; otherwise the first `**` alone becomes `^` |
| ResultsPanel.InstructionText | components/ResultsPanel.jsx:18-26 | "Solve for" and the letter, "Simplify the expression" for two variables, "Calculate" otherwise |
| ResultsPanel.TwoVariableHasNoLetter | utils/mathUtils.js:58-62 | a two-variable label always comes with an empty letter |
| ResultsPanel.InstructionForAnalysis | components/ResultsPanel.jsx:18-26 | after analysis, "Simplify the expression" exactly for two variables and "Calculate" exactly for no letter; otherwise "Solve for" a letter of the text |
| ResultsPanel.SolutionPrefix | components/ResultsPanel.jsx:44-48 | the prefix is empty exactly when there is no letter; it is the letter and " =" for at most one solution, and the letter, "_{", digits and "} =" for several |
| ResultsPanel.SubscriptReadsBack | components/ResultsPanel.jsx:44-46 | with several solutions, the subscript read back from a block is its position plus one |
| ResultsPanel.LabelReadsBack | components/ResultsPanel.jsx:46 | a block that starts "letter_{n} =" reads back the number n |
| ResultsPanel.PrefixesDistinct | components/ResultsPanel.jsx:44-48 | with several solutions, different positions get different prefixes |
| ResultsPanel.FallbackMessage | components/ResultsPanel.jsx:81-97 | the message is one of the three texts |
| ResultsPanel.FallbackMessages | components/ResultsPanel.jsx:89-97 | quadratic exactly when v^2 occurs, linear exactly when v occurs without v^2, "could not be isolated" exactly when v is absent |
| ResultsPanel.IsolationFallback | components/ResultsPanel.jsx:76-111 | the fallback reads "v = " and the message, where v is the letter or else y |
| ResultsPanel.RenderSolution | components/ResultsPanel.jsx:29-112 | one block per solution with its prefix; one block with the converted formula for two variables or without solutions; the fallback when both are missing |
| ResultsPanel.NumberedBlock | components/ResultsPanel.jsx:43-57 | a numbered block reads back its position plus one and ends with the converted solution |
| ResultsPanel.SolutionsNumbered | components/ResultsPanel.jsx:43-60 | with several solutions and a letter, the blocks are numbered 1, 2, … in order, pairwise different, and each ends with its converted solution |
| CoordinateSystem.SweepValue | components/CoordinateSystem.jsx:63-75 | each of the 600 samples lies in [-30, 29.9]; the first is -30 and the last 29.9, so 30 is never sampled |
| CoordinateSystem.EvaluatePoint | components/CoordinateSystem.jsx:20-30 | a `y=` formula is evaluated in x with its leftmost `y=` removed, any other formula in y with its leftmost `x=` removed; a formula without that pattern is evaluated unchanged |
| CoordinateSystem.PointFor | components/CoordinateSystem.jsx:85-107 | the canvas point is the centre plus the value times the square size, with y pointing up |
| CoordinateSystem.Step | components/CoordinateSystem.jsx:76-109 | an invalid sample only stops drawing; a valid one adds a point and one command, a `moveTo` exactly when not drawing or after a jump of more than 100 |
| CoordinateSystem.Samples | components/CoordinateSystem.jsx:75-76 | 600 samples, the k-th being the formula at the k-th sweep value |
| CoordinateSystem.ValidSamples | components/CoordinateSystem.jsx:79-82 | the valid samples in increasing order, each valid and every valid one included |
| CoordinateSystem.Trace | components/CoordinateSystem.jsx:71-111 | at most one point per sample and one command per point; drawing is on exactly when the newest sample is valid; the first command is a `moveTo` |
| CoordinateSystem.TraceCounts | components/CoordinateSystem.jsx:71-111 | one point and one command per valid sample; the last value is that of the last valid sample; drawing exactly when the last sample is valid |
| CoordinateSystem.TracePoints | components/CoordinateSystem.jsx:71-111 | the i-th point is that of the i-th valid sample, and the i-th command is drawn at it |
| CoordinateSystem.TraceMoves | components/CoordinateSystem.jsx:88-99 | a command is a `moveTo` exactly when its sample opens a subpath: first valid, after a gap, or after a jump of more than 100 |
| CoordinateSystem.LinePathShape | components/CoordinateSystem.jsx:51-161 | the path has one command per point and one point per valid sample, and starts with a `moveTo` |
| CoordinateSystem.LinePath | components/CoordinateSystem.jsx:63-161 | at most 600 points with one command each and a leading `moveTo`; the i-th point is drawn for the i-th sample that has a value, in the orientation the text selects, at the sweep value and the formula's value there |
| CoordinateSystem.NothingToPlot | components/CoordinateSystem.jsx:79-82 | a formula with no valid sample gives an empty path |
| CoordinateSystem.CachedLinePath | components/CoordinateSystem.jsx:52-56 | a cached formula returns its cached path and leaves the cache alone; a new one is computed and added; no other entry changes |
| CoordinateSystem.RepeatedCall | components/CoordinateSystem.jsx:52-56 | a second call with the same formula returns the first result and the same cache, whatever the canvas |
| CoordinateSystem.CacheFaithful | components/CoordinateSystem.jsx:52-160 | on a fixed canvas a faithful cache stays faithful and answers like a fresh sweep |
| CoordinateSystem.InitialView | components/CoordinateSystem.jsx:171-173 | the view starts at the given scale with offsets -408 and -415 |
| CoordinateSystem.PinchStart | components/CoordinateSystem.jsx:230-232 | a pinch records the current scale and changes nothing else |
| CoordinateSystem.PinchUpdate | components/CoordinateSystem.jsx:233-236 | the scale stays in [2, 3]: it is the recorded scale times the factor when that lies in range, 2 below it and 3 above it |
| CoordinateSystem.PinchLatestWins | components/CoordinateSystem.jsx:233-236 | pinch updates are measured from the pinch's start, so only the latest counts |
| CoordinateSystem.PanBounds | components/CoordinateSystem.jsx:247-253 | the pan limits as functions of the scale; from scale 1 up they contain the origin |
| CoordinateSystem.PanStart | components/CoordinateSystem.jsx:240-244 | a pan records the current offsets and changes nothing else |
| CoordinateSystem.PanUpdate | components/CoordinateSystem.jsx:256-263 | the offsets stay within the limits and follow the pan when it lies within them; a pan past a limit stops at that limit, and crossed limits give the lower one |
| CoordinateSystem.PanLatestWins | components/CoordinateSystem.jsx:245-264 | pan updates are measured from the pan's start, so only the latest counts |
| CoordinateSystem.InitialOffsetWithinLimits | components/CoordinateSystem.jsx:171-263 | at scale 2, where the graph's gestures are active, the limits are x in [-1088, 578] and y in [-608, 578]; the initial offset (-408, -415) lies inside them, so a drag of length zero keeps the view |
| CoordinateSystem.TapTarget | components/CoordinateSystem.jsx:273-283 | the tap in graph units, undoing the offset, the square size and the scale, with y flipped |
| CoordinateSystem.Dist2 | components/CoordinateSystem.jsx:281-284 | the squared distance is never negative |
| CoordinateSystem.Nearest | components/CoordinateSystem.jsx:280-289 | the first point at the smallest distance, or none for no points |
| CoordinateSystem.TapHit | components/CoordinateSystem.jsx:276-291 | no hit without points or at scale 0; a hit is a point within distance 1 of the tap |
| CoordinateSystem.Tap | components/CoordinateSystem.jsx:270-302 | a tap while panning changes nothing; a hit shows the coordinate text and moves the marker and the guides to a point within distance 1, with y flipped; a miss only hides the text and leaves the marker and the guides where they were |
| CoordinateSystem.TapHitsNearest | components/CoordinateSystem.jsx:280-302 | the coordinate text shows exactly when some point is within distance 1, and the guides then go to the first nearest point |
| CoordinateSystem.TapIdempotent | components/CoordinateSystem.jsx:270-302 | tapping the same spot again changes nothing |
| Crop.CornerAt | components/ReanimatedCropper.jsx:39-53 | the corner is on top exactly when the touch is above the centre, and on the left exactly when it is left of it |
| Crop.MaxSize | components/ReanimatedCropper.jsx:20 | the size limit is 0.9 times the shorter screen side |
| Crop.Dragged | components/ReanimatedCropper.jsx:64-80 | a left corner grows the frame when moved left, a right corner when moved right, a top one up, a bottom one down, by exactly the translation |
| Crop.DraggedInverse | components/ReanimatedCropper.jsx:64-80 | dragging back by the opposite translation restores the size |
| Crop.DraggedAdds | components/Cropper.jsx:80-103 | two drags of one corner add up |
| Crop.CentredRect | components/ReanimatedCropper.jsx:91-92 | the reported frame is centred horizontally, with its centre lifted above the screen's middle |
| Crop.CentredRectInjective | components/ReanimatedCropper.jsx:88-93 | the reported rectangle determines the frame's size |
| ReanimatedCropper.Mount | components/ReanimatedCropper.jsx:19-32 | the frame starts at 300 by 150 with no corner and no gesture |
| ReanimatedCropper.OnStart | components/ReanimatedCropper.jsx:35-57 | a start grabs the quadrant's corner and records the current size |
| ReanimatedCropper.OnActive | components/ReanimatedCropper.jsx:58-85 | a move resizes from the recorded size into [75, maxSize] and changes nothing else: a side below 75 becomes 75, one above maxSize becomes maxSize, and a maxSize under 75 gives 75; without a corner nothing changes |
| ReanimatedCropper.OnEnd | components/ReanimatedCropper.jsx:86-94 | the end stops the gesture and reports the centred frame |
| ReanimatedCropper.MountReport | components/ReanimatedCropper.jsx:97-104 | on mount the reported frame is 300 by 150 and centred |
| ReanimatedCropper.ActiveLatestWins | components/ReanimatedCropper.jsx:58-85 | moves are measured from the start, so only the latest counts |
| ReanimatedCropper.StillDragKeepsSize | components/ReanimatedCropper.jsx:35-85 | grabbing without moving keeps a size within the limits |
| ReanimatedCropper.ActiveMonotone | components/ReanimatedCropper.jsx:64-80 | moving further right never narrows a right corner's frame and never widens a left corner's; likewise vertically |
| ReanimatedCropper.Moves | components/ReanimatedCropper.jsx:58-85 | a run of moves changes only the size |
| ReanimatedCropper.MovesLastWins | components/ReanimatedCropper.jsx:58-85 | after several moves the size is what the last move alone gives |
| ReanimatedCropper.GestureReport | components/ReanimatedCropper.jsx:35-94 | a gesture reports the centred frame of its last move's size, within the limits |
| ReanimatedCropper.Gesture | components/ReanimatedCropper.jsx:35-94 | a whole gesture ends stopped, with the touch's corner and the size it began with recorded; it keeps the size when there is no move, and reports the centred frame of the final size |
| Cropper.Mount | components/Cropper.jsx:12-16 | the frame starts at 300 by 150 with no corner |
| Cropper.Resized | components/Cropper.jsx:20-23 | both sides clamped to [50, maxSize]: unchanged when already within, 50 below it or when maxSize is under 50, maxSize above it |
| Cropper.Rendered | components/Cropper.jsx:112-113 | the drawn frame is centred with its centre a fifth of the screen above the middle |
| Cropper.ResizeReportAsWritten | components/Cropper.jsx:18-39 | as written, the report carries the new sides but the old position |
| Cropper.AsWrittenMatchesRenderIff | components/Cropper.jsx:18-39 | the report as written matches the drawn frame exactly when the size did not change |
| Cropper.AsWrittenReportsStaleLeft | components/Cropper.jsx:27-37 | on a 400 by 800 screen a 20-wide drag reports left 50 while the frame is drawn at 40 |
| Cropper.ResizeReport | components/Cropper.jsx:27-37 | the corrected report carries the new sides, centred |
| Cropper.ReportMatchesRender | components/Cropper.jsx:18-39 | the corrected report is always the frame drawn after the resize |
| Cropper.Proposed | components/Cropper.jsx:75-103 | with a corner, the dragged sides floored at 100; without one, the current size |
| Cropper.GestureEvent | components/Cropper.jsx:41-106 | the first event grabs the quadrant's corner and only clamps the current size; a later event keeps the corner and moves that corner's sides by the translation, each side floored at 100 and then clamped to the limits |
| Cropper.GestureEventReport | components/Cropper.jsx:41-106 | the corrected report of an event is the frame drawn after it |
| Cropper.GestureEnd | components/Cropper.jsx:108-110 | the end releases the corner and keeps the size |
| Cropper.NextGestureRegrabs | components/Cropper.jsx:45-72 | after an end the next event grabs the corner of its own touch |
| Cropper.TranslationsCompound | components/Cropper.jsx:75-105 | two events with translations a and b move a side by a + b |
| ImageUtils.LastIndexOf | utils/imageUtils.js:67 | the last position of the character, or none exactly when it is absent |
| ImageUtils.Extension | utils/imageUtils.js:67 | the text from the last dot on, or the whole text without a dot |
| ImageUtils.IsValidImage | utils/imageUtils.js:63-70 | a missing or empty uri is not an image |
| ImageUtils.ValidIffEndsWith | utils/imageUtils.js:63-70 | a uri is an image exactly when, ignoring case, it ends with one of the six extensions |
| ImageUtils.NoDotInvalid | utils/imageUtils.js:67-69 | a uri without a dot is never an image |
| ImageUtils.ValidIgnoresCase | utils/imageUtils.js:67 | the check ignores letter case |
| ImageUtils.ExtensionLower | utils/imageUtils.js:67 | lower-casing and taking the extension commute |
| ImageUtils.OnlyLastDotCounts | utils/imageUtils.js:67 | text before the last dot does not matter |
| ImageUtils.Scale | utils/imageUtils.js:25-28 | the scaled value times the screen side is the value times the photo side |
| ImageUtils.ScaleCrop | utils/imageUtils.js:22-28 | a crop for non-zero screen sides, each coordinate scaled along its own axis |
| ImageUtils.ScaleIdentity | utils/imageUtils.js:22-28 | a photo the size of the screen is cropped where the frame is |
| ImageUtils.ScaleRoundTrip | utils/imageUtils.js:22-28 | scaling to the photo and back recovers the frame |

## Left out

- The network calls to the recogniser, the camera, the image picker and
  `ImageManipulator`: they are I/O. The scaled crop is the model's result.
- ImageUtils.ScaleCrop: a zero screen side gives `None`. The source divides
  by zero there and passes `Infinity` or `NaN` on, which exact reals cannot
  express.
- `getImageDimensions` in `utils/imageUtils.js`: it loads an image, which is
  I/O.
- The mathjs evaluator is a parameter: a thrown error, `null` or a
  non-finite number is `None`. The home screen's `eval` is a parameter that
  answers with the printed result, which for a non-finite number is
  "Infinity" or "NaN"; only a throw, including printing `null` or
  `undefined`, is `None` and becomes "Unable to solve".
- `solveForY` in `components/CoordinateSystem.jsx`: nothing calls it.
- Floating point: numbers are exact reals. `toFixed(2)` rounding of the
  stored point values is not modelled.
- CoordinateSystem.SweepValue: the sweep's accumulated `0.1` step is
  modelled as the exact values `-30 + k/10` for k from 0 to 599. The
  source's doubles drift above these by about 3e-13 by the end, and the
  model keeps the same 600 samples.
- The square root of the tap distance: the model compares squared
  distances, which order points as the distances do. At scale 0 every
  JavaScript distance is infinite or NaN, so the tap misses, as in the model.
- Letter case: `toLowerCase` is modelled for A-Z only. Non-ASCII case mapping
  (which can change a text's length) is not modelled.
- `isGestureActive`: pinch, pan and tap are modelled as they run on an
  active graph (the graph screen, at scale 2). With the flag off, as on
  the home screen and in the graph panel at scale 1.2, the detector gets a
  bare `Gesture.Tap()` without handlers (components/CoordinateSystem.jsx:402),
  and none of the three runs.
- `isPanning` is set by the pan gesture's callbacks; the tap takes it as a
  parameter.
- React scheduling, animation timing, styles, icons and
  static data tables other than the degree words.
- Null or undefined inputs other than the image uri, which is an `Option`.
- Logging through `console`.

## Findings

| source | as written | input that shows it | evidently intended | confidence | as-written member | corrected member |
|---|---|---|---|---|---|---|
| components/Cropper.jsx:27-37 | `handleResize` reports the new width and height with the left and top of the size before the resize | 400 by 800 screen, 300 by 150 frame, bottom-right corner, drag 20 right: left 50 reported, frame drawn at left 40 | the report is the new frame, centred as drawn | not executed | Cropper.ResizeReportAsWritten | Cropper.ReportMatchesRender |

=== FILE: basics.dfy ===
/** Small shared vocabulary: an optional value, the JavaScript `Math.min` /
    `Math.max` clamp that every gesture handler uses, and a first-index search
    that the regular-expression scanners are built from. */
module Basics {

  /** A value that may be absent (`null` / a failed evaluation in the source). */
  datatype Option<+T> = None | Some(value: T)

  function Min(a: real, b: real): real { if a <= b then a else b }

  function Max(a: real, b: real): real { if a >= b then a else b }

  function Abs(a: real): real { if a < 0.0 then -a else a }

  /** `Math.max(lo, Math.min(hi, v))`: the clamp written out in the source.
      When the bounds are crossed (`hi < lo`) the lower bound wins. */
  function Clamp(lo: real, hi: real, v: real): (r: real)
    ensures lo <= r
    ensures lo <= hi ==> r <= hi
    ensures lo <= v <= hi ==> r == v
    ensures v < lo ==> r == lo
    ensures lo <= hi < v ==> r == hi
    ensures hi < lo ==> r == lo
  {
    Max(lo, Min(hi, v))
  }

  /** The least index `j` in `[lo, hi)` with `P(j)`, if there is one. */
  function FindFirst(P: nat -> bool, lo: nat, hi: nat): (r: Option<nat>)
    decreases hi - lo
    ensures r.Some? ==> lo <= r.value < hi && P(r.value)
    ensures r.Some? ==> forall j :: lo <= j < r.value ==> !P(j)
    ensures r.None? ==> forall j :: lo <= j < hi ==> !P(j)
  {
    if lo >= hi then None
    else if P(lo) then Some(lo)
    else FindFirst(P, lo + 1, hi)
  }
}

=== FILE: classify.dfy ===
/** The first-match rule chain shared by both expression classifiers
    (`analyzeFunction` in utils/mathUtils.js and its older copy in
    app/index.jsx): the patterns each rule tests, and which rule fires.
    Every predicate here works on the already lower-cased expression. */
module Classify {
  import opened Basics
  import opened Chars
  import opened Strings
  import opened Scan

  /** `[\+\-\*\/]` */
  predicate IsOperator(c: char) { c == '+' || c == '-' || c == '*' || c == '/' }

  predicate HasOperator(s: string) { exists i | 0 <= i < |s| :: IsOperator(s[i]) }

  /** `/[a-z]/.test(s)` */
  predicate HasLetter(s: string) { exists i | 0 <= i < |s| :: IsLowerLetter(s[i]) }

  /** `/[=]/.test(s)` */
  predicate HasEquals(s: string) { '=' in s }

  // ---------------------------------------------------------------------------
  // Rule 1: `lim.*?([a-z])\s*\\?to` (English) or `lim.*?([a-z])\s*\\to` (Turkish)

  /** What follows the captured letter: `\s*\\?to`, or `\s*\\to` when the
      backslash is required. */
  predicate LimitTail(s: string, k: nat, slashOptional: bool) {
    SpacesThen(s, k, "\\to") || (slashOptional && SpacesThen(s, k, "to"))
  }

  predicate LimitLetterAt(s: string, j: nat, slashOptional: bool) {
    j < |s| && IsLowerLetter(s[j]) && LimitTail(s, j + 1, slashOptional)
  }

  /** A way for the whole pattern to match: `lim` at `i`, the lazy `.*?`
      spanning `s[i+3..j]`, the captured letter at `j`. */
  predicate LimitWitness(s: string, i: nat, j: nat, slashOptional: bool) {
    && OccursAt(s, "lim", i)
    && i + 3 <= j < |s|
    && NoLineTerminator(s, i + 3, j)
    && LimitLetterAt(s, j, slashOptional)
  }

  /** The lazy `.*?([a-z])...` from `from`: the nearest letter that the tail
      accepts, unless a line terminator comes first. */
  function LazyLetter(s: string, from: nat, slashOptional: bool): (r: Option<nat>)
    decreases |s| - from
    ensures r.Some? ==> from <= r.value < |s| && LimitLetterAt(s, r.value, slashOptional)
    ensures r.Some? ==> NoLineTerminator(s, from, r.value)
    ensures r.Some? ==> forall j :: from <= j < r.value ==> !LimitLetterAt(s, j, slashOptional)
    ensures r.None? ==> forall j :: from <= j < |s| && NoLineTerminator(s, from, j)
                                    ==> !LimitLetterAt(s, j, slashOptional)
  {
    if from >= |s| then None
    else if LimitLetterAt(s, from, slashOptional) then Some(from)
    else if IsLineTerminator(s[from]) then None
    else LazyLetter(s, from + 1, slashOptional)
  }

  /** The leftmost start of a match at or after `i`, and the letter the lazy
      quantifier settles on there. */
  function LimitMatchFrom(s: string, i: nat, slashOptional: bool): (r: Option<(nat, nat)>)
    decreases |s| - i
    ensures r.Some? ==> i <= r.value.0 && LimitWitness(s, r.value.0, r.value.1, slashOptional)
    ensures r.Some? ==> forall i', j' :: i <= i' < r.value.0 ==> !LimitWitness(s, i', j', slashOptional)
    ensures r.Some? ==> forall j': nat :: j' < r.value.1 ==> !LimitWitness(s, r.value.0, j', slashOptional)
    ensures r.None? ==> forall i', j' :: i <= i' ==> !LimitWitness(s, i', j', slashOptional)
  {
    if i >= |s| then None
    else if OccursAt(s, "lim", i) && LazyLetter(s, i + 3, slashOptional).Some? then
      Some((i, LazyLetter(s, i + 3, slashOptional).value))
    else
      LimitMatchFrom(s, i + 1, slashOptional)
  }

  /** `match ? match[1] : ""` for the limit pattern. */
  function LimitLetter(s: string, slashOptional: bool): (r: string)
    ensures r == "" || (|r| == 1 && IsLowerLetter(r[0]))
    ensures r == "" <==> forall i, j :: !LimitWitness(s, i, j, slashOptional)
    ensures r != "" ==> exists i: nat, j: nat :: LeftmostLimit(s, i, j, slashOptional) && r == [s[j]]
  {
    match LimitMatchFrom(s, 0, slashOptional)
    case None => ""
    case Some((i, j)) =>
      assert LeftmostLimit(s, i, j, slashOptional);
      [s[j]]
  }

  /** The match a regular-expression engine reports: leftmost start, then the
      shortest `.*?`. */
  ghost predicate LeftmostLimit(s: string, i: nat, j: nat, slashOptional: bool) {
    && LimitWitness(s, i, j, slashOptional)
    && (forall i': nat, j': nat :: i' < i ==> !LimitWitness(s, i', j', slashOptional))
    && (forall j': nat :: j' < j ==> !LimitWitness(s, i, j', slashOptional))
  }

  /** A match of the backslash-only pattern is a match of the optional one. */
  lemma LimitWitnessWeakens(s: string, i: nat, j: nat)
    requires LimitWitness(s, i, j, false)
    ensures LimitWitness(s, i, j, true)
  {
  }

  // ---------------------------------------------------------------------------
  // Rule 2: `\b([a-z])(\^|\*\*)(\d+)\b`

  /** The length of `(\^|\*\*)` at `k`, or 0 when neither alternative matches. */
  function PowerLen(s: string, k: nat): (n: nat)
    ensures n <= 2
  {
    if OccursAt(s, "^", k) then 1 else if OccursAt(s, "**", k) then 2 else 0
  }

  /** Where the digits of a power written at letter `p` start. */
  function ExponentStart(s: string, p: nat): nat {
    p + 1 + PowerLen(s, p + 1)
  }

  /** The degree pattern matches with its letter at `p`; by
      `InsideDigitRunNoBoundary` the digits are the whole run. */
  predicate DegreeAt(s: string, p: nat) {
    && p < |s|
    && Boundary(s, p)
    && IsLowerLetter(s[p])
    && PowerLen(s, p + 1) > 0
    && DigitRun(s, ExponentStart(s, p)) > 0
    && Boundary(s, ExponentStart(s, p) + DigitRun(s, ExponentStart(s, p)))
  }

  function DegreeMatch(s: string): (r: Option<nat>)
    ensures r.Some? ==> DegreeAt(s, r.value)
    ensures r.Some? ==> forall q: nat :: q < r.value ==> !DegreeAt(s, q)
    ensures r.None? ==> forall q :: !DegreeAt(s, q)
  {
    var P := (p: nat) => DegreeAt(s, p);
    var r := FindFirst(P, 0, |s|);
    assert forall p: nat {:trigger P(p)} {:trigger DegreeAt(s, p)} :: P(p) == DegreeAt(s, p);
    r
  }

  /** Capture group 3, the exponent. */
  function DegreeDigits(s: string, p: nat): (d: string)
    requires DegreeAt(s, p)
    ensures |d| > 0 && forall k :: 0 <= k < |d| ==> IsDigit(d[k])
  {
    var q := ExponentStart(s, p);
    s[q..q + DigitRun(s, q)]
  }

  // ---------------------------------------------------------------------------
  // Rule 3: `\b([a-z])(\^|\*\*)?(\d+)?\b`

  /** The optional-power pattern matches with its letter at `p`, by some
      choice of the two optional groups. */
  predicate BareLetterAt(s: string, p: nat) {
    && p < |s|
    && Boundary(s, p)
    && IsLowerLetter(s[p])
    && (|| DigitsThenBoundary(s, p + 1)
        || (PowerLen(s, p + 1) > 0 && DigitsThenBoundary(s, ExponentStart(s, p))))
  }

  /** `match ? match[1] : ""` for the optional-power pattern. */
  function FirstBareLetter(s: string): (r: string)
    ensures r == "" <==> forall p :: !BareLetterAt(s, p)
    ensures r != "" ==> exists p: nat :: BareLetterAt(s, p) && r == [s[p]]
                                    && forall q: nat :: q < p ==> !BareLetterAt(s, q)
  {
    var P := (p: nat) => BareLetterAt(s, p);
    var m := FindFirst(P, 0, |s|);
    assert forall p: nat {:trigger P(p)} {:trigger BareLetterAt(s, p)} :: P(p) == BareLetterAt(s, p);
    match m
    case None => ""
    case Some(p) => [s[p]]
  }

  // ---------------------------------------------------------------------------
  // Rules 4 and 5

  /** `s.match(/[a-z]/g)`: the letters in order (`null` read as empty). */
  function Letters(s: string): (r: seq<char>)
    ensures forall c :: c in r <==> c in s && IsLowerLetter(c)
    ensures HasLetter(s) <==> |r| > 0
    ensures |r| == LetterCount(s)
  {
    if |s| == 0 then []
    else if IsLowerLetter(s[0]) then [s[0]] + Letters(s[1..])
    else Letters(s[1..])
  }

  /** The number of lower-case letters in `s`. */
  function LetterCount(s: string): nat {
    if |s| == 0 then 0
    else (if IsLowerLetter(s[0]) then 1 else 0) + LetterCount(s[1..])
  }

  /** The matches are the letters of `s` with repetitions, in text order:
      one per letter, and the letter at `k` is the match numbered by the
      count of letters before it. */
  lemma {:induction false} LettersInOrder(s: string)
    decreases |s|
    ensures forall k :: 0 <= k < |s| && IsLowerLetter(s[k]) ==>
              LetterCount(s[..k]) < |Letters(s)| && Letters(s)[LetterCount(s[..k])] == s[k]
  {
    if |s| > 0 {
      LettersInOrder(s[1..]);
      forall k | 0 <= k < |s| && IsLowerLetter(s[k])
        ensures LetterCount(s[..k]) < |Letters(s)| && Letters(s)[LetterCount(s[..k])] == s[k]
      {
        if k > 0 {
          assert s[1..][k - 1] == s[k];
        }
        LetterAtStep(s, k);
      }
    }
  }

  /** The step of `LettersInOrder`: the letter at `k` of `s` is the one at
      `k - 1` of its tail, shifted past the first character's match. */
  lemma LetterAtStep(s: string, k: nat)
    requires k < |s| && IsLowerLetter(s[k])
    requires var t := s[1..];
             k > 0 ==> LetterCount(t[..k - 1]) < |Letters(t)| && Letters(t)[LetterCount(t[..k - 1])] == s[k]
    ensures LetterCount(s[..k]) < |Letters(s)| && Letters(s)[LetterCount(s[..k])] == s[k]
  {
    if k == 0 {
      assert LetterCount(s[..0]) == 0;
    } else {
      var t := s[1..];
      var b := if IsLowerLetter(s[0]) then 1 else 0;
      assert s[..k][1..] == t[..k - 1];
      assert LetterCount(s[..k]) == b + LetterCount(t[..k - 1]);
      assert Letters(s) == (if b == 1 then [s[0]] else []) + Letters(t);
    }
  }

  /** Between two letters of the text, the one that occurs first in the
      text is the one that occurs first among the matches. */
  lemma {:induction false} LettersFirstOrder(s: string, c: char, d: char)
    requires c in s && IsLowerLetter(c) && d in s && IsLowerLetter(d)
    decreases |s|
    ensures FirstIndex(Letters(s), c) < FirstIndex(Letters(s), d) <==> FirstIndex(s, c) < FirstIndex(s, d)
  {
    var l := Letters(s);
    if s[0] != c && s[0] != d {
      assert c in s[1..] && d in s[1..];
      LettersFirstOrder(s[1..], c, d);
      if IsLowerLetter(s[0]) {
        assert l[1..] == Letters(s[1..]);
      }
    } else {
      assert l[0] == s[0];
    }
  }

  /** The distinct letters in first-occurrence order. */
  function DistinctLetters(s: string): (r: seq<char>)
    ensures forall c :: c in r <==> c in s && IsLowerLetter(c)
    ensures forall i, j :: 0 <= i < j < |r| ==> r[i] != r[j]
    ensures forall i, j :: 0 <= i < j < |r| ==> FirstIndex(s, r[i]) < FirstIndex(s, r[j])
    ensures HasLetter(s) <==> |r| > 0
  {
    var r := Distinct(Letters(s));
    DistinctLettersOrder(s, r);
    r
  }

  /** `Distinct` keeps the matches' first-occurrence order, which is the
      text's. */
  lemma DistinctLettersOrder(s: string, r: seq<char>)
    requires r == Distinct(Letters(s))
    ensures forall i, j :: 0 <= i < j < |r| ==> FirstIndex(s, r[i]) < FirstIndex(s, r[j])
  {
    var l := Letters(s);
    DistinctOrder(l);
    forall i, j | 0 <= i < j < |r|
      ensures FirstIndex(s, r[i]) < FirstIndex(s, r[j])
    {
      assert r[i] in l && r[j] in l;
      LettersFirstOrder(s, r[i], r[j]);
    }
  }

  /** The first letter of the expression, which `DistinctLetters` lists first. */
  lemma {:induction false} FirstLetterFirst(s: string, k: nat)
    requires k < |s| && IsLowerLetter(s[k])
    requires forall j :: 0 <= j < k ==> !IsLowerLetter(s[j])
    ensures DistinctLetters(s)[0] == s[k]
  {
    LettersHead(s, k);
  }

  lemma {:induction false} LettersHead(s: string, k: nat)
    requires k < |s| && IsLowerLetter(s[k])
    requires forall j :: 0 <= j < k ==> !IsLowerLetter(s[j])
    ensures |Letters(s)| > 0 && Letters(s)[0] == s[k]
    decreases k
  {
    if k > 0 {
      LettersHead(s[1..], k - 1);
    }
  }

  /** A text whose only letter is `c` has `c` as its one distinct letter. */
  lemma OnlyLetter(s: string, c: char)
    requires IsLowerLetter(c) && c in s
    requires forall i :: 0 <= i < |s| && IsLowerLetter(s[i]) ==> s[i] == c
    ensures DistinctLetters(s) == [c]
  {
    var r := DistinctLetters(s);
    assert c in r;
    forall i | 0 <= i < |r|
      ensures r[i] == c
    {
      assert r[i] in r;
      var j :| 0 <= j < |s| && s[j] == r[i];
    }
    RepeatedShort(r, c);
  }

  /** A sequence of pairwise distinct elements that all equal `c` has at
      most one element. */
  lemma RepeatedShort(r: seq<char>, c: char)
    ensures (forall i :: 0 <= i < |r| ==> r[i] == c) && (forall i, j :: 0 <= i < j < |r| ==> r[i] != r[j])
            ==> |r| <= 1
  {
    if |r| >= 2 {
      var a, b := r[0], r[1];
    }
  }

  /** The letters joined with `", "`, each letter a one-character string. */
  function JoinLetters(cs: seq<char>): string {
    Join(seq(|cs|, i requires 0 <= i < |cs| => [cs[i]]), ", ")
  }

  /** One letter is joined to itself. */
  lemma JoinOneLetter(c: char)
    ensures JoinLetters([c]) == [c]
  {
    assert seq(1, i requires 0 <= i < 1 => [[c][i]]) == [[c]];
  }

  /** The names listed for a text with `+` and `*` but no `-` or `/`. */
  lemma PlusTimesNames(s: string, names: seq<string>)
    requires NamesDistinct(names) && '+' in s && '-' !in s && '*' in s && '/' !in s
    ensures OperationNames(s, names) == [names[0], names[2]]
  {
  }

  /** The operators in the order their names are listed. */
  const OperatorOrder: string := "+-*/"

  /** A table of four different names. */
  predicate NamesDistinct(names: seq<string>) {
    |names| == 4 && forall i, j :: 0 <= i < j < 4 ==> names[i] != names[j]
  }

  /** The elements of `r` come in the order of their positions in `names`;
      in particular no name is listed twice. */
  predicate InNameOrder(r: seq<string>, names: seq<string>) {
    forall i, j, a, b ::
      (0 <= i < j < |r| && 0 <= a < |names| && 0 <= b < |names| && r[i] == names[a] && r[j] == names[b])
      ==> a < b
  }

  /** `r` names exactly the operators that occur in `s`, the k-th name
      standing for the k-th operator of `+ - * /`, in the table's order. */
  predicate ListsOperators(s: string, names: seq<string>, r: seq<string>)
    requires |names| == 4
  {
    && (forall n :: n in r ==> n in names)
    && (forall k :: 0 <= k < 4 ==> (names[k] in r <==> OperatorOrder[k] in s))
    && InNameOrder(r, names)
  }

  /** The operation names present, in the fixed order `+ - * /`. */
  function OperationNames(s: string, names: seq<string>): (r: seq<string>)
    requires NamesDistinct(names)
    ensures ListsOperators(s, names, r)
    ensures |r| > 0 <==> HasOperator(s)
  {
    HasOperatorIff(s);
    PickedMembers(s, names);
    PickedOperators(s, names);
    PickedInOrder(s, names);
    Picked(s, names)
  }

  /** The name of each operator of `+ - * /` that occurs in `s`. */
  function Picked(s: string, names: seq<string>): seq<string>
    requires |names| == 4
  {
    (if '+' in s then [names[0]] else [])
    + (if '-' in s then [names[1]] else [])
    + (if '*' in s then [names[2]] else [])
    + (if '/' in s then [names[3]] else [])
  }

  /** Every picked name comes from the table. */
  lemma PickedMembers(s: string, names: seq<string>)
    requires |names| == 4
    ensures forall n :: n in Picked(s, names) ==> n in names
  {
  }

  /** The k-th name is picked exactly when the k-th operator occurs. */
  lemma PickedOperators(s: string, names: seq<string>)
    requires NamesDistinct(names)
    ensures forall k :: 0 <= k < 4 ==> (names[k] in Picked(s, names) <==> OperatorOrder[k] in s)
  {
  }

  /** The picked names keep the table's order. */
  lemma PickedInOrder(s: string, names: seq<string>)
    requires NamesDistinct(names)
    ensures InNameOrder(Picked(s, names), names)
  {
  }

  /** Two lists drawn from `names`, with the same members and both in the
      table's order, are the same list: `ListsOperators` determines the
      names and their order. */
  lemma {:induction false} SameInNameOrder(r1: seq<string>, r2: seq<string>, names: seq<string>)
    requires forall n :: n in r1 ==> n in names
    requires forall n :: n in r1 <==> n in r2
    requires InNameOrder(r1, names) && InNameOrder(r2, names)
    ensures r1 == r2
    decreases |r1|
  {
    if |r1| == 0 {
      NoMembers(r1, r2);
    } else {
      TailFacts(r1, r2, names);
      SameInNameOrder(r1[1..], r2[1..], names);
      assert r1 == [r1[0]] + r1[1..] && r2 == [r2[0]] + r2[1..];
    }
  }

  /** A list with the members of an empty list is empty. */
  lemma NoMembers(r1: seq<string>, r2: seq<string>)
    requires |r1| == 0 && forall n :: n in r1 <==> n in r2
    ensures r2 == []
  {
    HeadIsMember(r2);
  }

  /** A list is empty or holds its first element. */
  lemma HeadIsMember(r: seq<string>)
    ensures |r| == 0 || r[0] in r
  {
  }

  /** Two non-empty lists as in `SameInNameOrder` have the same head, and
      their tails meet its requirements again. */
  lemma TailFacts(r1: seq<string>, r2: seq<string>, names: seq<string>)
    requires |r1| > 0
    requires forall n :: n in r1 ==> n in names
    requires forall n :: n in r1 <==> n in r2
    requires InNameOrder(r1, names) && InNameOrder(r2, names)
    ensures |r2| > 0 && r1[0] == r2[0]
    ensures forall n :: n in r1[1..] ==> n in names
    ensures forall n :: n in r1[1..] <==> n in r2[1..]
    ensures InNameOrder(r1[1..], names) && InNameOrder(r2[1..], names)
  {
    assert r1[0] in r1;
    assert r2[0] in r2;
    HeadsAgree(r1, r2, names);
    HeadNotInTail(r1, names);
    HeadNotInTail(r2, names);
    TailsAgree(r1, r2);
    assert forall n :: n in r1[1..] ==> n in r1;
  }

  /** Both lists start with the member that comes first in the table. */
  lemma HeadsAgree(r1: seq<string>, r2: seq<string>, names: seq<string>)
    requires |r1| > 0 && |r2| > 0
    requires forall n :: n in r1 ==> n in names
    requires forall n :: n in r1 <==> n in r2
    requires InNameOrder(r1, names) && InNameOrder(r2, names)
    ensures r1[0] == r2[0]
  {
    assert r1[0] in r1 && r2[0] in r2;
    var i :| 0 <= i < |r1| && r1[i] == r2[0];
    var j :| 0 <= j < |r2| && r2[j] == r1[0];
    var a :| 0 <= a < |names| && names[a] == r1[0];
    var b :| 0 <= b < |names| && names[b] == r2[0];
    assert i == 0 || a < b;
    assert j == 0 || b < a;
  }

  /** A list in the table's order does not repeat its head, and its tail is
      in the table's order too. */
  lemma HeadNotInTail(r: seq<string>, names: seq<string>)
    requires |r| > 0 && r[0] in names && InNameOrder(r, names)
    ensures r[0] !in r[1..] && InNameOrder(r[1..], names)
  {
    var a :| 0 <= a < |names| && names[a] == r[0];
    forall i | 0 <= i < |r| - 1
      ensures r[1..][i] != r[0]
    {
      assert r[1..][i] == r[i + 1];
    }
    var t := r[1..];
    forall i, j, a, b | 0 <= i < j < |t| && 0 <= a < |names| && 0 <= b < |names|
                        && t[i] == names[a] && t[j] == names[b]
      ensures a < b
    {
      assert r[i + 1] == names[a] && r[j + 1] == names[b];
    }
  }

  /** Removing the same head, seen nowhere else, from two lists with the
      same members leaves two tails with the same members. */
  lemma TailsAgree(r1: seq<string>, r2: seq<string>)
    requires |r1| > 0 && |r2| > 0 && r1[0] == r2[0]
    requires r1[0] !in r1[1..] && r2[0] !in r2[1..]
    requires forall n :: n in r1 <==> n in r2
    ensures forall n :: n in r1[1..] <==> n in r2[1..]
  {
    forall n
      ensures n in r1[1..] <==> n in r2[1..]
    {
      InTail(r1, n);
      InTail(r2, n);
    }
  }

  /** A member of a list is its head or a member of its tail. */
  lemma InTail(r: seq<string>, n: string)
    requires |r| > 0
    ensures n in r <==> n == r[0] || n in r[1..]
  {
    assert r == [r[0]] + r[1..];
  }

  /** Any list that names the operators of `s` in order is the one
      `OperationNames` builds. */
  lemma OperationNamesUnique(s: string, names: seq<string>, r: seq<string>)
    requires NamesDistinct(names) && ListsOperators(s, names, r)
    ensures r == OperationNames(s, names)
  {
    var o := OperationNames(s, names);
    forall n
      ensures n in r <==> n in o
    {
      if n in r || n in o {
        var k :| 0 <= k < 4 && names[k] == n;
      }
    }
    SameInNameOrder(r, o, names);
  }

  /** Lower-casing does not change which operators a text lists. */
  lemma ListsOperatorsIgnoresCase(s: string, names: seq<string>, r: seq<string>)
    requires |names| == 4 && ListsOperators(s, names, r)
    ensures ListsOperators(Lower(s), names, r)
  {
    LowerKeepsOperators(s);
  }

  /** Lower-casing keeps the four operators. */
  lemma LowerKeepsOperators(s: string)
    ensures forall k :: 0 <= k < 4 ==> (OperatorOrder[k] in Lower(s) <==> OperatorOrder[k] in s)
  {
    LowerKeeps(s, '+');
    LowerKeeps(s, '-');
    LowerKeeps(s, '*');
    LowerKeeps(s, '/');
  }

  /** An operator is present exactly when one of the four characters is. */
  lemma HasOperatorIff(s: string)
    ensures HasOperator(s) <==> '+' in s || '-' in s || '*' in s || '/' in s
  {
    if HasOperator(s) {
      var i :| 0 <= i < |s| && IsOperator(s[i]);
      assert s[i] in s;
    }
  }

  // ---------------------------------------------------------------------------
  // The rule chain

  /** What a classifier reports: the label and the letter to solve for
      (`""` when there is none). */
  datatype Analysis = Analysis(kind: string, letter: string)

  datatype Rule =
    | LimitRule
    | DegreeRule(pos: nat)
    | EquationRule
    | LettersRule
    | ArithmeticRule
    | FallbackRule

  /** The first rule whose test succeeds, in source order. */
  function SelectRule(s: string): (r: Rule)
    ensures r.DegreeRule? ==> DegreeAt(s, r.pos) && forall q: nat :: q < r.pos ==> !DegreeAt(s, q)
  {
    if Contains(s, "lim") then LimitRule
    else match DegreeMatch(s)
      case Some(p) => DegreeRule(p)
      case None =>
        if HasOperator(s) && HasEquals(s) then EquationRule
        else if HasLetter(s) then LettersRule
        else if HasOperator(s) && !HasEquals(s) && !HasLetter(s) then ArithmeticRule
        else FallbackRule
  }

  /** Precedence, stated as conditions on the input: each rule fires exactly
      when its own test holds and no earlier test does. The last two rules
      only fire on letter-free input, so the extra tests of rule 5 are never
      the ones that decide. */
  lemma RulePrecedence(s: string)
    ensures SelectRule(s) == LimitRule <==> Contains(s, "lim")
    ensures SelectRule(s).DegreeRule? <==> !Contains(s, "lim") && exists p :: DegreeAt(s, p)
    ensures SelectRule(s) == EquationRule <==>
              !Contains(s, "lim") && (forall p :: !DegreeAt(s, p)) && HasOperator(s) && HasEquals(s)
    ensures SelectRule(s) == LettersRule <==>
              && !Contains(s, "lim") && (forall p :: !DegreeAt(s, p))
              && !(HasOperator(s) && HasEquals(s)) && HasLetter(s)
    ensures SelectRule(s) == ArithmeticRule <==> HasOperator(s) && !HasEquals(s) && !HasLetter(s)
    ensures SelectRule(s) == FallbackRule <==> !HasOperator(s) && !HasLetter(s)
  {
    if Contains(s, "lim") {
      LimHasLetter(s);
    }
  }

  /** Without `lim`, the degree rule fires at the first power. */
  lemma DegreeRuleAt(s: string, p: nat)
    requires !Contains(s, "lim") && DegreeAt(s, p)
    requires forall q: nat :: q < p ==> !DegreeAt(s, q)
    ensures SelectRule(s) == DegreeRule(p)
  {
  }

  /** Without `^` and without `*` no letter carries a power. */
  lemma NoPowerNoDegree(s: string)
    requires '^' !in s && '*' !in s
    ensures forall p :: !DegreeAt(s, p)
  {
    forall p: nat
      ensures !DegreeAt(s, p)
    {
      AbsentHeadAt(s, "^", p + 1);
      AbsentHeadAt(s, "**", p + 1);
    }
  }

  /** `lim` is made of letters. */
  lemma LimHasLetter(s: string)
    requires Contains(s, "lim")
    ensures HasLetter(s)
  {
    var i := IndexOf(s, "lim").value;
    assert s[i] == s[i..i + 3][0] == 'l';
  }
}

=== FILE: coordinatesystem.dfy ===
/** components/CoordinateSystem.jsx: the curve sampler behind the graph and
    the view controller around it. The formula evaluator is a parameter: it
    takes the formula text, the name of the swept variable and its value,
    and answers with a finite number or nothing (a throw, `null` or a
    non-finite result). Values are exact reals. */
module CoordinateSystem {
  import opened Basics
  import opened Strings

  const SquareSize: real := 34.0
  /** 34 columns of 34-unit squares. */
  const AreaSize: real := 1156.0
  const MaxGap: real := 100.0
  /** `x` starts at -30 and grows by 0.1 while it is at most 30. In double
      arithmetic the 600th value is just above 29.9 and the next just above
      30, so the loop runs 600 times and never evaluates 30. */
  const SampleCount: nat := 600

  datatype Axis = X | Y

  type Evaluator = (string, Axis, real) -> Option<real>

  /** The Skia path as its drawing commands, in canvas coordinates. */
  datatype Cmd = MoveTo(x: real, y: real) | LineTo(x: real, y: real)

  /** A stored point: its canvas position and the mathematical coordinates. */
  datatype PlotPoint = PlotPoint(x: real, y: real, xValue: real, yValue: real)

  datatype Plot = Plot(path: seq<Cmd>, points: seq<PlotPoint>)

  /** The `k`-th value of the swept variable. */
  function SweepValue(k: nat): (v: real)
    ensures k < SampleCount ==> -30.0 <= v <= 29.9
    ensures v == -30.0 <==> k == 0
    ensures v == 29.9 <==> k == SampleCount - 1
  {
    -30.0 + (k as real) / 10.0
  }

  /** Only a text starting exactly with `y=` is a function of `x`. */
  predicate IsYEquation(f: string) {
    |f| >= 2 && f[..2] == "y="
  }

  /** `evaluatePoint`: a `y=` formula is evaluated in `x` with its leftmost
      `y=` removed; anything else in `y` with its leftmost `x=` removed. */
  function EvaluatePoint(eval: Evaluator, f: string, v: real, isY: bool): (r: Option<real>)
    ensures isY && IsYEquation(f) ==> r == eval(f[2..], X, v)
    ensures isY && !Contains(f, "y=") ==> r == eval(f, X, v)
    ensures !isY && !Contains(f, "x=") ==> r == eval(f, Y, v)
    ensures isY ==> forall i :: OccursAt(f, "y=", i) && (forall j :: 0 <= j < i ==> !OccursAt(f, "y=", j))
                                ==> r == eval(f[..i] + f[i + 2..], X, v)
    ensures !isY ==> forall i :: OccursAt(f, "x=", i) && (forall j :: 0 <= j < i ==> !OccursAt(f, "x=", j))
                                 ==> r == eval(f[..i] + f[i + 2..], Y, v)
  {
    ReplaceFirstAtStart(f, "y=");
    ReplaceFirstAbsent(f, "y=", "");
    ReplaceFirstAbsent(f, "x=", "");
    ReplaceFirstRemoves(f, "y=");
    ReplaceFirstRemoves(f, "x=");
    if isY then eval(ReplaceFirst(f, "y=", ""), X, v)
    else eval(ReplaceFirst(f, "x=", ""), Y, v)
  }

  /** The dependent value at sample `k`. */
  function Dep(eval: Evaluator, f: string, isY: bool, k: nat): Option<real> {
    EvaluatePoint(eval, f, SweepValue(k), isY)
  }

  /** The point for sample `k` with dependent value `d`. */
  function PointFor(isY: bool, k: nat, d: real, w: real, h: real, sq: real): (p: PlotPoint)
    ensures p.x == w / 2.0 + p.xValue * sq && p.y == h / 2.0 - p.yValue * sq
    ensures isY ==> p.xValue == SweepValue(k) && p.yValue == d
    ensures !isY ==> p.xValue == d && p.yValue == SweepValue(k)
  {
    var xv := if isY then SweepValue(k) else d;
    var yv := if isY then d else SweepValue(k);
    PlotPoint(w / 2.0 + xv * sq, h / 2.0 - yv * sq, xv, yv)
  }

  // ---------------------------------------------------------------------------
  // The sweep, one sample at a time

  /** What the loop carries between samples. */
  datatype TraceState = TraceState(path: seq<Cmd>, points: seq<PlotPoint>, last: Option<real>, drawing: bool)

  /** One loop iteration: an invalid sample only stops drawing; a valid one
      adds its point and a `lineTo`, or a `moveTo` when drawing had stopped
      or the value jumped by more than `MaxGap`. */
  function Step(st: TraceState, isY: bool, k: nat, dep: Option<real>, w: real, h: real, sq: real): (r: TraceState)
    ensures dep.None? ==> r == st.(drawing := false)
    ensures dep.Some? ==> r.last == dep && r.drawing
    ensures dep.Some? ==> r.points == st.points + [PointFor(isY, k, dep.value, w, h, sq)]
    ensures dep.Some? ==> |r.path| == |st.path| + 1 && r.path[..|st.path|] == st.path
    ensures dep.Some? ==>
              (r.path[|st.path|].MoveTo? <==>
                 !st.drawing || (st.last.Some? && Abs(dep.value - st.last.value) > MaxGap))
  {
    match dep
    case None => st.(drawing := false)
    case Some(d) =>
      var p := PointFor(isY, k, d, w, h, sq);
      var jump := st.last.Some? && Abs(d - st.last.value) > MaxGap;
      var cmd := if st.drawing && !jump then LineTo(p.x, p.y) else MoveTo(p.x, p.y);
      TraceState(st.path + [cmd], st.points + [p], Some(d), true)
  }

  /** The dependent values of the whole sweep, in sweep order. */
  function Samples(eval: Evaluator, f: string, isY: bool): (ds: seq<Option<real>>)
    ensures |ds| == SampleCount
    ensures forall k :: 0 <= k < SampleCount ==> ds[k] == Dep(eval, f, isY, k)
  {
    seq(SampleCount, k requires 0 <= k < SampleCount => Dep(eval, f, isY, k))
  }

  /** The state after the samples `ds`, the first `|ds|` of the sweep. */
  function Trace(ds: seq<Option<real>>, isY: bool, w: real, h: real, sq: real): (r: TraceState)
    decreases |ds|
    ensures |r.path| == |r.points| <= |ds|
    ensures r.drawing <==> |ds| > 0 && ds[|ds| - 1].Some?
    ensures r.drawing ==> |r.path| > 0
    ensures |r.path| > 0 ==> r.path[0].MoveTo?
  {
    if |ds| == 0 then TraceState([], [], None, false)
    else Step(Trace(ds[..|ds| - 1], isY, w, h, sq), isY, |ds| - 1, ds[|ds| - 1], w, h, sq)
  }

  // ---------------------------------------------------------------------------
  // The reference: which samples count, and where subpaths start

  /** The indices of the samples with a value, in sweep order. */
  function ValidSamples(ds: seq<Option<real>>): (vs: seq<nat>)
    decreases |ds|
    ensures forall i :: 0 <= i < |vs| ==> vs[i] < |ds| && ds[vs[i]].Some?
    ensures forall i, j :: 0 <= i < j < |vs| ==> vs[i] < vs[j]
    ensures forall k :: 0 <= k < |ds| && ds[k].Some? ==> k in vs
  {
    if |ds| == 0 then []
    else
      var vs := ValidSamples(ds[..|ds| - 1]);
      if ds[|ds| - 1].Some? then vs + [|ds| - 1] else vs
  }

  /** The `i`-th point opens a subpath: it is the first, an invalid sample
      lies between it and the previous point, or the value jumped. */
  predicate OpensSubpath(ds: seq<Option<real>>, vs: seq<nat>, i: nat)
    requires i < |vs|
    requires forall j :: 0 <= j < |vs| ==> vs[j] < |ds| && ds[vs[j]].Some?
  {
    || i == 0
    || vs[i - 1] + 1 < vs[i]
    || Abs(ds[vs[i]].value - ds[vs[i - 1]].value) > MaxGap
  }

  /** Whether the latest sample was valid is whether it is the last valid
      sample. */
  lemma ValidLast(ds: seq<Option<real>>)
    requires |ds| > 0
    ensures var vs := ValidSamples(ds);
            ds[|ds| - 1].Some? <==> |vs| > 0 && vs[|vs| - 1] == |ds| - 1
  {
    var vs := ValidSamples(ds);
    if ds[|ds| - 1].None? && |vs| > 0 {
      assert vs == ValidSamples(ds[..|ds| - 1]);
      assert vs[|vs| - 1] < |ds| - 1;
    }
  }

  /** One point and one command per valid sample; the carried value is that
      of the last valid sample, and drawing is on exactly after a valid
      sample. */
  lemma {:induction false} TraceCounts(ds: seq<Option<real>>, isY: bool, w: real, h: real, sq: real)
    decreases |ds|
    ensures var st := Trace(ds, isY, w, h, sq);
            var vs := ValidSamples(ds);
            && |st.points| == |vs| && |st.path| == |vs|
            && st.last == (if |vs| == 0 then None else ds[vs[|vs| - 1]])
            && (st.drawing <==> |ds| > 0 && ds[|ds| - 1].Some?)
  {
    if |ds| > 0 {
      TraceCounts(ds[..|ds| - 1], isY, w, h, sq);
      CountsStep(Trace(ds[..|ds| - 1], isY, w, h, sq), ds, isY, w, h, sq);
    }
  }

  /** The step of `TraceCounts`, on the state before the newest sample. */
  lemma CountsStep(prev: TraceState, ds: seq<Option<real>>, isY: bool, w: real, h: real, sq: real)
    requires |ds| > 0
    requires var vs := ValidSamples(ds[..|ds| - 1]);
             && |prev.points| == |vs| && |prev.path| == |vs|
             && prev.last == (if |vs| == 0 then None else ds[..|ds| - 1][vs[|vs| - 1]])
    ensures var st := Step(prev, isY, |ds| - 1, ds[|ds| - 1], w, h, sq);
            var vs := ValidSamples(ds);
            && |st.points| == |vs| && |st.path| == |vs|
            && st.last == (if |vs| == 0 then None else ds[vs[|vs| - 1]])
            && (st.drawing <==> ds[|ds| - 1].Some?)
  {
    var n := |ds| - 1;
    var vs := ValidSamples(ds[..n]);
    if |vs| > 0 {
      assert ds[..n][vs[|vs| - 1]] == ds[vs[|vs| - 1]];
    }
    if ds[n].Some? {
      assert ValidSamples(ds) == vs + [n];
    } else {
      assert ValidSamples(ds) == vs;
    }
  }

  /** The points of `st` are those of the samples `vs` of `ds`, in order,
      and each command is drawn at its point's canvas position. */
  predicate PointsMatch(st: TraceState, vs: seq<nat>, ds: seq<Option<real>>, isY: bool, w: real, h: real, sq: real) {
    && |st.points| == |vs| && |st.path| == |vs|
    && forall i :: 0 <= i < |vs| ==>
         && vs[i] < |ds| && ds[vs[i]].Some?
         && st.points[i] == PointFor(isY, vs[i], ds[vs[i]].value, w, h, sq)
         && st.path[i].x == st.points[i].x && st.path[i].y == st.points[i].y
  }

  /** The points are those of the valid samples in sweep order, and each
      command is drawn at its point's canvas position. */
  lemma {:induction false} TracePoints(ds: seq<Option<real>>, isY: bool, w: real, h: real, sq: real)
    decreases |ds|
    ensures PointsMatch(Trace(ds, isY, w, h, sq), ValidSamples(ds), ds, isY, w, h, sq)
  {
    if |ds| > 0 {
      var ds' := ds[..|ds| - 1];
      TracePoints(ds', isY, w, h, sq);
      PointsWiden(Trace(ds', isY, w, h, sq), ValidSamples(ds'), ds, isY, w, h, sq);
      if ds[|ds| - 1].Some? {
        PointsAppend(Trace(ds', isY, w, h, sq), ValidSamples(ds'), ds, isY, w, h, sq);
      }
    }
  }

  /** Matching the samples before the newest one is matching them in the
      whole sequence. */
  lemma PointsWiden(st: TraceState, vs: seq<nat>, ds: seq<Option<real>>, isY: bool, w: real, h: real, sq: real)
    requires |ds| > 0 && PointsMatch(st, vs, ds[..|ds| - 1], isY, w, h, sq)
    ensures PointsMatch(st, vs, ds, isY, w, h, sq)
  {
    forall i | 0 <= i < |vs|
      ensures ds[..|ds| - 1][vs[i]] == ds[vs[i]]
    {
    }
  }

  /** A valid newest sample appends its point and a command at it. */
  lemma PointsAppend(prev: TraceState, vs: seq<nat>, ds: seq<Option<real>>, isY: bool, w: real, h: real, sq: real)
    requires |ds| > 0 && ds[|ds| - 1].Some? && PointsMatch(prev, vs, ds, isY, w, h, sq)
    ensures PointsMatch(Step(prev, isY, |ds| - 1, ds[|ds| - 1], w, h, sq), vs + [|ds| - 1], ds, isY, w, h, sq)
  {
    var st := Step(prev, isY, |ds| - 1, ds[|ds| - 1], w, h, sq);
    assert st.path[..|prev.path|] == prev.path;
    forall i | 0 <= i < |vs|
      ensures st.path[i] == prev.path[i] && st.points[i] == prev.points[i]
    {
    }
  }

  /** Whether a point opens a subpath depends only on the samples up to it. */
  lemma OpensPrefix(ds: seq<Option<real>>, n: nat, vs: seq<nat>, j: nat)
    requires n <= |ds| && j < |vs|
    requires forall i :: 0 <= i < |vs| ==> vs[i] < n && ds[..n][vs[i]].Some?
    ensures forall i :: 0 <= i < |vs| ==> ds[vs[i]].Some?
    ensures OpensSubpath(ds[..n], vs, j) == OpensSubpath(ds, vs, j)
  {
    assert forall i :: 0 <= i < |vs| ==> ds[..n][vs[i]] == ds[vs[i]];
  }

  /** A `moveTo` exactly where a subpath opens. */
  lemma {:induction false} TraceMoves(ds: seq<Option<real>>, isY: bool, w: real, h: real, sq: real)
    decreases |ds|
    ensures var st := Trace(ds, isY, w, h, sq);
            var vs := ValidSamples(ds);
            && |st.path| == |vs|
            && (forall i :: 0 <= i < |vs| ==> (st.path[i].MoveTo? <==> OpensSubpath(ds, vs, i)))
  {
    if |ds| > 0 {
      var ds' := ds[..|ds| - 1];
      var prev := Trace(ds', isY, w, h, sq);
      TraceMoves(ds', isY, w, h, sq);
      TraceCounts(ds', isY, w, h, sq);
      MovesStep(ds, isY, w, h, sq, prev, ValidSamples(ds'));
      assert Trace(ds, isY, w, h, sq) == Step(prev, isY, |ds| - 1, ds[|ds| - 1], w, h, sq);
    }
  }

  /** The inductive step of `TraceMoves`, on the state before the newest
      sample. */
  lemma MovesStep(ds: seq<Option<real>>, isY: bool, w: real, h: real, sq: real, prev: TraceState, vs: seq<nat>)
    requires |ds| > 0 && vs == ValidSamples(ds[..|ds| - 1])
    requires |prev.path| == |vs|
    requires prev.last == (if |vs| == 0 then None else ds[..|ds| - 1][vs[|vs| - 1]])
    requires prev.drawing <==> |ds| > 1 && ds[..|ds| - 1][|ds| - 2].Some?
    requires forall i :: 0 <= i < |vs| ==> (prev.path[i].MoveTo? <==> OpensSubpath(ds[..|ds| - 1], vs, i))
    ensures var st := Step(prev, isY, |ds| - 1, ds[|ds| - 1], w, h, sq);
            var vs' := ValidSamples(ds);
            && |st.path| == |vs'|
            && (forall i :: 0 <= i < |vs'| ==> (st.path[i].MoveTo? <==> OpensSubpath(ds, vs', i)))
  {
    var n := |ds| - 1;
    var st := Step(prev, isY, n, ds[n], w, h, sq);
    var vs' := ValidSamples(ds);
    forall j | 0 <= j < |vs|
      ensures OpensSubpath(ds[..n], vs, j) == OpensSubpath(ds, vs, j)
    {
      OpensPrefix(ds, n, vs, j);
    }
    if ds[n].Some? {
      assert vs' == vs + [n];
      PreviousFacts(ds);
      OlderMoves(ds, isY, w, h, sq, prev, vs);
      NewestMove(ds, isY, w, h, sq, prev, vs);
    } else {
      assert vs' == vs;
    }
  }

  /** A valid newest sample leaves the earlier commands and their openings
      as they were. */
  lemma OlderMoves(ds: seq<Option<real>>, isY: bool, w: real, h: real, sq: real, prev: TraceState, vs: seq<nat>)
    requires |ds| > 0 && ds[|ds| - 1].Some?
    requires forall i :: 0 <= i < |vs| ==> vs[i] < |ds| - 1 && ds[vs[i]].Some?
    requires |prev.path| == |vs|
    requires forall i :: 0 <= i < |vs| ==> (prev.path[i].MoveTo? <==> OpensSubpath(ds, vs, i))
    ensures var st := Step(prev, isY, |ds| - 1, ds[|ds| - 1], w, h, sq);
            forall j :: 0 <= j < |vs| ==> (st.path[j].MoveTo? <==> OpensSubpath(ds, vs + [|ds| - 1], j))
  {
    var st := Step(prev, isY, |ds| - 1, ds[|ds| - 1], w, h, sq);
    forall j | 0 <= j < |vs|
      ensures st.path[j] == prev.path[j]
      ensures OpensSubpath(ds, vs + [|ds| - 1], j) == OpensSubpath(ds, vs, j)
    {
      assert st.path[..|prev.path|] == prev.path;
      OpensExtend(ds, vs, |ds| - 1, j);
    }
  }

  /** The command of a valid newest sample. */
  lemma NewestMove(ds: seq<Option<real>>, isY: bool, w: real, h: real, sq: real, prev: TraceState, vs: seq<nat>)
    requires |ds| > 0 && ds[|ds| - 1].Some?
    requires forall i :: 0 <= i < |vs| ==> vs[i] < |ds| - 1 && ds[vs[i]].Some?
    requires |prev.path| == |vs|
    requires |vs| > 0 ==> prev.last == ds[vs[|vs| - 1]]
    requires prev.drawing <==> |vs| > 0 && vs[|vs| - 1] == |ds| - 2
    ensures var st := Step(prev, isY, |ds| - 1, ds[|ds| - 1], w, h, sq);
            var vs' := vs + [|ds| - 1];
            && (forall i :: 0 <= i < |vs'| ==> vs'[i] < |ds| && ds[vs'[i]].Some?)
            && (st.path[|vs|].MoveTo? <==> OpensSubpath(ds, vs', |vs|))
  {
  }

  /** Before the newest sample: drawing was on exactly when the sample
      before it is the last valid one, and the carried value is that
      sample's. */
  lemma PreviousFacts(ds: seq<Option<real>>)
    requires |ds| > 0
    ensures var n := |ds| - 1; var vs := ValidSamples(ds[..n]);
            && (forall i :: 0 <= i < |vs| ==> vs[i] < n && ds[vs[i]].Some?)
            && ((|ds| > 1 && ds[..n][n - 1].Some?) <==> |vs| > 0 && vs[|vs| - 1] == n - 1)
            && (|vs| > 0 ==> ds[..n][vs[|vs| - 1]] == ds[vs[|vs| - 1]])
  {
    var n := |ds| - 1;
    var vs := ValidSamples(ds[..n]);
    assert forall i :: 0 <= i < |vs| ==> ds[..n][vs[i]] == ds[vs[i]];
    if n > 0 {
      ValidLast(ds[..n]);
    }
  }

  lemma OpensExtend(ds: seq<Option<real>>, vs: seq<nat>, k: nat, j: nat)
    requires j < |vs| && k < |ds| && ds[k].Some?
    requires forall i :: 0 <= i < |vs| ==> vs[i] < |ds| && ds[vs[i]].Some?
    ensures OpensSubpath(ds, vs + [k], j) == OpensSubpath(ds, vs, j)
  {
    assert (vs + [k])[j] == vs[j];
    assert j > 0 ==> (vs + [k])[j - 1] == vs[j - 1];
  }

  /** `getLinePath` without the cache: the full sweep in the orientation the
      text selects. */
  function LinePath(eval: Evaluator, f: string, w: real, h: real, sq: real): (p: Plot)
    ensures |p.path| == |p.points| <= SampleCount
    ensures |p.path| > 0 ==> p.path[0].MoveTo?
    ensures var ds := Samples(eval, f, IsYEquation(f));
            var vs := ValidSamples(ds);
            && |p.points| == |vs|
            && forall i :: 0 <= i < |vs| ==>
                 p.points[i] == PointFor(IsYEquation(f), vs[i], ds[vs[i]].value, w, h, sq)
  {
    var ds := Samples(eval, f, IsYEquation(f));
    var st := Trace(ds, IsYEquation(f), w, h, sq);
    TracePoints(ds, IsYEquation(f), w, h, sq);
    Plot(st.path, st.points)
  }

  /** The plotted path starts with a `moveTo` and has one command per point,
      one point per valid sample. */
  lemma LinePathShape(eval: Evaluator, f: string, w: real, h: real, sq: real)
    ensures var p := LinePath(eval, f, w, h, sq);
            && |p.path| == |p.points| == |ValidSamples(Samples(eval, f, IsYEquation(f)))|
            && (|p.path| > 0 ==> p.path[0].MoveTo?)
  {
    TraceMoves(Samples(eval, f, IsYEquation(f)), IsYEquation(f), w, h, sq);
    TraceCounts(Samples(eval, f, IsYEquation(f)), IsYEquation(f), w, h, sq);
  }

  /** A formula that never evaluates plots nothing. */
  lemma NothingToPlot(eval: Evaluator, f: string, w: real, h: real, sq: real)
    requires forall k: nat :: k < SampleCount ==> Dep(eval, f, IsYEquation(f), k).None?
    ensures LinePath(eval, f, w, h, sq) == Plot([], [])
  {
    TraceCounts(Samples(eval, f, IsYEquation(f)), IsYEquation(f), w, h, sq);
  }

  // ---------------------------------------------------------------------------
  // The cache

  /** `getLinePath`: a cached plot is returned as stored, keyed by the text
      alone; otherwise the sweep's plot is stored and returned. */
  function CachedLinePath(cache: map<string, Plot>, eval: Evaluator, f: string, w: real, h: real, sq: real)
    : (r: (Plot, map<string, Plot>))
    ensures f in r.1 && r.1[f] == r.0
    ensures f in cache ==> r.0 == cache[f] && r.1 == cache
    ensures f !in cache ==> r.0 == LinePath(eval, f, w, h, sq) && r.1.Keys == cache.Keys + {f}
    ensures forall g :: g in cache ==> g in r.1 && r.1[g] == cache[g]
  {
    if f in cache then (cache[f], cache)
    else
      var p := LinePath(eval, f, w, h, sq);
      (p, cache[f := p])
  }

  /** A second call with the same text returns the first result and keeps
      the cache, whatever canvas size it is given. */
  lemma RepeatedCall(cache: map<string, Plot>, eval: Evaluator, f: string,
                     w: real, h: real, sq: real, w': real, h': real, sq': real)
    ensures var first := CachedLinePath(cache, eval, f, w, h, sq);
            CachedLinePath(first.1, eval, f, w', h', sq') == first
  {
  }

  /** Every entry is the sweep of its own key on one fixed canvas. */
  ghost predicate Faithful(cache: map<string, Plot>, eval: Evaluator, w: real, h: real, sq: real) {
    forall g :: g in cache ==> cache[g] == LinePath(eval, g, w, h, sq)
  }

  /** On a fixed canvas the cache stays faithful and answers like the sweep. */
  lemma CacheFaithful(cache: map<string, Plot>, eval: Evaluator, f: string, w: real, h: real, sq: real)
    requires Faithful(cache, eval, w, h, sq)
    ensures var r := CachedLinePath(cache, eval, f, w, h, sq);
            r.0 == LinePath(eval, f, w, h, sq) && Faithful(r.1, eval, w, h, sq)
  {
  }

  // ---------------------------------------------------------------------------
  // Pinch and pan

  /** The view's shared values. */
  datatype View = View(scale: real, lastScale: real, tx: real, ty: real, startX: real, startY: real)

  /** The view as the component mounts: the given scale, a pinch baseline of
      1 and the initial offset. */
  function InitialView(scaleProp: real): (v: View)
    ensures v.scale == scaleProp && v.tx == -408.0 && v.ty == -415.0
  {
    View(scaleProp, 1.0, -34.0 * 12.0, -415.0, 0.0, 0.0)
  }

  function PinchStart(v: View): (r: View)
    ensures r.lastScale == v.scale && r.(lastScale := v.lastScale) == v
  {
    v.(lastScale := v.scale)
  }

  /** The pinch factor scales the baseline captured at the start, clamped
      to [2, 3]. */
  function PinchUpdate(v: View, factor: real): (r: View)
    ensures 2.0 <= r.scale <= 3.0
    ensures 2.0 <= v.lastScale * factor <= 3.0 ==> r.scale == v.lastScale * factor
    ensures v.lastScale * factor < 2.0 ==> r.scale == 2.0
    ensures v.lastScale * factor > 3.0 ==> r.scale == 3.0
    ensures r.(scale := v.scale) == v
  {
    v.(scale := Clamp(2.0, 3.0, v.lastScale * factor))
  }

  /** Updates within one pinch do not compound: only the latest factor counts. */
  lemma PinchLatestWins(v: View, a: real, b: real)
    ensures PinchUpdate(PinchUpdate(v, a), b) == PinchUpdate(v, b)
  {
  }

  datatype Bounds = Bounds(minX: real, maxX: real, minY: real, maxY: real)

  /** The pan limits at scale `s`. */
  function PanBounds(s: real): (b: Bounds)
    ensures b.maxX == b.maxY == (AreaSize / 2.0) * (s - 1.0)
    ensures b.minX == -b.maxX - 510.0 * (s - 1.0)
    ensures b.minY == -b.maxY - 30.0 * (s - 1.0)
    ensures s >= 1.0 ==> b.minX <= 0.0 <= b.maxX && b.minY <= 0.0 <= b.maxY
  {
    var halfWidth := (AreaSize / 2.0) * s;
    var maxX := halfWidth - AreaSize / 2.0;
    var maxY := halfWidth - AreaSize / 2.0;
    Bounds(-maxX - 30.0 * 17.0 * (s - 1.0), maxX, -maxY - 30.0 * 1.0 * (s - 1.0), maxY)
  }

  function PanStart(v: View): (r: View)
    ensures r.startX == v.tx && r.startY == v.ty
    ensures r.(startX := v.startX, startY := v.startY) == v
  {
    v.(startX := v.tx, startY := v.ty)
  }

  /** The drag moves the offset captured at the start, clamped to the
      limits of the current scale. */
  function PanUpdate(v: View, dx: real, dy: real): (r: View)
    ensures var b := PanBounds(v.scale);
            v.scale >= 1.0 ==> b.minX <= r.tx <= b.maxX && b.minY <= r.ty <= b.maxY
    ensures var b := PanBounds(v.scale);
            b.minX <= v.startX + dx <= b.maxX ==> r.tx == v.startX + dx
    ensures var b := PanBounds(v.scale);
            b.minY <= v.startY + dy <= b.maxY ==> r.ty == v.startY + dy
    ensures var b := PanBounds(v.scale);
            && (v.startX + dx < b.minX || b.maxX < b.minX ==> r.tx == b.minX)
            && (b.minX <= b.maxX < v.startX + dx ==> r.tx == b.maxX)
    ensures var b := PanBounds(v.scale);
            && (v.startY + dy < b.minY || b.maxY < b.minY ==> r.ty == b.minY)
            && (b.minY <= b.maxY < v.startY + dy ==> r.ty == b.maxY)
    ensures r.(tx := v.tx, ty := v.ty) == v
  {
    var b := PanBounds(v.scale);
    v.(tx := Clamp(b.minX, b.maxX, v.startX + dx), ty := Clamp(b.minY, b.maxY, v.startY + dy))
  }

  /** Updates within one drag do not compound. */
  lemma PanLatestWins(v: View, a: real, b: real, c: real, d: real)
    ensures PanUpdate(PanUpdate(v, a, b), c, d) == PanUpdate(v, c, d)
  {
  }

  /** The graph screen, the one mount with its gestures active, starts at
      scale 2 with an offset inside that scale's pan limits, so a drag of
      length zero leaves the view where it is. */
  lemma InitialOffsetWithinLimits()
    ensures var b := PanBounds(2.0);
            b.minX == -1088.0 && b.maxX == 578.0 && b.minY == -608.0 && b.maxY == 578.0
    ensures var v := PanStart(InitialView(2.0));
            var b := PanBounds(2.0);
            && b.minX <= v.tx <= b.maxX && b.minY <= v.ty <= b.maxY
            && PanUpdate(v, 0.0, 0.0) == v
  {
  }

  // ---------------------------------------------------------------------------
  // Tap

  /** The tapped position in graph units. */
  function TapTarget(v: View, absX: real, absY: real): (t: (real, real))
    requires v.scale != 0.0
    ensures t.0 * v.scale * SquareSize == absX - v.tx - AreaSize / 2.0
    ensures t.1 * (-v.scale) * SquareSize == absY - v.ty - AreaSize / 2.0
  {
    var tapX := absX - v.tx - AreaSize / 2.0;
    var tapY := absY - v.ty - AreaSize / 2.0;
    ((tapX / SquareSize) / v.scale, (tapY / SquareSize) / (-v.scale))
  }

  /** The squared distance; the source compares square roots, which order
      the same way, and a root is at most 1 exactly when its square is. */
  function Dist2(p: PlotPoint, t: (real, real)): (d: real)
    ensures d >= 0.0
  {
    (t.0 - p.xValue) * (t.0 - p.xValue) + (t.1 - p.yValue) * (t.1 - p.yValue)
  }

  /** The `forEach` over the first `n` points: a point replaces the best so
      far only when strictly closer. */
  function Nearest(pts: seq<PlotPoint>, t: (real, real), n: nat): (r: Option<nat>)
    requires n <= |pts|
    ensures r.None? <==> n == 0
    ensures r.Some? ==> r.value < n
    ensures r.Some? ==> forall j :: 0 <= j < n ==> Dist2(pts[r.value], t) <= Dist2(pts[j], t)
    ensures r.Some? ==> forall j :: 0 <= j < r.value ==> Dist2(pts[r.value], t) < Dist2(pts[j], t)
  {
    if n == 0 then None
    else
      var b := Nearest(pts, t, n - 1);
      if b.None? || Dist2(pts[n - 1], t) < Dist2(pts[b.value], t) then Some(n - 1) else b
  }

  /** What a tap changes: whether the coordinate text shows, and where the
      marker and the guide lines are, in graph units. The marker and the
      guides are drawn whether or not the text shows. */
  datatype TapState = TapState(showCoordinates: bool, marker: (real, real), guide: (real, real))

  /** Before any tap: no coordinate text, the marker at `(-15, -15)` and the
      guides at the origin. */
  const InitialTap: TapState := TapState(false, (-15.0, -15.0), (0.0, 0.0))

  /** The point a tap lands on: the nearest point, if it lies within
      distance 1. At scale 0 every distance is infinite or undefined and the
      tap misses. */
  function TapHit(v: View, pts: seq<PlotPoint>, absX: real, absY: real): (h: Option<nat>)
    ensures |pts| == 0 || v.scale == 0.0 ==> h.None?
    ensures h.Some? ==> h.value < |pts| && Dist2(pts[h.value], TapTarget(v, absX, absY)) <= 1.0
  {
    if v.scale == 0.0 then None
    else
      var t := TapTarget(v, absX, absY);
      match Nearest(pts, t, |pts|)
      case None => None
      case Some(i) => if Dist2(pts[i], t) <= 1.0 then Some(i) else None
  }

  /** The tap, ignored while panning. A hit shows the coordinate text and
      moves the marker and the guides to the point, with y flipped; a miss
      only hides the text, leaving the marker and the guides where they
      were. */
  function Tap(st: TapState, panning: bool, v: View, pts: seq<PlotPoint>, absX: real, absY: real): (r: TapState)
    ensures panning ==> r == st
    ensures !panning && (|pts| == 0 || v.scale == 0.0) ==> r == st.(showCoordinates := false)
    ensures !panning && !r.showCoordinates ==> r.marker == st.marker && r.guide == st.guide
    ensures !panning && r.showCoordinates ==>
              r.marker == r.guide
              && exists i :: 0 <= i < |pts| && r.guide == (pts[i].xValue, -pts[i].yValue)
                             && Dist2(pts[i], TapTarget(v, absX, absY)) <= 1.0
  {
    if panning then st
    else
      match TapHit(v, pts, absX, absY)
      case None => st.(showCoordinates := false)
      case Some(i) =>
        var p := (pts[i].xValue, -pts[i].yValue);
        TapState(true, p, p)
  }

  /** A tap hits exactly when some point lies within distance 1, and then
      the marker and the guides go to the earliest of the nearest points. */
  lemma TapHitsNearest(st: TapState, v: View, pts: seq<PlotPoint>, absX: real, absY: real)
    requires v.scale != 0.0
    ensures var t := TapTarget(v, absX, absY);
            var r := Tap(st, false, v, pts, absX, absY);
            && (r.showCoordinates <==> exists j :: 0 <= j < |pts| && Dist2(pts[j], t) <= 1.0)
            && (r.showCoordinates ==>
                  exists i :: 0 <= i < |pts| && r.guide == (pts[i].xValue, -pts[i].yValue)
                           && (forall j :: 0 <= j < |pts| ==> Dist2(pts[i], t) <= Dist2(pts[j], t))
                           && (forall j :: 0 <= j < i ==> Dist2(pts[i], t) < Dist2(pts[j], t)))
  {
    var t := TapTarget(v, absX, absY);
    var n := Nearest(pts, t, |pts|);
    if n.Some? {
      var i := n.value;
      assert Tap(st, false, v, pts, absX, absY).showCoordinates ==>
        Tap(st, false, v, pts, absX, absY).guide == (pts[i].xValue, -pts[i].yValue);
    }
  }

  /** Tapping the same spot again changes nothing. */
  lemma TapIdempotent(st: TapState, panning: bool, v: View, pts: seq<PlotPoint>, absX: real, absY: real)
    ensures var r := Tap(st, panning, v, pts, absX, absY);
            Tap(r, panning, v, pts, absX, absY) == r
  {
  }
}

=== FILE: crop.dfy ===
/** What the two crop-frame components share: the four corners a drag can
    grab, the size a drag proposes, the size limit derived from the screen,
    and the rectangle reported to the parent, which is the frame centred
    horizontally and lifted above the vertical middle of the screen. */
module Crop {
  import opened Basics

  datatype Corner = TopLeft | TopRight | BottomLeft | BottomRight
  {
    predicate IsTop() { this == TopLeft || this == TopRight }
    predicate IsLeft() { this == TopLeft || this == BottomLeft }
  }

  /** The corner of the quadrant around `(cx, cy)` in which the touch
      `(x, y)` lies; a touch on a dividing line counts as bottom or right. */
  function CornerAt(cx: real, cy: real, x: real, y: real): (c: Corner)
    ensures c.IsTop() <==> y < cy
    ensures c.IsLeft() <==> x < cx
  {
    if y < cy then (if x < cx then TopLeft else TopRight)
    else (if x < cx then BottomLeft else BottomRight)
  }

  datatype Size = Size(width: real, height: real)

  /** `Math.min(width, height) * 0.9`: the largest side the frame may take. */
  function MaxSize(screenWidth: real, screenHeight: real): (m: real)
    ensures m <= 0.9 * screenWidth && m <= 0.9 * screenHeight
    ensures m == 0.9 * screenWidth || m == 0.9 * screenHeight
  {
    Min(screenWidth, screenHeight) * 0.9
  }

  /** The size a drag of corner `c` by `(tx, ty)` proposes from `base`:
      a left corner grows the frame when moved left, a right corner when
      moved right, and likewise a top corner upwards and a bottom corner
      downwards. */
  function Dragged(c: Corner, base: Size, tx: real, ty: real): (s: Size)
    ensures (if c.IsLeft() then -tx else tx) >= 0.0 <==> s.width >= base.width
    ensures (if c.IsTop() then -ty else ty) >= 0.0 <==> s.height >= base.height
    ensures Abs(s.width - base.width) == Abs(tx) && Abs(s.height - base.height) == Abs(ty)
  {
    Size(if c.IsLeft() then base.width - tx else base.width + tx,
         if c.IsTop() then base.height - ty else base.height + ty)
  }

  /** Dragging back by the opposite translation restores the size. */
  lemma DraggedInverse(c: Corner, base: Size, tx: real, ty: real)
    ensures Dragged(c, Dragged(c, base, tx, ty), -tx, -ty) == base
  {
  }

  /** Two drags of the same corner add up. */
  lemma DraggedAdds(c: Corner, base: Size, a: real, b: real, d: real, e: real)
    ensures Dragged(c, Dragged(c, base, a, b), d, e) == Dragged(c, base, a + d, b + e)
  {
  }

  /** The rectangle reported to the parent. */
  datatype Rect = Rect(width: real, height: real, left: real, top: real)

  /** A frame of size `s` centred horizontally on a screen of the given
      size, with its centre `lift` above the screen's vertical middle. */
  function CentredRect(screenWidth: real, screenHeight: real, lift: real, s: Size): (r: Rect)
    ensures r.width == s.width && r.height == s.height
    ensures r.left + r.width / 2.0 == screenWidth / 2.0
    ensures r.top + r.height / 2.0 == screenHeight / 2.0 - lift
    ensures r.left + r.width + r.left == screenWidth
  {
    Rect(s.width, s.height, (screenWidth - s.width) / 2.0, (screenHeight - s.height) / 2.0 - lift)
  }

  /** Two reported rectangles with the same placement have the same size:
      the rectangle determines the frame. */
  lemma CentredRectInjective(screenWidth: real, screenHeight: real, lift: real, s: Size, t: Size)
    ensures CentredRect(screenWidth, screenHeight, lift, s) == CentredRect(screenWidth, screenHeight, lift, t)
            <==> s == t
  {
  }
}

=== FILE: cropper.dfy ===
/** components/Cropper.jsx: the older crop frame driven by React state.
    Each gesture event sees the state left by the previous one. The first
    event of a gesture grabs a corner (by the quadrant of the touch around
    the frame's centre), but it reads the corner that was active BEFORE that
    choice, so it resizes nothing; later events add the translation to the
    current size, floor each side at 100 and clamp it to `[50, maxSize]`.
    The end of the gesture releases the corner. The screen size is a
    parameter. */
module Cropper {
  import opened Basics
  import opened Crop

  const InitialSize: Size := Size(300.0, 150.0)
  const MinSide: real := 50.0
  const DragFloor: real := 100.0

  /** The frame's centre is a fifth of the screen height above the middle. */
  function Lift(screenHeight: real): real { screenHeight / 5.0 }

  /** The component's state: the frame's size and the grabbed corner. */
  datatype State = State(size: Size, corner: Option<Corner>)

  function Mount(): (s: State)
    ensures s.size == InitialSize && s.corner.None?
  {
    State(InitialSize, None)
  }

  /** The size `handleResize` stores: both sides clamped to `[50, maxSize]`. */
  function Resized(screenWidth: real, screenHeight: real, w: real, h: real): (r: Size)
    ensures MinSide <= r.width && MinSide <= r.height
    ensures var m := MaxSize(screenWidth, screenHeight);
            MinSide <= m ==> r.width <= m && r.height <= m
    ensures var m := MaxSize(screenWidth, screenHeight);
            (MinSide <= w <= m ==> r.width == w) && (MinSide <= h <= m ==> r.height == h)
    ensures var m := MaxSize(screenWidth, screenHeight);
            && (w < MinSide || m < MinSide ==> r.width == MinSide)
            && (MinSide <= m < w ==> r.width == m)
    ensures var m := MaxSize(screenWidth, screenHeight);
            && (h < MinSide || m < MinSide ==> r.height == MinSide)
            && (MinSide <= m < h ==> r.height == m)
  {
    var m := MaxSize(screenWidth, screenHeight);
    Size(Clamp(MinSide, m, w), Clamp(MinSide, m, h))
  }

  /** The rectangle as drawn: centred on the current size. */
  function Rendered(screenWidth: real, screenHeight: real, s: State): (r: Rect)
    ensures r.width == s.size.width && r.height == s.size.height
    ensures r.left + r.width / 2.0 == screenWidth / 2.0
    ensures r.top + r.height / 2.0 == screenHeight / 2.0 - Lift(screenHeight)
  {
    CentredRect(screenWidth, screenHeight, Lift(screenHeight), s.size)
  }

  /** The rectangle `handleResize` reports, as written: the new sides, but
      the position of the frame BEFORE the resize. */
  function ResizeReportAsWritten(screenWidth: real, screenHeight: real, s: State, w: real, h: real): (r: Rect)
    ensures var n := Resized(screenWidth, screenHeight, w, h);
            r.width == n.width && r.height == n.height
    ensures r.left + s.size.width / 2.0 == screenWidth / 2.0
    ensures r.top + s.size.height / 2.0 == screenHeight / 2.0 - Lift(screenHeight)
  {
    var n := Resized(screenWidth, screenHeight, w, h);
    var before := CentredRect(screenWidth, screenHeight, Lift(screenHeight), s.size);
    Rect(n.width, n.height, before.left, before.top)
  }

  /** The reported rectangle agrees with the one drawn after the resize
      exactly when the size did not change. */
  lemma AsWrittenMatchesRenderIff(screenWidth: real, screenHeight: real, s: State, w: real, h: real)
    ensures var n := State(Resized(screenWidth, screenHeight, w, h), s.corner);
            ResizeReportAsWritten(screenWidth, screenHeight, s, w, h) == Rendered(screenWidth, screenHeight, n)
            <==> n.size == s.size
  {
  }

  /** A concrete case: on a 400 by 800 screen, a frame of 300 by 150 dragged
      20 wider by its bottom-right corner is reported with the old left edge
      50 although the frame drawn has its left edge at 40. */
  lemma AsWrittenReportsStaleLeft()
    ensures var s := State(InitialSize, Some(BottomRight));
            var n := GestureEvent(400.0, 800.0, s, 20.0, 0.0, 390.0, 700.0);
            && n.size == Size(320.0, 150.0)
            && ResizeReportAsWritten(400.0, 800.0, s, 320.0, 150.0).left == 50.0
            && Rendered(400.0, 800.0, n).left == 40.0
  {
  }

  /** The rectangle `handleResize` evidently means to report: the new frame,
      centred. */
  function ResizeReport(screenWidth: real, screenHeight: real, s: State, w: real, h: real): (r: Rect)
    ensures var n := Resized(screenWidth, screenHeight, w, h);
            r.width == n.width && r.height == n.height
    ensures r.left + r.width / 2.0 == screenWidth / 2.0
    ensures r.top + r.height / 2.0 == screenHeight / 2.0 - Lift(screenHeight)
  {
    CentredRect(screenWidth, screenHeight, Lift(screenHeight), Resized(screenWidth, screenHeight, w, h))
  }

  /** The corrected report is always the rectangle drawn after the resize. */
  lemma ReportMatchesRender(screenWidth: real, screenHeight: real, s: State, w: real, h: real)
    ensures ResizeReport(screenWidth, screenHeight, s, w, h)
            == Rendered(screenWidth, screenHeight, State(Resized(screenWidth, screenHeight, w, h), s.corner))
  {
  }

  /** The sides an event proposes before `handleResize`: from the current
      size, through the corner that was active when the event arrived,
      floored at 100. With no corner active, the current size. */
  function Proposed(s: State, tx: real, ty: real): (p: Size)
    ensures s.corner.None? ==> p == s.size
    ensures s.corner.Some? ==> DragFloor <= p.width && DragFloor <= p.height
    ensures s.corner.Some? ==>
              var d := Dragged(s.corner.value, s.size, tx, ty);
              p == Size(Max(DragFloor, d.width), Max(DragFloor, d.height))
  {
    match s.corner
    case None => s.size
    case Some(c) =>
      var d := Dragged(c, s.size, tx, ty);
      Size(Max(DragFloor, d.width), Max(DragFloor, d.height))
  }

  /** `handleGestureEvent`: grab a corner if none is active, then resize
      through the corner that was active when the event arrived. */
  function GestureEvent(screenWidth: real, screenHeight: real, s: State,
                        tx: real, ty: real, x: real, y: real): (r: State)
    ensures s.corner.Some? ==> r.corner == s.corner
    ensures s.corner.None? ==> r.corner.Some?
    ensures s.corner.None? ==> (r.corner.value.IsTop() <==> y < screenHeight / 2.0 - Lift(screenHeight))
    ensures s.corner.None? ==> (r.corner.value.IsLeft() <==> x < screenWidth / 2.0)
    ensures s.corner.None? ==> r.size == Resized(screenWidth, screenHeight, s.size.width, s.size.height)
    ensures s.corner.Some? ==>
              var d := Dragged(s.corner.value, s.size, tx, ty);
              r.size == Resized(screenWidth, screenHeight, Max(DragFloor, d.width), Max(DragFloor, d.height))
    ensures MinSide <= r.size.width && MinSide <= r.size.height
    ensures var m := MaxSize(screenWidth, screenHeight);
            s.corner.Some? && DragFloor <= m ==> DragFloor <= r.size.width && DragFloor <= r.size.height
  {
    var corner := if s.corner.None?
      then Some(CornerAt(screenWidth / 2.0, screenHeight / 2.0 - Lift(screenHeight), x, y))
      else s.corner;
    var p := Proposed(s, tx, ty);
    State(Resized(screenWidth, screenHeight, p.width, p.height), corner)
  }

  /** The rectangle reported for an event, with the corrected report. */
  function GestureEventReport(screenWidth: real, screenHeight: real, s: State,
                              tx: real, ty: real, x: real, y: real): (r: Rect)
    ensures r == Rendered(screenWidth, screenHeight, GestureEvent(screenWidth, screenHeight, s, tx, ty, x, y))
  {
    var p := Proposed(s, tx, ty);
    ReportMatchesRender(screenWidth, screenHeight, s, p.width, p.height);
    ResizeReport(screenWidth, screenHeight, s, p.width, p.height)
  }

  /** `handleGestureEnd`: the corner is released and the size kept. */
  function GestureEnd(s: State): (r: State)
    ensures r.corner.None? && r.size == s.size
  {
    s.(corner := None)
  }

  /** After a gesture ends, the next event grabs a fresh corner by its own
      touch point, whatever corner the last gesture used. */
  lemma NextGestureRegrabs(screenWidth: real, screenHeight: real, s: State,
                           tx: real, ty: real, x: real, y: real)
    ensures var r := GestureEvent(screenWidth, screenHeight, GestureEnd(s), tx, ty, x, y);
            r.corner == Some(CornerAt(screenWidth / 2.0, screenHeight / 2.0 - Lift(screenHeight), x, y))
  {
  }

  /** Translations compound: each event adds its translation to the size
      the previous event left, so two events reporting translations `a` and
      `b` since the gesture began move a side by `a + b`, while sides stay
      within the floor and the limit. */
  lemma TranslationsCompound(screenWidth: real, screenHeight: real, s: State, a: real, b: real)
    requires s.corner == Some(BottomRight)
    requires var m := MaxSize(screenWidth, screenHeight);
             var lo := Max(DragFloor, MinSide);
             && lo <= s.size.width + a <= m && lo <= s.size.width + a + b <= m
             && lo <= s.size.height <= m
    ensures var r := GestureEvent(screenWidth, screenHeight,
                                  GestureEvent(screenWidth, screenHeight, s, a, 0.0, 0.0, 0.0), b, 0.0, 0.0, 0.0);
            r.size.width == s.size.width + a + b
  {
    var m := MaxSize(screenWidth, screenHeight);
    var s1 := GestureEvent(screenWidth, screenHeight, s, a, 0.0, 0.0, 0.0);
    assert s1.size == Size(s.size.width + a, s.size.height);
  }
}

=== FILE: homescreen.dfy ===
/** app/index.jsx: the home screen's own Turkish classifier and LaTeX
    converter, the manual-input submission that feeds them, and the parts of
    the result sheet built from their output: the instruction line, the
    labelled solutions and the function handed to the coordinate system. */
module HomeScreen {
  import opened Basics
  import opened Chars
  import opened Strings
  import opened Scan
  import opened Classify
  import opened Latex
  import MathUtils
  import ResultsPanel

  // ---------------------------------------------------------------------------
  // Labels

  const LimitKind: string := "Limiti hesaplay\U{131}n\U{131}z"
  const DegreeSuffix: string := " dereceden denklemi \U{E7}\U{F6}z\U{FC}n\U{FC}z"
  const EquationKind: string := "Denklemi \U{E7}\U{F6}z\U{FC}n\U{FC}z"
  const NoLetterEquationKind: string := "Denklem var, i\U{15F}lemleri \U{E7}\U{F6}z\U{FC}n\U{FC}z."
  const LettersSuffix: string := " i\U{E7}in denklemi \U{E7}\U{F6}z\U{FC}n\U{FC}z"
  const ArithmeticSuffix: string := " hesaplay\U{131}n\U{131}z"
  const InvalidKind: string := "Ge\U{E7}ersiz ifade"
  /** The label the result sheet tests for; no rule of the classifier
      produces it. */
  const TwoVariableKind: string := "\U{130}ki de\U{11F}i\U{15F}kenli denklem"

  const OperationWordsTr: seq<string> :=
    ["Toplam\U{131}", "\U{C7}\U{131}karm\U{131}", "\U{C7}arp\U{131}m\U{131}", "B\U{F6}l\U{FC}m\U{FC}"]

  /** The four names differ in their first letters, or, for the two
      starting with Ç, in their second. */
  lemma OperationWordsTrDistinct()
    ensures NamesDistinct(OperationWordsTr)
  {
    assert OperationWordsTr[0][0] == 'T' && OperationWordsTr[3][0] == 'B';
    assert OperationWordsTr[1][0] == '\U{C7}' && OperationWordsTr[1][1] == '\U{131}';
    assert OperationWordsTr[2][0] == '\U{C7}' && OperationWordsTr[2][1] == 'a';
  }

  /** `degreeToWord(degree)`: the Turkish ordinal for 1 to 5, else the
      exponent itself. */
  function DegreeToWord(d: string): (w: string)
    ensures d == "1" ==> w == "Birinci"
    ensures d == "2" ==> w == "\U{130}kinci"
    ensures d == "3" ==> w == "\U{DC}\U{E7}\U{FC}nc\U{FC}"
    ensures d == "4" ==> w == "D\U{F6}rd\U{FC}nc\U{FC}"
    ensures d == "5" ==> w == "Be\U{15F}inci"
    ensures d !in ["1", "2", "3", "4", "5"] ==> w == d
  {
    if d == "1" then "Birinci"
    else if d == "2" then "\U{130}kinci"
    else if d == "3" then "\U{DC}\U{E7}\U{FC}nc\U{FC}"
    else if d == "4" then "D\U{F6}rd\U{FC}nc\U{FC}"
    else if d == "5" then "Be\U{15F}inci"
    else d
  }

  /** Different exponents give different ordinals. */
  lemma DegreeToWordInjective(d: string, e: string)
    requires Numeral(d) && Numeral(e)
    requires DegreeToWord(d) == DegreeToWord(e)
    ensures d == e
  {
    assert IsDigit(d[0]) && IsDigit(e[0]);
  }

  // ---------------------------------------------------------------------------
  // The Turkish classifier

  /** `analyzeFunction(ifade)`: the same rule chain as the English
      classifier, except that the limit pattern requires the backslash of
      `\to`, an equation without letters has a label of its own, and the
      letters rule has no two-variable case. */
  function AnalyzeTr(e: string): (a: Analysis)
    ensures a.letter == "" || (|a.letter| == 1 && IsLowerLetter(a.letter[0]) && a.letter[0] in Lower(e))
  {
    var s := Lower(e);
    match SelectRule(s)
    case LimitRule =>
      var l := LimitLetter(s, false);
      assert l != "" ==> l[0] in s;
      Analysis(LimitKind, l)
    case DegreeRule(p) =>
      Analysis(DegreeToWord(DegreeDigits(s, p)) + DegreeSuffix, [s[p]])
    case EquationRule =>
      if HasLetter(s) then
        var l := FirstBareLetter(s);
        assert l != "" ==> l[0] in s;
        Analysis(EquationKind, l)
      else Analysis(NoLetterEquationKind, "")
    case LettersRule =>
      var vs := DistinctLetters(s);
      Analysis(JoinLetters(vs) + LettersSuffix, [vs[0]])
    case ArithmeticRule =>
      OperationWordsTrDistinct();
      Analysis(Join(OperationNames(s, OperationWordsTr), ", ") + ArithmeticSuffix, "")
    case FallbackRule =>
      Analysis(InvalidKind, "")
  }

  /** An arithmetic expression is labelled with the Turkish names of
      exactly the operators it contains, in the order `+ - * /`, followed
      by "hesaplayınız", and has no letter. */
  lemma ArithmeticNamesTr(e: string)
    requires SelectRule(Lower(e)) == ArithmeticRule
    ensures AnalyzeTr(e).letter == ""
    ensures forall r :: ListsOperators(e, OperationWordsTr, r) ==> AnalyzeTr(e).kind == Join(r, ", ") + ArithmeticSuffix
  {
    OperationWordsTrDistinct();
    var o := OperationNames(Lower(e), OperationWordsTr);
    ArithmeticAnalysisTr(e);
    forall r | ListsOperators(e, OperationWordsTr, r)
      ensures r == o
    {
      ListsOperatorsIgnoresCase(e, OperationWordsTr, r);
      OperationNamesUnique(Lower(e), OperationWordsTr, r);
    }
  }

  /** The arithmetic branch of the Turkish classifier. */
  lemma ArithmeticAnalysisTr(e: string)
    requires SelectRule(Lower(e)) == ArithmeticRule
    ensures (OperationWordsTrDistinct(); AnalyzeTr(e) == Analysis(Join(OperationNames(Lower(e), OperationWordsTr), ", ") + ArithmeticSuffix, ""))
  {
  }

  lemma AnalyzeTrIgnoresCase(e: string)
    ensures AnalyzeTr(e) == AnalyzeTr(Lower(e))
  {
    LowerIdempotent(e);
  }

  /** The last character of each label: `z` for every rule but the two
      below, a full stop for the letter-free equation and `e` for the
      invalid expression. */
  lemma KindEnding(e: string)
    ensures var k := AnalyzeTr(e).kind; var s := Lower(e);
            && |k| > 0
            && (k[|k| - 1] == '.' <==> SelectRule(s) == EquationRule && !HasLetter(s))
            && (k[|k| - 1] == 'e' <==> SelectRule(s) == FallbackRule)
            && (k[|k| - 1] == 'z' <==> !(SelectRule(s) == EquationRule && !HasLetter(s)) && SelectRule(s) != FallbackRule)
  {
  }

  /** The result sheet's two-variable label never comes out of the
      classifier, in either language's spelling. */
  lemma NeverTwoVariable(e: string)
    ensures AnalyzeTr(e).kind != TwoVariableKind
    ensures AnalyzeTr(e).kind != ResultsPanel.TwoVariable
  {
    KindEnding(e);
    var k := AnalyzeTr(e).kind;
    assert TwoVariableKind[|TwoVariableKind| - 1] == 'm';
    assert ResultsPanel.TwoVariable[|ResultsPanel.TwoVariable| - 1] == 'n';
  }

  /** "Geçersiz ifade" exactly when there is neither operator nor letter. */
  lemma InvalidLabel(e: string)
    ensures var s := Lower(e);
            AnalyzeTr(e).kind == InvalidKind <==> !HasOperator(s) && !HasLetter(s)
  {
    KindEnding(e);
    RulePrecedence(Lower(e));
    assert InvalidKind[|InvalidKind| - 1] == 'e';
  }

  /** The letter-free equation label exactly when an operator and `=`
      appear, no earlier rule fires and there is no letter. */
  lemma NoLetterEquationLabel(e: string)
    ensures var s := Lower(e);
            AnalyzeTr(e).kind == NoLetterEquationKind <==>
              !Contains(s, "lim") && (forall p :: !DegreeAt(s, p)) && HasOperator(s) && HasEquals(s) && !HasLetter(s)
  {
    KindEnding(e);
    RulePrecedence(Lower(e));
    var s := Lower(e);
    if SelectRule(s) == EquationRule && !HasLetter(s) {
      assert AnalyzeTr(e).kind == NoLetterEquationKind;
    }
    assert NoLetterEquationKind[|NoLetterEquationKind| - 1] == '.';
  }

  /** A limit letter under the Turkish pattern means the English pattern,
      whose backslash is optional, finds one too. */
  lemma LimitLetterSharper(e: string)
    requires SelectRule(Lower(e)) == LimitRule && AnalyzeTr(e).letter != ""
    ensures MathUtils.Analyze(e).letter != ""
  {
    var s := Lower(e);
    var i: nat, j: nat :| LimitWitness(s, i, j, false);
    LimitWitnessWeakens(s, i, j);
  }

  /** Outside the limit rule and the English two-variable case, both
      classifiers solve for the same letter. */
  lemma SameLetter(e: string)
    requires var s := Lower(e);
             SelectRule(s) != LimitRule && !(SelectRule(s) == LettersRule && 'x' in s && 'y' in s)
    ensures AnalyzeTr(e).letter == MathUtils.Analyze(e).letter
  {
  }

  /** `\\to` cannot follow anything in a text without a backslash. */
  lemma {:induction false} NoBackslashNoTail(s: string, k: nat)
    requires '\\' !in s
    decreases |s| - k
    ensures !SpacesThen(s, k, "\\to")
  {
    AbsentHeadAt(s, "\\to", k);
    if k < |s| {
      NoBackslashNoTail(s, k + 1);
    }
  }

  /** Without a backslash the Turkish limit pattern never matches. */
  lemma NoBackslashNoLimit(s: string)
    requires '\\' !in s
    ensures LimitLetter(s, false) == ""
  {
    forall i: nat, j: nat
      ensures !LimitWitness(s, i, j, false)
    {
      NoBackslashNoTail(s, j + 1);
    }
  }

  /** A limit written without any backslash gets no letter from the
      Turkish classifier. */
  lemma LimitNeedsBackslash(e: string)
    requires SelectRule(Lower(e)) == LimitRule && '\\' !in e
    ensures AnalyzeTr(e) == Analysis(LimitKind, "")
  {
    LowerKeeps(e, '\\');
    NoBackslashNoLimit(Lower(e));
  }

  /** The Turkish limit branch: the letter is the one the leftmost match of
      the pattern with a mandatory backslash before `to` captures, or empty
      without a match. */
  lemma LimitBranchTr(e: string)
    requires Contains(Lower(e), "lim")
    ensures AnalyzeTr(e) == Analysis(LimitKind, LimitLetter(Lower(e), false))
    ensures AnalyzeTr(e).letter == "" <==> forall i, j :: !LimitWitness(Lower(e), i, j, false)
    ensures AnalyzeTr(e).letter != "" ==>
              exists i: nat, j: nat :: LeftmostLimit(Lower(e), i, j, false) && AnalyzeTr(e).letter == [Lower(e)[j]]
  {
    RulePrecedence(Lower(e));
  }

  /** Without the backslash the Turkish classifier finds no limit letter,
      where the English one finds `x`. */
  lemma LimitWithoutBackslash(e: string)
    requires e == "lim x to 0"
    ensures AnalyzeTr(e) == Analysis(LimitKind, "")
    ensures MathUtils.Analyze(e).letter == "x"
  {
    MathUtils.LimitExample(e);
    assert '\\' !in e;
    LimitNeedsBackslash(e);
  }

  /** The two converters: the Turkish one is the seven shared rewrites
      without the function-name escapes. */
  function ToLatexTr(e: string): (r: string)
    ensures forall c :: c in r ==> c != '*' && !IsUpperAscii(c)
  {
    Rewrite(e)
  }

  /** The English converter is the Turkish one followed by the escapes. */
  lemma EnglishEscapesTurkish(e: string)
    ensures MathUtils.ToLatex(e) == (if e == "" then "" else EscapeFunctions(ToLatexTr(e)))
  {
  }

  // ---------------------------------------------------------------------------
  // Manual input

  /** The screen state a submission writes. */
  datatype Screen = Screen(
    response: string,     // the LaTeX shown as the recognised expression
    kind: string,         // the classifier's label
    letter: string,       // the letter to solve for, "" for none
    isolated: string,     // the function handed to the coordinate system
    solutions: seq<string>)

  /** What the coordinate system is given after submitting `f`: an
      expression without `=` directly, an equation with one `=` that
      mentions `y` in either case as well, anything else leaves the
      previous function. */
  function GraphSource(previous: string, f: string): (g: string)
    ensures g == f || g == previous
    ensures g == f <== '=' !in f || (multiset(f)['='] == 1 && 'y' in Lower(f))
    ensures g == previous <== '=' in f && !(multiset(f)['='] == 1 && 'y' in Lower(f))
  {
    if '=' in f then
      var parts := Split(f, '=');
      if |parts| == 2 && 'y' in Lower(f) then f else previous
    else f
  }

  /** The expression the source hands to `eval` for a one-`=` equation
      `l = r`: the difference `r-(l)`. */
  function SolveText(f: string): (t: string)
    requires multiset(f)['='] == 1
    ensures exists l, r :: '=' !in l && '=' !in r && f == l + "=" + r && t == r + "-(" + l + ")"
  {
    var parts := Split(f, '=');
    SplitJoin(f, '=');
    SplitPieces(f, '=');
    assert Join(parts, "=") == parts[0] + "=" + Join(parts[1..], "=");
    assert f == parts[0] + "=" + parts[1];
    parts[1] + "-(" + parts[0] + ")"
  }

  /** The solution list after submitting `f`: an equation with one `=` and
      no lower-case `y` is handed to the evaluator, whose printed result (or
      "Unable to solve" when it throws) becomes the only solution; anything
      else keeps the previous list. */
  function SolveAttempt(previous: seq<string>, f: string, eval: string -> Option<string>): (r: seq<string>)
    ensures '=' in f && 'y' !in f && multiset(f)['='] == 1 ==>
              r == [match eval(SolveText(f)) case Some(v) => v case None => "Unable to solve"]
    ensures !('=' in f && 'y' !in f && multiset(f)['='] == 1) ==> r == previous
  {
    if '=' in f && 'y' !in f then
      var parts := Split(f, '=');
      if |parts| == 2 then
        match eval(SolveText(f))
        case Some(v) => [v]
        case None => ["Unable to solve"]
      else previous
    else previous
  }

  /** `handleManualInputSubmit()`: blank input is ignored; otherwise the
      trimmed text is converted, classified, offered to the graph and, when
      it is a simple equation, solved. The evaluator stands for `eval`. */
  function ManualSubmit(screen: Screen, input: string, eval: string -> Option<string>): (next: Screen)
    ensures Trim(input) == "" ==> next == screen
    ensures Trim(input) != "" ==>
              && next.response == ToLatexTr(Trim(input))
              && next.kind == AnalyzeTr(Trim(input)).kind
              && next.letter == AnalyzeTr(Trim(input)).letter
              && next.isolated == GraphSource(screen.isolated, Trim(input))
              && next.solutions == SolveAttempt(screen.solutions, Trim(input), eval)
  {
    var f := Trim(input);
    if f == "" then screen
    else
      var a := AnalyzeTr(f);
      Screen(ToLatexTr(f), a.kind, a.letter, GraphSource(screen.isolated, f),
             SolveAttempt(screen.solutions, f, eval))
  }

  /** Submitting the same text twice leaves the screen as the first
      submission left it. */
  lemma ManualSubmitIdempotent(screen: Screen, input: string, eval: string -> Option<string>)
    ensures var once := ManualSubmit(screen, input, eval);
            ManualSubmit(once, input, eval) == once
  {
  }

  // ---------------------------------------------------------------------------
  // The result sheet

  /** The instruction under the recognised expression (lines 756-759). */
  function InstructionTr(kind: string, letter: string): (r: string)
    ensures letter != "" ==> r == letter + " i\U{E7}in \U{E7}\U{F6}z\U{FC}n\U{FC}z"
    ensures letter == "" && kind == TwoVariableKind ==> r == "\U{130}\U{15F}lemi sadele\U{15F}tiriniz"
    ensures letter == "" && kind != TwoVariableKind ==> r == "Hesaplay\U{131}n\U{131}z"
  {
    if letter != "" then letter + " i\U{E7}in \U{E7}\U{F6}z\U{FC}n\U{FC}z"
    else if kind == TwoVariableKind then "\U{130}\U{15F}lemi sadele\U{15F}tiriniz"
    else "Hesaplay\U{131}n\U{131}z"
  }

  /** For the classifier's own output the simplification instruction never
      appears: without a letter the sheet always says "Hesaplayınız". */
  lemma InstructionForAnalysisTr(e: string)
    ensures var a := AnalyzeTr(e); var t := InstructionTr(a.kind, a.letter);
            && t != "\U{130}\U{15F}lemi sadele\U{15F}tiriniz"
            && (t == "Hesaplay\U{131}n\U{131}z" <==> a.letter == "")
  {
    NeverTwoVariable(e);
    var a := AnalyzeTr(e);
    if a.letter != "" {
      var t := InstructionTr(a.kind, a.letter);
      assert t[|t| - 1] == 'z' && t[0] != 'H' && t[0] != '\U{130}';
    }
  }

  /** The solution formulas (lines 765-791): the isolated form for the
      two-variable label, else one labelled formula per solution. */
  function RenderTr(kind: string, letter: string, isolated: string, solutions: seq<string>): (blocks: seq<string>)
    ensures kind == TwoVariableKind ==> blocks == [ToLatexTr(isolated)]
    ensures kind != TwoVariableKind ==> |blocks| == |solutions|
    ensures kind != TwoVariableKind ==>
              forall i :: 0 <= i < |solutions| ==>
                blocks[i] == ResultsPanel.SolutionPrefix(letter, |solutions|, i) + " " + ToLatexTr(solutions[i])
  {
    if kind == TwoVariableKind then [ToLatexTr(isolated)]
    else seq(|solutions|, i requires 0 <= i < |solutions| =>
               ResultsPanel.SolutionPrefix(letter, |solutions|, i) + " " + ToLatexTr(solutions[i]))
  }

  /** For the classifier's output and at least one solution the home screen
      shows exactly what the English results panel would show with the
      Turkish converter; with no solution it shows nothing at all. */
  lemma RenderTrMatchesPanel(e: string, response: string, isolated: string, solutions: seq<string>)
    ensures var a := AnalyzeTr(e);
            var blocks := RenderTr(a.kind, a.letter, isolated, solutions);
            && (|solutions| == 0 ==> blocks == [])
            && (|solutions| > 0 ==>
                  blocks == ResultsPanel.RenderSolution(a.kind, a.letter, response, isolated, solutions, ToLatexTr))
  {
    NeverTwoVariable(e);
  }

  /** The function given to the coordinate system (lines 839-841): none when
      nothing was isolated, else the text with its first `**` turned into
      `^`. */
  function GraphedFunction(isolated: string): (g: Option<string>)
    ensures isolated == "" <==> g.None?
    ensures g.Some? && !Contains(isolated, "**") ==> g.value == isolated
    ensures g.Some? && Contains(isolated, "**") ==>
              var i := IndexOf(isolated, "**").value;
              |g.value| == |isolated| - 1 && g.value[i] == '^'
              && g.value[..i] == isolated[..i] && g.value[i + 1..] == isolated[i + 2..]
  {
    if isolated == "" then None else Some(ReplaceFirst(isolated, "**", "^"))
  }
}

=== FILE: imageutils.dfy ===
/** utils/imageUtils.js: the check that a picked file is an image, by the
    extension after its last dot, and the scaling of the crop rectangle
    from screen coordinates to the photo's pixels. */
module ImageUtils {
  import opened Basics
  import opened Chars
  import opened Strings
  import opened Crop

  const ValidExtensions: seq<string> := [".jpg", ".jpeg", ".png", ".gif", ".bmp", ".webp"]

  /** `lastIndexOf(c)`: the last position of `c` in `s`, if any. */
  function LastIndexOf(s: string, c: char): (r: Option<nat>)
    ensures r.Some? ==> r.value < |s| && s[r.value] == c
    ensures r.Some? ==> forall j :: r.value < j < |s| ==> s[j] != c
    ensures r.None? <==> c !in s
  {
    if |s| == 0 then None
    else if s[|s| - 1] == c then Some(|s| - 1)
    else LastIndexOf(s[..|s| - 1], c)
  }

  /** `substring(lastIndexOf('.'))`: from the last dot on; without a dot
      the index is -1, which `substring` treats as 0, so the whole text. */
  function Extension(s: string): (e: string)
    ensures |e| <= |s| && e == s[|s| - |e|..]
    ensures '.' in s ==> |e| > 0 && e[0] == '.' && '.' !in e[1..]
    ensures '.' !in s ==> e == s
  {
    match LastIndexOf(s, '.')
    case None => s
    case Some(i) =>
      NoneAfter(s, i, '.');
      assert s[i..][1..] == s[i + 1..];
      s[i..]
  }

  /** A character absent after position `i` is absent from that suffix. */
  lemma NoneAfter(s: string, i: nat, c: char)
    requires i < |s|
    requires forall j :: i < j < |s| ==> s[j] != c
    ensures c !in s[i + 1..]
  {
  }

  /** The converse of `NoneAfter`. */
  lemma AfterFree(s: string, i: nat, c: char)
    requires i < |s|
    requires c !in s[i + 1..]
    ensures forall j :: i < j < |s| ==> s[j] != c
  {
    forall j | i < j < |s|
      ensures s[j] != c
    {
      assert s[j] == s[i + 1..][j - i - 1];
    }
  }

  /** `isValidImage(uri)`: a missing or empty uri is not an image; otherwise
      the lower-cased extension must be one of the six known ones. */
  function IsValidImage(uri: Option<string>): (b: bool)
    ensures uri.None? || uri == Some("") ==> !b
  {
    uri.Some? && uri.value != "" && Lower(Extension(uri.value)) in ValidExtensions
  }

  /** Every known extension is a dot followed by dot-free text. */
  lemma ExtensionsShape(e: string)
    requires e in ValidExtensions
    ensures |e| > 1 && e[0] == '.' && '.' !in e[1..]
  {
    assert '.' !in ".jpg"[1..] && '.' !in ".jpeg"[1..] && '.' !in ".png"[1..];
    assert '.' !in ".gif"[1..] && '.' !in ".bmp"[1..] && '.' !in ".webp"[1..];
  }

  /** Lower-casing turns nothing into a dot and a dot into nothing else. */
  lemma LowerDot(c: char)
    ensures LowerChar(c) == '.' <==> c == '.'
  {
  }

  /** Lower-casing a text has a dot exactly where the text has one. */
  lemma LowerDots(s: string)
    ensures '.' in Lower(s) <==> '.' in s
  {
    LowerKeeps(s, '.');
  }

  /** Lower-casing commutes with taking a suffix. */
  lemma LowerSuffix(s: string, k: nat)
    requires k <= |s|
    ensures Lower(s)[k..] == Lower(s[k..])
  {
  }

  /** A dot with no dot after it is the one `lastIndexOf` finds. */
  lemma {:induction false} DotAtLast(s: string, k: nat)
    requires k < |s| && s[k] == '.'
    requires forall j :: k < j < |s| ==> s[j] != '.'
    ensures LastIndexOf(s, '.') == Some(k)
  {
    if k < |s| - 1 {
      assert s[|s| - 1] != '.';
      var p := s[..|s| - 1];
      assert forall j :: k < j < |p| ==> p[j] == s[j];
      DotAtLast(p, k);
    }
  }

  /** The extension starts at a dot that has no dot after it. */
  lemma ExtensionAt(s: string, k: nat)
    requires k < |s| && s[k] == '.' && '.' !in s[k + 1..]
    ensures Extension(s) == s[k..]
  {
    AfterFree(s, k, '.');
    DotAtLast(s, k);
  }

  /** A suffix that lower-cases to a dot followed by dot-free text is the
      extension. */
  lemma ExtensionOfSuffix(s: string, k: nat, e: string)
    requires k < |s| && |e| > 0 && e[0] == '.' && '.' !in e[1..]
    requires Lower(s[k..]) == e
    ensures Extension(s) == s[k..]
  {
    var t := s[k..];
    assert LowerChar(t[0]) == '.';
    LowerDot(t[0]);
    assert Lower(t)[1..] == Lower(t[1..]);
    LowerDots(t[1..]);
    assert t[1..] == s[k + 1..];
    ExtensionAt(s, k);
  }

  /** A uri is an image exactly when it ends, ignoring case, with one of
      the known extensions: only the last dot matters. */
  lemma ValidIffEndsWith(s: string)
    ensures IsValidImage(Some(s)) <==>
            exists e :: e in ValidExtensions && |e| <= |s| && Lower(s[|s| - |e|..]) == e
  {
    if IsValidImage(Some(s)) {
      var e := Lower(Extension(s));
      assert e in ValidExtensions && Lower(s[|s| - |e|..]) == e;
    }
    if exists e :: e in ValidExtensions && |e| <= |s| && Lower(s[|s| - |e|..]) == e {
      var e :| e in ValidExtensions && |e| <= |s| && Lower(s[|s| - |e|..]) == e;
      ExtensionsShape(e);
      ExtensionOfSuffix(s, |s| - |e|, e);
    }
  }

  /** A uri without a dot is never an image, whatever it spells. */
  lemma NoDotInvalid(s: string)
    requires '.' !in s
    ensures !IsValidImage(Some(s))
  {
    LowerDots(s);
    if Lower(s) in ValidExtensions {
      ExtensionsShape(Lower(s));
    }
  }

  /** The check ignores letter case. */
  lemma ValidIgnoresCase(s: string)
    ensures IsValidImage(Some(Lower(s))) == IsValidImage(Some(s))
  {
    ExtensionLower(s);
    LowerIdempotent(Extension(s));
  }

  /** Lower-casing and taking the extension commute. */
  lemma ExtensionLower(s: string)
    ensures Extension(Lower(s)) == Lower(Extension(s))
  {
    if '.' in s {
      LastDotLower(s, LastIndexOf(s, '.').value);
    } else {
      LowerDots(s);
    }
  }

  /** The last dot of a text is the last dot of its lower-cased form. */
  lemma LastDotLower(s: string, i: nat)
    requires LastIndexOf(s, '.') == Some(i)
    ensures Extension(Lower(s)) == Lower(s[i..])
  {
    var l := Lower(s);
    assert l[i] == '.';
    NoneAfter(s, i, '.');
    assert Lower(s[i + 1..]) == l[i + 1..];
    LowerDots(s[i + 1..]);
    ExtensionAt(l, i);
    LowerSuffix(s, i);
  }

  /** Text before the last dot does not matter. */
  lemma OnlyLastDotCounts(a: string, b: string)
    requires '.' !in b
    ensures IsValidImage(Some(a + "." + b)) == IsValidImage(Some("." + b))
  {
    var s := a + "." + b;
    var t := "." + b;
    assert s[|a|] == '.' && s[|a| + 1..] == b && s[|a|..] == t;
    ExtensionAt(s, |a|);
    assert t[1..] == b;
    ExtensionAt(t, 0);
  }

  /** One coordinate carried from the screen to the photo along an axis:
      `v * photo / screen`. */
  function Scale(v: real, photo: real, screen: real): (r: real)
    requires screen != 0.0
    ensures r * screen == v * photo
  {
    v * photo / screen
  }

  /** The crop rectangle in photo pixels: horizontal values scaled by
      `photoWidth / screenWidth` and vertical values by
      `photoHeight / screenHeight`. With a zero screen side the source
      divides by zero and hands `Infinity` or `NaN` to the image
      manipulator; the model stops there with `None`. */
  function ScaleCrop(crop: Rect, photoWidth: real, photoHeight: real,
                     screenWidth: real, screenHeight: real): (r: Option<Rect>)
    ensures r.Some? <==> screenWidth != 0.0 && screenHeight != 0.0
    ensures r.Some? ==> r.value.left * screenWidth == crop.left * photoWidth
    ensures r.Some? ==> r.value.width * screenWidth == crop.width * photoWidth
    ensures r.Some? ==> r.value.top * screenHeight == crop.top * photoHeight
    ensures r.Some? ==> r.value.height * screenHeight == crop.height * photoHeight
  {
    if screenWidth == 0.0 || screenHeight == 0.0 then None
    else Some(Rect(Scale(crop.width, photoWidth, screenWidth), Scale(crop.height, photoHeight, screenHeight),
                   Scale(crop.left, photoWidth, screenWidth), Scale(crop.top, photoHeight, screenHeight)))
  }

  /** Equal photo and screen sides leave a coordinate where it is. */
  lemma ScaleSame(v: real, w: real)
    requires w != 0.0
    ensures Scale(v, w, w) == v
  {
    var r := Scale(v, w, w);
    assert r * w == v * w;
    assert (r - v) * w == 0.0;
  }

  /** Scaling to the photo and back to the screen restores a coordinate. */
  lemma ScaleBack(v: real, photo: real, screen: real)
    requires photo != 0.0 && screen != 0.0
    ensures Scale(Scale(v, photo, screen), screen, photo) == v
  {
    var a := Scale(v, photo, screen);
    var b := Scale(a, screen, photo);
    assert b * photo == a * screen;
    assert a * screen == v * photo;
    assert (b - v) * photo == 0.0;
  }

  /** A photo the size of the screen is cropped exactly where the frame is. */
  lemma ScaleIdentity(crop: Rect, w: real, h: real)
    requires w != 0.0 && h != 0.0
    ensures ScaleCrop(crop, w, h, w, h) == Some(crop)
  {
    ScaleSame(crop.left, w);
    ScaleSame(crop.width, w);
    ScaleSame(crop.top, h);
    ScaleSame(crop.height, h);
  }

  /** Scaling back from the photo to the screen recovers the frame. */
  lemma ScaleRoundTrip(crop: Rect, photoWidth: real, photoHeight: real,
                       screenWidth: real, screenHeight: real)
    requires photoWidth != 0.0 && photoHeight != 0.0
    requires screenWidth != 0.0 && screenHeight != 0.0
    ensures var p := ScaleCrop(crop, photoWidth, photoHeight, screenWidth, screenHeight);
            p.Some? && ScaleCrop(p.value, screenWidth, screenHeight, photoWidth, photoHeight) == Some(crop)
  {
    ScaleBack(crop.left, photoWidth, screenWidth);
    ScaleBack(crop.width, photoWidth, screenWidth);
    ScaleBack(crop.top, photoHeight, screenHeight);
    ScaleBack(crop.height, photoHeight, screenHeight);
  }
}

=== FILE: latex.dfy ===
/** The ordered string rewrites of `toLatex`. Each global `replace` of the
    source is one function; a scan over position `i` keeps the whole string in
    view so look-behind can see the character before `i`. Every step promises
    which characters can appear in its output: those of its input and those
    of the text it inserts. */
module Latex {
  import opened Basics
  import opened Chars
  import opened Strings
  import opened Scan

  // Step 1, `replace(/\*\*/g, "^")`.
  function PowerMarks(s: string): (r: string)
    ensures forall c :: c in r ==> c in s || c == '^'
  {
    ReplaceAll(s, "**", "^")
  }

  // Step 3, `replace(/\*/g, "")`: every `*` goes, everything else stays.
  function DropStars(s: string): (r: string)
    ensures '*' !in r
    ensures forall c :: c in r ==> c in s
  {
    ReplaceAllRemoves(s, '*', "");
    ReplaceAll(s, "*", "")
  }

  // ---------------------------------------------------------------------------
  // Step 4, `replace(/sqrt\(([^)]+)\)/g, "\\sqrt{$1}")`

  /** The longest run of characters other than `)` from `k` (greedy `[^)]*`). */
  function OpenRun(s: string, k: nat): (n: nat)
    decreases |s| - k
    ensures n == 0 || k + n <= |s|
    ensures forall t :: k <= t < k + n ==> s[t] != ')'
    ensures k + n < |s| ==> s[k + n] == ')'
  {
    if k < |s| && s[k] != ')' then 1 + OpenRun(s, k + 1) else 0
  }

  /** `sqrt(` at `i`, a non-empty argument, and the `)` that ends the run;
      a shorter run would be followed by a character other than `)`. */
  predicate SqrtAt(s: string, i: nat) {
    OccursAt(s, "sqrt(", i) && OpenRun(s, i + 5) > 0 && i + 5 + OpenRun(s, i + 5) < |s|
  }

  function SqrtFrom(s: string, i: nat): (r: string)
    decreases |s| - i
    ensures forall c :: c in r ==> c in s || c in "\\sqrt{}"
  {
    if i >= |s| then ""
    else if SqrtAt(s, i) then
      var e := i + 5 + OpenRun(s, i + 5);
      assert forall c :: c in s[i + 5..e] ==> c in s;
      "\\sqrt{" + s[i + 5..e] + "}" + SqrtFrom(s, e + 1)
    else
      [s[i]] + SqrtFrom(s, i + 1)
  }

  function SqrtBraces(s: string): (r: string)
    ensures forall c :: c in r ==> c in s || c in "\\sqrt{}"
  {
    SqrtFrom(s, 0)
  }

  /** The character at `i` is `c`. */
  predicate CharAt(s: string, i: nat, c: char) {
    i < |s| && s[i] == c
  }

  // ---------------------------------------------------------------------------
  // Step 5, `replace(/(?<![a-zA-Z0-9)])\/(?![a-zA-Z0-9(])/g, "\\frac{")`

  /** A `/` with neither `[a-zA-Z0-9)]` just before nor `[a-zA-Z0-9(]` just after. */
  predicate FreeSlashAt(s: string, i: nat) {
    && i < |s|
    && s[i] == '/'
    && (i == 0 || !(IsLowerLetter(s[i - 1]) || IsUpperAscii(s[i - 1]) || IsDigit(s[i - 1]) || s[i - 1] == ')'))
    && (i + 1 == |s| || !(IsLowerLetter(s[i + 1]) || IsUpperAscii(s[i + 1]) || IsDigit(s[i + 1]) || s[i + 1] == '('))
  }

  function FracOpenFrom(s: string, i: nat): (r: string)
    decreases |s| - i
    ensures forall c :: c in r ==> c in s || c in "\\frac{"
  {
    if i >= |s| then ""
    else (if FreeSlashAt(s, i) then "\\frac{" else [s[i]]) + FracOpenFrom(s, i + 1)
  }

  function FracOpen(s: string): (r: string)
    ensures forall c :: c in r ==> c in s || c in "\\frac{"
  {
    FracOpenFrom(s, 0)
  }

  // ---------------------------------------------------------------------------
  // Step 6, `replace(/(\d+|\(.+?\))\/(\d+|\(.+?\))/g, "\\frac{$1}{$2}")`

  /** The lazy `.+?` that started consuming at `k - 1` may stop before the
      `)` at `t`: it consumed no line terminator on the way. */
  predicate ClosesAt(s: string, k: nat, t: nat)
    requires k > 0
  {
    k <= t < |s| && s[t] == ')' && forall u :: k - 1 <= u < t ==> !IsLineTerminator(s[u])
  }

  /** The lazy `.+?` of the second operand: the first `)` at `k` or later,
      unless a line terminator is consumed first. */
  function LazyClose(s: string, k: nat): (r: Option<nat>)
    requires k > 0
    decreases |s| - k
    ensures r.Some? ==> ClosesAt(s, k, r.value) && forall t :: k <= t < r.value ==> s[t] != ')'
    ensures r.None? ==> forall t :: !ClosesAt(s, k, t)
  {
    if k >= |s| || IsLineTerminator(s[k - 1]) then None
    else if s[k] == ')' then Some(k)
    else
      ClosesAtStep(s, k);
      LazyClose(s, k + 1)
  }

  /** Past an ordinary character, `.+?` may stop where it may stop one
      character later, or right there. */
  lemma ClosesAtStep(s: string, k: nat)
    requires 0 < k < |s| && !IsLineTerminator(s[k - 1])
    ensures forall t :: ClosesAt(s, k, t) <==> (t == k && s[k] == ')') || ClosesAt(s, k + 1, t)
  {
  }

  /** Where the second operand `(\d+|\(.+?\))` starting at `j` ends. */
  function SecondEnd(s: string, j: nat): (r: Option<nat>)
    ensures r.Some? ==> j < r.value <= |s|
  {
    if j < |s| && IsDigit(s[j]) then Some(j + DigitRun(s, j))
    else if j < |s| && s[j] == '(' then
      match LazyClose(s, j + 2)
      case Some(k) => Some(k + 1)
      case None => None
    else None
  }

  /** The first operand's `.+?` may stop before the `)` at `t`: `/` and a
      second operand follow it. */
  predicate FirstClosesAt(s: string, k: nat, t: nat)
    requires k > 0
  {
    ClosesAt(s, k, t) && CharAt(s, t + 1, '/') && SecondEnd(s, t + 2).Some?
  }

  /** The lazy `.+?` of the first operand: the first `)` at `k` or later
      after which `/` and a second operand follow; an earlier `)` without
      them is consumed, as the regex backtracks into `.+?`. */
  function LazyFirstClose(s: string, k: nat): (r: Option<nat>)
    requires k > 0
    decreases |s| - k
    ensures r.Some? ==> k <= r.value && r.value + 1 < |s| && s[r.value] == ')' && s[r.value + 1] == '/'
    ensures r.Some? ==> FirstClosesAt(s, k, r.value) && forall t :: k <= t < r.value ==> !FirstClosesAt(s, k, t)
    ensures r.None? ==> forall t :: !FirstClosesAt(s, k, t)
  {
    if k >= |s| || IsLineTerminator(s[k - 1]) then None
    else if s[k] == ')' && CharAt(s, k + 1, '/') && SecondEnd(s, k + 2).Some? then Some(k)
    else
      FirstClosesAtStep(s, k);
      LazyFirstClose(s, k + 1)
  }

  /** As `ClosesAtStep`, for the first operand. */
  lemma FirstClosesAtStep(s: string, k: nat)
    requires 0 < k < |s| && !IsLineTerminator(s[k - 1])
    ensures !FirstClosesAt(s, k, k) ==> forall t :: FirstClosesAt(s, k, t) <==> FirstClosesAt(s, k + 1, t)
    ensures forall t :: FirstClosesAt(s, k + 1, t) ==> FirstClosesAt(s, k, t)
  {
    ClosesAtStep(s, k);
  }

  /** A fraction starting at `i`: where its first operand ends (at the `/`)
      and where its second operand ends. */
  function FractionAt(s: string, i: nat): (r: Option<(nat, nat)>)
    ensures r.Some? ==> i < r.value.0 < r.value.1 <= |s| && s[r.value.0] == '/'
  {
    if i < |s| && IsDigit(s[i]) then NumeralFractionAt(s, i)
    else if i < |s| && s[i] == '(' then GroupFractionAt(s, i)
    else None
  }

  /** A fraction whose first operand is the digits starting at `i`. */
  function NumeralFractionAt(s: string, i: nat): (r: Option<(nat, nat)>)
    requires i < |s| && IsDigit(s[i])
    ensures r.Some? ==> i < r.value.0 < r.value.1 <= |s| && s[r.value.0] == '/'
  {
    var e := i + DigitRun(s, i);
    var f := SecondEnd(s, e + 1);
    if CharAt(s, e, '/') && f.Some? then Some((e, f.value)) else None
  }

  /** A fraction whose first operand is the group opening at `i`. */
  function GroupFractionAt(s: string, i: nat): (r: Option<(nat, nat)>)
    requires i < |s| && s[i] == '('
    ensures r.Some? ==> i < r.value.0 < r.value.1 <= |s| && s[r.value.0] == '/'
  {
    match LazyFirstClose(s, i + 2)
    case Some(k) => Some((k + 1, SecondEnd(s, k + 2).value))
    case None => None
  }

  function FracCloseFrom(s: string, i: nat): (r: string)
    decreases |s| - i
    ensures forall c :: c in r ==> c in s || c in "\\frac{}"
  {
    if i >= |s| then ""
    else match FractionAt(s, i)
      case Some((m, e)) =>
        assert forall c :: c in s[i..m] ==> c in s;
        assert forall c :: c in s[m + 1..e] ==> c in s;
        "\\frac{" + s[i..m] + "}{" + s[m + 1..e] + "}" + FracCloseFrom(s, e)
      case None => [s[i]] + FracCloseFrom(s, i + 1)
  }

  function FracClose(s: string): (r: string)
    ensures forall c :: c in r ==> c in s || c in "\\frac{}"
  {
    FracCloseFrom(s, 0)
  }

  // ---------------------------------------------------------------------------
  // Step 7, `replace(/(\w+)\^(\w+)/g, "$1^{ $2 }")`

  /** The longest run of `\w` characters from `k`. */
  function WordRun(s: string, k: nat): (n: nat)
    decreases |s| - k
    ensures n == 0 || k + n <= |s|
    ensures forall t :: k <= t < k + n ==> IsWordChar(s[t])
    ensures k + n < |s| ==> !IsWordChar(s[k + n])
  {
    if k < |s| && IsWordChar(s[k]) then 1 + WordRun(s, k + 1) else 0
  }

  /** A base of word characters, `^`, and an exponent of word characters at
      `i`; a shorter base would be followed by a word character, not `^`. */
  predicate PowerAt(s: string, i: nat) {
    && WordRun(s, i) > 0
    && CharAt(s, i + WordRun(s, i), '^')
    && WordRun(s, i + WordRun(s, i) + 1) > 0
  }

  function PowerBracesFrom(s: string, i: nat): (r: string)
    decreases |s| - i
    ensures forall c :: c in r ==> c in s || c in "^{ }"
  {
    if i >= |s| then ""
    else if PowerAt(s, i) then
      var m := i + WordRun(s, i);
      var e := m + 1 + WordRun(s, m + 1);
      assert forall c :: c in s[i..m] ==> c in s;
      assert forall c :: c in s[m + 1..e] ==> c in s;
      s[i..m] + "^{ " + s[m + 1..e] + " }" + PowerBracesFrom(s, e)
    else
      [s[i]] + PowerBracesFrom(s, i + 1)
  }

  function PowerBraces(s: string): (r: string)
    ensures forall c :: c in r ==> c in s || c in "^{ }"
  {
    PowerBracesFrom(s, 0)
  }

  // ---------------------------------------------------------------------------
  // Steps 8-14: escaping function names; the last rewrite maps `\to` to itself.

  function EscapeFunctions(s: string): (r: string)
    ensures forall c :: c in r ==> c in s || c in "\\sincotalgm("
  {
    var s1 := ReplaceAll(s, "sin(", "\\sin(");
    var s2 := ReplaceAll(s1, "cos(", "\\cos(");
    var s3 := ReplaceAll(s2, "tan(", "\\tan(");
    var s4 := ReplaceAll(s3, "log(", "\\log(");
    var s5 := ReplaceAll(s4, "ln(", "\\ln(");
    var s6 := ReplaceAll(s5, "lim", "\\lim");
    ArrowRewriteIsIdentity(s6);
    ReplaceAll(s6, "\\to", "\\to")
  }

  /** Without a `(` no function name is escaped; only `lim` is. */
  lemma EscapeWithoutParen(s: string)
    requires '(' !in s
    ensures EscapeFunctions(s) == ReplaceAll(s, "lim", "\\lim")
  {
    ReplaceAllAbsent(s, "sin(", 3, "\\sin(");
    ReplaceAllAbsent(s, "cos(", 3, "\\cos(");
    ReplaceAllAbsent(s, "tan(", 3, "\\tan(");
    ReplaceAllAbsent(s, "log(", 3, "\\log(");
    ReplaceAllAbsent(s, "ln(", 2, "\\ln(");
    ArrowRewriteIsIdentity(ReplaceAll(s, "lim", "\\lim"));
  }

  /** The final `\to` rewrite is the identity. */
  lemma ArrowRewriteIsIdentity(s: string)
    ensures ReplaceAll(s, "\\to", "\\to") == s
  {
    ReplaceAllSelf(s, "\\to");
  }

  // ---------------------------------------------------------------------------
  // What the steps do to the inputs they are written for

  /** A non-empty string of digits. */
  predicate Numeral(t: string) {
    |t| > 0 && forall k :: 0 <= k < |t| ==> IsDigit(t[k])
  }

  /** A non-empty string of `\w` characters. */
  predicate Word(t: string) {
    |t| > 0 && forall k :: 0 <= k < |t| ==> IsWordChar(t[k])
  }

  lemma {:induction false} WordRunIs(s: string, q: nat, n: nat)
    requires q + n <= |s|
    requires forall k :: q <= k < q + n ==> IsWordChar(s[k])
    requires q + n == |s| || !IsWordChar(s[q + n])
    ensures WordRun(s, q) == n
    decreases n
  {
    if n > 0 {
      WordRunIs(s, q + 1, n - 1);
    }
  }

  /** `a/b` with digit operands becomes `\frac{a}{b}`. */
  lemma NumeralFraction(a: string, b: string)
    requires Numeral(a) && Numeral(b)
    ensures FracClose(a + "/" + b) == "\\frac{" + a + "}{" + b + "}"
  {
    var s := a + "/" + b;
    assert s[|a|] == '/';
    DigitRunIs(s, 0, |a|);
    DigitRunIs(s, |a| + 1, |b|);
    assert SecondEnd(s, |a| + 1) == Some(|s|);
    assert FractionAt(s, 0) == Some((|a|, |s|));
    assert s[0..|a|] == a && s[|a| + 1..|s|] == b;
    assert FracCloseFrom(s, |s|) == "";
    assert FracCloseFrom(s, 0) == "\\frac{" + s[0..|a|] + "}{" + s[|a| + 1..|s|] + "}" + FracCloseFrom(s, |s|);
  }

  /** `(a)/(b)` becomes `\frac{(a)}{(b)}` when neither operand holds a `)`
      or a line terminator. */
  lemma GroupFraction(a: string, b: string)
    requires |a| > 0 && |b| > 0
    requires forall c :: c in a ==> c != ')' && !IsLineTerminator(c)
    requires forall c :: c in b ==> c != ')' && !IsLineTerminator(c)
    ensures FracClose("(" + a + ")/(" + b + ")") == "\\frac{(" + a + ")}{(" + b + ")}"
  {
    var p, q := "(" + a + ")", "(" + b + ")";
    var s := p + "/" + q;
    Parenthesised(a);
    Parenthesised(b);
    PlainGroupsFraction(p, q);
    WholeFraction(s, |p|);
    assert s[0..|p|] == p && s[|p| + 1..] == q;
    assert s == "(" + a + ")/(" + b + ")";
    assert "\\frac{" + p + "}{" + q + "}" == "\\frac{(" + a + ")}{(" + b + ")}";
  }

  /** `p` is `(…)` with neither `)` nor a line terminator inside. */
  predicate PlainGroup(p: string) {
    && |p| >= 3 && p[0] == '(' && p[|p| - 1] == ')'
    && forall u :: 1 <= u < |p| - 1 ==> p[u] != ')' && !IsLineTerminator(p[u])
  }

  /** The text of `(x)` between its parentheses is `x`. */
  lemma Parenthesised(x: string)
    requires |x| > 0
    requires forall c :: c in x ==> c != ')' && !IsLineTerminator(c)
    ensures PlainGroup("(" + x + ")")
  {
    var p := "(" + x + ")";
    forall u | 1 <= u < |p| - 1
      ensures p[u] != ')' && !IsLineTerminator(p[u])
    {
      assert p[u] == x[u - 1] && x[u - 1] in x;
    }
  }

  /** Two plain groups around `/` form one fraction spanning the text. */
  lemma PlainGroupsFraction(p: string, q: string)
    requires PlainGroup(p) && PlainGroup(q)
    ensures FractionAt(p + "/" + q, 0) == Some((|p|, |p| + 1 + |q|))
  {
    var s := p + "/" + q;
    var m := |p| - 1;
    assert s[m] == ')' && s[m + 1] == '/';
    assert forall u :: 0 <= u < |p| ==> s[u] == p[u];
    assert forall u :: m + 2 <= u < |s| ==> s[u] == q[u - m - 2];
    GroupSecondEnd(s, m + 2);
    GroupFirstOperand(s, m);
  }

  /** A fraction spanning all of `s`, split at the `/` at `m`. */
  lemma WholeFraction(s: string, m: nat)
    requires m < |s| && FractionAt(s, 0) == Some((m, |s|))
    ensures FracClose(s) == "\\frac{" + s[0..m] + "}{" + s[m + 1..] + "}"
  {
    assert FracCloseFrom(s, |s|) == "";
  }

  /** A second operand `(…)` running to the end of `s`, with no `)` or line
      terminator inside, ends at the end. */
  lemma GroupSecondEnd(s: string, j: nat)
    requires j + 3 <= |s| && s[j] == '(' && s[|s| - 1] == ')'
    requires forall u :: j + 1 <= u < |s| - 1 ==> s[u] != ')' && !IsLineTerminator(s[u])
    ensures SecondEnd(s, j) == Some(|s|)
  {
    assert ClosesAt(s, j + 2, |s| - 1);
  }

  /** A first operand `(…)` ending at the `)` at `m`, with no `)` or line
      terminator inside, is the fraction's first operand. */
  lemma GroupFirstOperand(s: string, m: nat)
    requires 2 <= m && m + 1 < |s| && s[0] == '(' && s[m] == ')' && s[m + 1] == '/'
    requires SecondEnd(s, m + 2).Some?
    requires forall u :: 1 <= u < m ==> s[u] != ')' && !IsLineTerminator(s[u])
    ensures FractionAt(s, 0) == Some((m + 1, SecondEnd(s, m + 2).value))
  {
    assert FirstClosesAt(s, 2, m);
  }

  /** `a^b` with word operands becomes `a^{ b }`. */
  lemma WordPower(a: string, b: string)
    requires Word(a) && Word(b)
    ensures PowerBraces(a + "^" + b) == a + "^{ " + b + " }"
  {
    var s := a + "^" + b;
    assert s[|a|] == '^';
    WordRunIs(s, 0, |a|);
    WordRunIs(s, |a| + 1, |b|);
    assert PowerAt(s, 0);
    assert s[0..|a|] == a && s[|a| + 1..|s|] == b;
    assert PowerBracesFrom(s, |s|) == "";
    assert PowerBracesFrom(s, 0) == s[0..|a|] + "^{ " + s[|a| + 1..|s|] + " }" + PowerBracesFrom(s, |s|);
  }

  /** `sqrt(t)` with a non-empty argument free of `)` becomes `\sqrt{t}`. */
  lemma PlainSqrt(t: string)
    requires |t| > 0 && ')' !in t
    ensures SqrtBraces("sqrt(" + t + ")") == "\\sqrt{" + t + "}"
  {
    var s := "sqrt(" + t + ")";
    assert s[5..5 + |t|] == t;
    OpenRunIs(s, 5, |t|);
    assert OccursAt(s, "sqrt(", 0) by { assert s[0..5] == "sqrt("; }
    assert SqrtAt(s, 0);
    assert SqrtFrom(s, |s|) == "";
    assert SqrtFrom(s, 0) == "\\sqrt{" + s[5..5 + |t|] + "}" + SqrtFrom(s, |s|);
  }

  lemma {:induction false} OpenRunIs(s: string, q: nat, n: nat)
    requires q + n <= |s|
    requires forall k :: q <= k < q + n ==> s[k] != ')'
    requires q + n == |s| || s[q + n] == ')'
    ensures OpenRun(s, q) == n
    decreases n
  {
    if n > 0 {
      OpenRunIs(s, q + 1, n - 1);
    }
  }

  /** Without a `^` there is nothing for step 7 to brace. */
  lemma {:induction false} PowerBracesFromPlain(s: string, i: nat)
    requires '^' !in s && i <= |s|
    ensures PowerBracesFrom(s, i) == s[i..]
    decreases |s| - i
  {
    if i < |s| {
      AbsentHeadAt(s, "^", i + WordRun(s, i));
      PowerBracesFromPlain(s, i + 1);
    }
  }

  lemma PowerBracesPlain(s: string)
    requires '^' !in s
    ensures PowerBraces(s) == s
  {
    PowerBracesFromPlain(s, 0);
  }

  /** Without an occurrence of `sqrt(` step 4 changes nothing. */
  lemma {:induction false} SqrtFromPlain(s: string, i: nat)
    requires !Contains(s, "sqrt(") && i <= |s|
    ensures SqrtFrom(s, i) == s[i..]
    decreases |s| - i
  {
    if i < |s| {
      SqrtFromPlain(s, i + 1);
    }
  }

  lemma SqrtPlain(s: string)
    requires !Contains(s, "sqrt(")
    ensures SqrtBraces(s) == s
  {
    SqrtFromPlain(s, 0);
  }

  /** Step 5 only rewrites a free-standing `/`. */
  lemma {:induction false} FracOpenFromKeeps(s: string, i: nat)
    requires i <= |s| && forall k: nat :: !FreeSlashAt(s, k)
    ensures FracOpenFrom(s, i) == s[i..]
    decreases |s| - i
  {
    if i < |s| {
      FracOpenFromKeeps(s, i + 1);
    }
  }

  lemma FracOpenKeeps(s: string)
    requires forall k: nat :: !FreeSlashAt(s, k)
    ensures FracOpen(s) == s
  {
    FracOpenFromKeeps(s, 0);
  }

  lemma {:induction false} NoSlashNoFirstClose(s: string, k: nat)
    requires '/' !in s && k > 0
    ensures LazyFirstClose(s, k).None?
    decreases |s| - k
  {
    AbsentHeadAt(s, "/", k + 1);
    if k < |s| {
      NoSlashNoFirstClose(s, k + 1);
    }
  }

  lemma {:induction false} FracCloseFromPlain(s: string, i: nat)
    requires '/' !in s && i <= |s|
    ensures FracCloseFrom(s, i) == s[i..]
    decreases |s| - i
  {
    if i < |s| {
      AbsentHeadAt(s, "/", i + DigitRun(s, i));
      NoSlashNoFirstClose(s, i + 2);
      assert FractionAt(s, i).None?;
      FracCloseFromPlain(s, i + 1);
    }
  }

  lemma FracPlain(s: string)
    requires '/' !in s
    ensures FracOpen(s) == s && FracClose(s) == s
  {
    forall k: nat
      ensures !FreeSlashAt(s, k)
    {
      if k < |s| {
        assert s[k] != '/';
      }
    }
    FracOpenKeeps(s);
    FracCloseFromPlain(s, 0);
  }

  // ---------------------------------------------------------------------------
  // The pipeline

  /** The seven rewrites both copies of `toLatex` share, in source order.
      Stars are gone after step 3 and capitals after step 2, and no later
      step inserts either. */
  function Rewrite(s: string): (r: string)
    ensures Clean(r)
  {
    CleanAfterStars(s);
    CleanAfterBraces(DropStars(Lower(PowerMarks(s))));
    PowerBraces(FracClose(FracOpen(SqrtBraces(DropStars(Lower(PowerMarks(s)))))))
  }

  /** Text that none of the seven rewrites applies to comes through
      unchanged. */
  lemma RewriteOfPlain(s: string)
    requires '*' !in s && '/' !in s && '^' !in s && !Contains(s, "sqrt(")
    requires forall k :: 0 <= k < |s| ==> !IsUpperAscii(s[k])
    ensures Rewrite(s) == s
  {
    FrontPlain(s);
    SqrtPlain(s);
    FracPlain(s);
    PowerBracesPlain(s);
  }

  /** Steps 1 to 3 leave text without `*` or capitals unchanged. */
  lemma FrontPlain(s: string)
    requires '*' !in s
    requires forall k :: 0 <= k < |s| ==> !IsUpperAscii(s[k])
    ensures DropStars(Lower(PowerMarks(s))) == s
  {
    ReplaceAllAbsent(s, "**", 0, "^");
    LowerNoUpper(s);
    ReplaceAllAbsent(s, "*", 0, "");
  }

  /** Neither a `*` nor an upper-case ASCII letter. */
  ghost predicate Clean(s: string) {
    forall c :: c in s ==> c != '*' && !IsUpperAscii(c)
  }

  /** Steps 1 to 3 leave neither stars nor capitals. */
  lemma CleanAfterStars(s: string)
    ensures Clean(DropStars(Lower(PowerMarks(s))))
  {
    var s2 := Lower(PowerMarks(s));
    var s3 := DropStars(s2);
    forall c | c in s3 ensures c != '*' && !IsUpperAscii(c) {
      assert c in s2;
    }
  }

  /** Steps 4 to 7 insert neither stars nor capitals. */
  lemma CleanAfterBraces(s3: string)
    requires Clean(s3)
    ensures Clean(PowerBraces(FracClose(FracOpen(SqrtBraces(s3)))))
  {
    CleanStep(s3, SqrtBraces(s3), "\\sqrt{}");
    var s4 := SqrtBraces(s3);
    CleanStep(s4, FracOpen(s4), "\\frac{");
    var s5 := FracOpen(s4);
    CleanStep(s5, FracClose(s5), "\\frac{}");
    var s6 := FracClose(s5);
    CleanStep(s6, PowerBraces(s6), "^{ }");
  }

  /** A step that only adds characters of a clean text keeps text clean. */
  lemma CleanStep(s: string, r: string, extra: string)
    requires Clean(s) && forall c :: c in r ==> c in s || c in extra
    requires forall k :: 0 <= k < |extra| ==> extra[k] != '*' && !IsUpperAscii(extra[k])
    ensures Clean(r)
  {
  }

  lemma EscapeKeepsClean(s: string)
    requires Clean(s)
    ensures Clean(EscapeFunctions(s))
  {
  }
}

=== FILE: mathutils.dfy ===
/** utils/mathUtils.js: the English expression classifier `analyzeFunction`
    and the notation converter `toLatex`. */
module MathUtils {
  import opened Basics
  import opened Chars
  import opened Strings
  import opened Scan
  import opened Classify
  import opened Latex

  /** `DEGREE_WORD_MAP[degree] || degree` (utils/constants.js). */
  function DegreeWord(d: string): (w: string)
    ensures d == "1" ==> w == "First"
    ensures d == "2" ==> w == "Second"
    ensures d == "3" ==> w == "Third"
    ensures d == "4" ==> w == "Fourth"
    ensures d == "5" ==> w == "Fifth"
    ensures d !in ["1", "2", "3", "4", "5"] ==> w == d
  {
    if d == "1" then "First"
    else if d == "2" then "Second"
    else if d == "3" then "Third"
    else if d == "4" then "Fourth"
    else if d == "5" then "Fifth"
    else d
  }

  /** Different exponents give different labels: the words are not numerals
      and no two of them coincide. */
  lemma DegreeWordInjective(d: string, e: string)
    requires Numeral(d) && Numeral(e)
    requires DegreeWord(d) == DegreeWord(e)
    ensures d == e
  {
    assert IsDigit(d[0]) && IsDigit(e[0]);
  }

  const OperationWords: seq<string> := ["Addition", "Subtraction", "Multiplication", "Division"]

  /** The four names differ in their first letters. */
  lemma OperationWordsDistinct()
    ensures NamesDistinct(OperationWords)
  {
    assert OperationWords[0][0] == 'A' && OperationWords[1][0] == 'S';
    assert OperationWords[2][0] == 'M' && OperationWords[3][0] == 'D';
  }

  /** `analyzeFunction(expression)`: the rule chain on the lower-cased text,
      with the English labels. */
  function Analyze(e: string): (a: Analysis)
    ensures a.letter == "" || (|a.letter| == 1 && IsLowerLetter(a.letter[0]) && a.letter[0] in Lower(e))
  {
    var s := Lower(e);
    match SelectRule(s)
    case LimitRule =>
      var l := LimitLetter(s, true);
      assert l != "" ==> l[0] in s;
      Analysis("Find the limit", l)
    case DegreeRule(p) =>
      Analysis("Solve the " + DegreeWord(DegreeDigits(s, p)) + " degree equation", [s[p]])
    case EquationRule =>
      var l := if HasLetter(s) then FirstBareLetter(s) else "";
      assert l != "" ==> l[0] in s;
      Analysis("Solve the equation", l)
    case LettersRule =>
      var vs := DistinctLetters(s);
      if |vs| >= 2 && 'y' in s && 'x' in s then Analysis("Two-variable equation", "")
      else Analysis("Solve for " + JoinLetters(vs), [vs[0]])
    case ArithmeticRule =>
      OperationWordsDistinct();
      Analysis("Calculate " + Join(OperationNames(s, OperationWords), ", "), "")
    case FallbackRule =>
      Analysis("Expression analysis", "")
  }

  /** The classifier sees only the lower-cased text. */
  lemma AnalyzeIgnoresCase(e: string)
    ensures Analyze(e) == Analyze(Lower(e))
  {
    LowerIdempotent(e);
  }

  /** The shape of the label each rule produces. */
  lemma LabelShape(e: string)
    ensures var s := Lower(e); var k := Analyze(e).kind;
            match SelectRule(s)
            case LimitRule => k == "Find the limit"
            case DegreeRule(_) => |k| > 10 && k[..10] == "Solve the " && !IsLowerLetter(k[10])
            case EquationRule => k == "Solve the equation"
            case LettersRule =>
              if 'x' in s && 'y' in s then k == "Two-variable equation"
              else |k| >= 10 && k[..10] == "Solve for "
            case ArithmeticRule => |k| >= 10 && k[..10] == "Calculate "
            case FallbackRule => k == "Expression analysis"
  {
    var s := Lower(e);
    match SelectRule(s)
    case DegreeRule(p) => DegreeLabelShape(e);
    case LettersRule => LettersLabelShape(e);
    case _ =>
  }

  lemma DegreeLabelShape(e: string)
    requires SelectRule(Lower(e)).DegreeRule?
    ensures var k := Analyze(e).kind; |k| > 10 && k[..10] == "Solve the " && !IsLowerLetter(k[10])
  {
    var s := Lower(e);
    var d := DegreeDigits(s, SelectRule(s).pos);
    assert IsDigit(d[0]);
    var w := DegreeWord(d);
    assert !IsLowerLetter(w[0]);
    var k := "Solve the " + w + " degree equation";
    assert k == "Solve the " + (w + " degree equation");
    assert k[10] == w[0];
  }

  lemma LettersLabelShape(e: string)
    requires SelectRule(Lower(e)) == LettersRule
    ensures var s := Lower(e); var k := Analyze(e).kind;
            if 'x' in s && 'y' in s then k == "Two-variable equation"
            else |k| >= 10 && k[..10] == "Solve for "
  {
    var s := Lower(e);
    var vs := DistinctLetters(s);
    if 'x' in s && 'y' in s {
      assert 'x' in vs && 'y' in vs;
      var i :| 0 <= i < |vs| && vs[i] == 'x';
      var j :| 0 <= j < |vs| && vs[j] == 'y';
      assert i != j;
    }
  }

  /** An expression containing "lim" is a limit whose letter is the one the
      limit pattern's leftmost match captures, with the backslash of `\to`
      optional; without a match the letter is empty. */
  lemma LimitBranch(e: string)
    requires Contains(Lower(e), "lim")
    ensures Analyze(e) == Analysis("Find the limit", LimitLetter(Lower(e), true))
    ensures Analyze(e).letter == "" <==> forall i, j :: !LimitWitness(Lower(e), i, j, true)
    ensures Analyze(e).letter != "" ==>
              exists i: nat, j: nat :: LeftmostLimit(Lower(e), i, j, true) && Analyze(e).letter == [Lower(e)[j]]
  {
    RulePrecedence(Lower(e));
  }

  /** "Find the limit" exactly when the text contains `lim`. */
  lemma LimitLabel(e: string)
    ensures Analyze(e).kind == "Find the limit" <==> Contains(Lower(e), "lim")
  {
    var s := Lower(e);
    var k := Analyze(e).kind;
    RulePrecedence(s);
    LabelShape(e);
    match SelectRule(s)
    case LimitRule =>
    case EquationRule =>
    case FallbackRule =>
    case _ => assert k[0] != 'F';
  }

  /** "Solve the equation" exactly when an operator and `=` appear and no
      earlier rule fires. */
  lemma EquationLabel(e: string)
    ensures var s := Lower(e);
            Analyze(e).kind == "Solve the equation" <==>
              !Contains(s, "lim") && (forall p :: !DegreeAt(s, p)) && HasOperator(s) && HasEquals(s)
  {
    EquationKindIsRule(e);
    RulePrecedence(Lower(e));
  }

  /** Only the equation rule produces the equation label. */
  lemma EquationKindIsRule(e: string)
    ensures Analyze(e).kind == "Solve the equation" <==> SelectRule(Lower(e)) == EquationRule
  {
    LabelShape(e);
    OtherLabels(Analyze(e).kind);
  }

  /** The label shapes of the other rules never spell the equation label. */
  lemma OtherLabels(k: string)
    ensures |k| > 10 && k[..10] == "Solve the " && !IsLowerLetter(k[10]) ==> k != "Solve the equation"
    ensures |k| >= 10 && k[..10] == "Solve for " ==> k != "Solve the equation"
    ensures |k| >= 10 && k[..10] == "Calculate " ==> k != "Solve the equation"
  {
    if k == "Solve the equation" {
      assert k[10] == 'e' && k[6] == 't' && k[0] == 'S';
    }
  }

  /** "Two-variable equation" exactly when the letters rule fires on a text
      with both `x` and `y`: the source's count of at least two distinct
      letters then always holds. */
  lemma TwoVariableLabel(e: string)
    ensures var s := Lower(e);
            Analyze(e).kind == "Two-variable equation" <==>
              && !Contains(s, "lim") && (forall p :: !DegreeAt(s, p))
              && !(HasOperator(s) && HasEquals(s)) && 'x' in s && 'y' in s
  {
    var s := Lower(e);
    var k := Analyze(e).kind;
    RulePrecedence(s);
    LabelShape(e);
    if 'x' in s {
      assert HasLetter(s);
    }
    match SelectRule(s)
    case LettersRule => if !('x' in s && 'y' in s) { assert k[0] != 'T'; }
    case DegreeRule(_) => assert k[0] != 'T';
    case ArithmeticRule => assert k[0] != 'T';
    case _ =>
  }

  /** "Expression analysis" exactly when there is neither operator nor letter. */
  lemma FallbackLabel(e: string)
    ensures var s := Lower(e);
            Analyze(e).kind == "Expression analysis" <==> !HasOperator(s) && !HasLetter(s)
  {
    var s := Lower(e);
    var k := Analyze(e).kind;
    RulePrecedence(s);
    LabelShape(e);
    match SelectRule(s)
    case FallbackRule =>
    case LimitRule =>
    case EquationRule =>
    case _ => assert k[0] != 'E';
  }

  /** The degree rule reports the letter carrying the power. */
  lemma DegreeLetter(e: string, p: nat)
    requires !Contains(Lower(e), "lim") && DegreeAt(Lower(e), p)
    requires forall q: nat :: q < p ==> !DegreeAt(Lower(e), q)
    ensures Analyze(e).letter == [Lower(e)[p]]
    ensures Analyze(e).kind == "Solve the " + DegreeWord(DegreeDigits(Lower(e), p)) + " degree equation"
  {
    var s := Lower(e);
    DegreeRuleAt(s, p);
  }

  /** The letters rule without both `x` and `y`: "Solve for" the distinct
      letters, solving for the first letter of the text. */
  lemma SolveForFirstLetter(e: string, k: nat)
    requires SelectRule(Lower(e)) == LettersRule && !('x' in Lower(e) && 'y' in Lower(e))
    requires k < |Lower(e)| && IsLowerLetter(Lower(e)[k])
    requires forall j :: 0 <= j < k ==> !IsLowerLetter(Lower(e)[j])
    ensures Analyze(e) == Analysis("Solve for " + JoinLetters(DistinctLetters(Lower(e))), [Lower(e)[k]])
  {
    FirstLetterFirst(Lower(e), k);
  }

  /** In the equation rule the source's test for letters decides nothing:
      without letters there is no word-bounded letter either. */
  lemma EquationLetter(e: string)
    requires SelectRule(Lower(e)) == EquationRule
    ensures Analyze(e).letter == FirstBareLetter(Lower(e))
  {
    var s := Lower(e);
    if !HasLetter(s) {
      forall p: nat
        ensures !BareLetterAt(s, p)
      {
        if p < |s| {
          assert !IsLowerLetter(s[p]);
        }
      }
    }
  }

  // ---------------------------------------------------------------------------
  // Worked inputs

  /** An equation in `x` and `y` with an operator is "Solve the equation" in
      `x`, not a two-variable equation. */
  lemma TwoLettersEquationExample(e: string)
    requires e == "x+y=5"
    ensures Analyze(e) == Analysis("Solve the equation", "x")
  {
    LowerNoCapitals(e);
    AbsentHead(e, "lim");
    NoPowerNoDegree(e);
    assert IsOperator(e[1]);
    assert BareLetterAt(e, 0);
  }

  /** A letter glued to a number has no word boundary before it, so there
      is no letter to solve for. */
  lemma GluedLetterExample(e: string)
    requires e == "2x+3=9"
    ensures Analyze(e) == Analysis("Solve the equation", "")
  {
    LowerNoCapitals(e);
    AbsentHead(e, "lim");
    NoPowerNoDegree(e);
    assert IsOperator(e[2]);
    assert IsLowerLetter(e[1]);
    assert forall p: nat :: !BareLetterAt(e, p);
  }

  lemma SecondDegreeFacts()
    ensures DegreeAt("x^2-4=0", 0) && DegreeDigits("x^2-4=0", 0) == "2"
  {
    var s := "x^2-4=0";
    assert OccursAt(s, "^", 1);
    assert ExponentStart(s, 0) == 2;
    assert DigitRun(s, 3) == 0;
    assert DigitRun(s, 2) == 1;
  }

  lemma SecondDegreeExample(e: string)
    requires e == "X^2-4=0"
    ensures Analyze(e) == Analysis("Solve the Second degree equation", "x")
  {
    var s := "x^2-4=0";
    assert Lower(e) == s;
    AbsentHead(s, "lim");
    SecondDegreeFacts();
    DegreeLetter(e, 0);
    SecondDegreeLabel();
  }

  lemma SecondDegreeLabel()
    ensures "Solve the " + DegreeWord("2") + " degree equation" == "Solve the Second degree equation"
  {
  }

  lemma GluedPowerRule()
    ensures SelectRule("2x^2") == LettersRule
  {
    var s := "2x^2";
    AbsentHead(s, "lim");
    forall p: nat
      ensures !DegreeAt(s, p)
    {
      if p == 1 {
        assert !Boundary(s, 1);
      }
    }
    assert !HasEquals(s);
    assert IsLowerLetter(s[1]);
    RulePrecedence(s);
  }

  /** The letters rule on a text with a single letter solves for it. */
  lemma SolveForOnly(e: string, c: char)
    requires SelectRule(Lower(e)) == LettersRule && DistinctLetters(Lower(e)) == [c]
    ensures Analyze(e) == Analysis("Solve for " + [c], [c])
  {
    JoinOneLetter(c);
  }

  /** Without a boundary before the letter `2x^2` is no degree equation. */
  lemma GluedPowerExample(e: string)
    requires e == "2x^2"
    ensures Analyze(e) == Analysis("Solve for x", "x")
  {
    assert Analyze(e) == Analysis("Solve for " + ['x'], ['x']) by {
      LowerNoCapitals(e);
      GluedPowerRule();
      OnlyLetter(e, 'x');
      SolveForOnly(e, 'x');
    }
    assert "Solve for " + ['x'] == "Solve for x";
  }

  lemma ArithmeticRuleExample()
    ensures SelectRule("3+4*2") == ArithmeticRule
  {
    var s := "3+4*2";
    AbsentHead(s, "lim");
    assert !HasLetter(s);
    forall p: nat
      ensures !DegreeAt(s, p)
    {
    }
    assert IsOperator(s[1]);
    assert !HasEquals(s);
    RulePrecedence(s);
  }

  /** The operation names follow the fixed order, not the text's. */
  lemma ArithmeticExample(e: string)
    requires e == "3+4*2"
    ensures Analyze(e) == Analysis("Calculate Addition, Multiplication", "")
  {
    LowerNoCapitals(e);
    ArithmeticRuleExample();
    ArithmeticNames(e);
    ArithmeticNamesExample();
  }

  lemma ArithmeticNamesExample()
    ensures "Calculate " + Join(OperationNames("3+4*2", OperationWords), ", ") == "Calculate Addition, Multiplication"
  {
    ArithmeticNamesList();
    JoinTwo("Addition", "Multiplication", ", ");
    CalculateLabel();
  }

  lemma CalculateLabel()
    ensures "Calculate " + ("Addition" + ", " + "Multiplication") == "Calculate Addition, Multiplication"
  {
  }

  lemma ArithmeticNamesList()
    ensures OperationNames("3+4*2", OperationWords) == ["Addition", "Multiplication"]
  {
    var s := "3+4*2";
    assert s[1] == '+' && s[3] == '*' && '-' !in s && '/' !in s;
    PlusTimesNames(s, OperationWords);
  }

  /** An arithmetic expression is labelled "Calculate" followed by the
      names of exactly the operators it contains, in the order `+ - * /`,
      and has no letter. */
  lemma ArithmeticNames(e: string)
    requires SelectRule(Lower(e)) == ArithmeticRule
    ensures Analyze(e).letter == ""
    ensures forall r :: ListsOperators(e, OperationWords, r) ==> Analyze(e).kind == "Calculate " + Join(r, ", ")
  {
    OperationWordsDistinct();
    var o := OperationNames(Lower(e), OperationWords);
    ArithmeticAnalysis(e);
    forall r | ListsOperators(e, OperationWords, r)
      ensures r == o
    {
      ListsOperatorsIgnoresCase(e, OperationWords, r);
      OperationNamesUnique(Lower(e), OperationWords, r);
    }
  }

  /** The arithmetic branch of the classifier. */
  lemma ArithmeticAnalysis(e: string)
    requires SelectRule(Lower(e)) == ArithmeticRule
    ensures (OperationWordsDistinct(); Analyze(e) == Analysis("Calculate " + Join(OperationNames(Lower(e), OperationWords), ", "), ""))
  {
  }

  /** The backslash before `to` is optional here. */
  lemma LimitExample(e: string)
    requires e == "lim x to 0"
    ensures Analyze(e) == Analysis("Find the limit", "x")
    ensures SelectRule(Lower(e)) == LimitRule
  {
    LowerNoCapitals(e);
    assert OccursAt(e, "lim", 0);
    assert SpacesThen(e, 5, "to") by {
      assert OccursAt(e, "to", 6);
    }
    assert LimitWitness(e, 0, 4, true);
    assert LazyLetter(e, 3, true) == Some(4);
  }

  /** `toLatex(expression)`: nothing for an empty input, else the seven
      shared rewrites followed by the function-name escapes. */
  function ToLatex(e: string): (r: string)
    ensures e == "" ==> r == ""
    ensures forall c :: c in r ==> c != '*' && !IsUpperAscii(c)
  {
    if e == "" then ""
    else
      EscapeKeepsClean(Rewrite(e));
      EscapeFunctions(Rewrite(e))
  }

  // ---------------------------------------------------------------------------
  // Worked conversions, one rewrite stage at a time

  /** `2*x**2`: the power mark first, then the star goes, then the braces. */
  lemma PowerConversionExample(e: string)
    requires e == "2*x**2"
    ensures ToLatex(e) == "2x^{ 2 }"
  {
    PowerMarksExample();
    DropStarsExample();
    PowerConversionTail("2x^2");
    EscapeNothing("2x^{ 2 }");
  }

  lemma PowerMarksExample()
    ensures PowerMarks("2*x**2") == "2*x^2"
  {
    var s := "2*x**2";
    Mismatch(s, "**", 0, 0);
    Mismatch(s, "**", 1, 1);
    Mismatch(s, "**", 2, 0);
    assert OccursAt(s, "**", 3);
    ReplaceAllAt(s, "**", "^", 3);
    ReplaceAllAbsent("2", "**", 0, "^");
  }

  lemma DropStarsExample()
    ensures DropStars(Lower("2*x^2")) == "2x^2"
  {
    var s := "2*x^2";
    LowerNoUpper(s);
    Mismatch(s, "*", 0, 0);
    assert OccursAt(s, "*", 1);
    ReplaceAllAt(s, "*", "", 1);
    ReplaceAllAbsent("x^2", "*", 0, "");
  }

  lemma PowerConversionTail(s: string)
    requires s == "2x^2"
    ensures PowerBraces(FracClose(FracOpen(SqrtBraces(s)))) == "2x^{ 2 }"
  {
    assert FracClose(FracOpen(SqrtBraces(s))) == s by {
      Absent(s, "sqrt(", 0);
      SqrtPlain(s);
      FracPlain(s);
    }
    assert PowerBraces(s) == "2x" + "^{ " + "2" + " }" by {
      assert Word("2x") && Word("2");
      WordPower("2x", "2");
      assert "2x" + "^" + "2" == s;
    }
    assert "2x" + "^{ " + "2" + " }" == "2x^{ 2 }";
  }

  lemma EscapeNothing(s: string)
    requires s == "2x^{ 2 }"
    ensures EscapeFunctions(s) == s
  {
    EscapeWithoutParen(s);
    ReplaceAllAbsent(s, "lim", 0, "\\lim");
  }

  /** `1/2`: the slash touches digits on both sides, so step 5 leaves it to
      step 6. */
  lemma FractionConversionExample(e: string)
    requires e == "1/2"
    ensures ToLatex(e) == "\\frac{1}{2}"
  {
    var f := "\\frac{1}{2}";
    FractionHead(e);
    assert Rewrite(e) == PowerBraces(FracClose(e));
    FractionClose(e);
    FractionEscapes(f);
    assert ToLatex(e) == EscapeFunctions(Rewrite(e));
  }

  lemma FractionClose(s: string)
    requires s == "1/2"
    ensures FracClose(s) == "\\frac{1}{2}"
  {
    assert Numeral("1") && Numeral("2");
    NumeralFraction("1", "2");
    assert "1" + "/" + "2" == s;
  }

  lemma FractionHead(s: string)
    requires s == "1/2"
    ensures FracOpen(SqrtBraces(DropStars(Lower(PowerMarks(s))))) == s
  {
    FrontPlain(s);
    Absent(s, "sqrt(", 0);
    SqrtPlain(s);
    assert forall k: nat :: !FreeSlashAt(s, k);
    FracOpenKeeps(s);
  }

  lemma FractionEscapes(s: string)
    requires s == "\\frac{1}{2}"
    ensures EscapeFunctions(PowerBraces(s)) == s
  {
    PowerBracesPlain(s);
    EscapeWithoutParen(s);
    ReplaceAllAbsent(s, "lim", 0, "\\lim");
  }

  lemma SqrtConversionExample(e: string)
    requires e == "sqrt(x)"
    ensures ToLatex(e) == "\\sqrt{x}"
  {
    var q := "\\sqrt{x}";
    SqrtHead(e);
    assert Rewrite(e) == PowerBraces(FracClose(FracOpen(SqrtBraces(e))));
    SqrtOfX(e);
    SqrtEscapes(q);
    assert ToLatex(e) == EscapeFunctions(Rewrite(e));
  }

  lemma SqrtOfX(s: string)
    requires s == "sqrt(x)"
    ensures SqrtBraces(s) == "\\sqrt{x}"
  {
    PlainSqrt("x");
    assert "sqrt(" + "x" + ")" == s;
  }

  lemma SqrtHead(s: string)
    requires s == "sqrt(x)"
    ensures DropStars(Lower(PowerMarks(s))) == s
  {
    FrontPlain(s);
  }

  lemma SqrtEscapes(s: string)
    requires s == "\\sqrt{x}"
    ensures EscapeFunctions(PowerBraces(FracClose(FracOpen(s)))) == s
  {
    SqrtTail(s);
    SqrtNoEscape(s);
  }

  lemma SqrtTail(s: string)
    requires s == "\\sqrt{x}"
    ensures PowerBraces(FracClose(FracOpen(s))) == s
  {
    FracPlain(s);
    PowerBracesPlain(s);
  }

  lemma SqrtNoEscape(s: string)
    requires s == "\\sqrt{x}"
    ensures EscapeFunctions(s) == s
  {
    EscapeWithoutParen(s);
    ReplaceAllAbsent(s, "lim", 0, "\\lim");
  }

  lemma SineConversionExample(e: string)
    requires e == "sin(x)"
    ensures ToLatex(e) == "\\sin(x)"
  {
    Absent(e, "sqrt(", 1);
    RewriteOfPlain(e);
    SineEscapes(e);
    assert ToLatex(e) == EscapeFunctions(Rewrite(e));
  }

  lemma SineEscapes(s: string)
    requires s == "sin(x)"
    ensures EscapeFunctions(s) == "\\sin(x)"
  {
    SineFirst(s);
    SineRest("\\sin(x)");
    EscapeOnlySine(s, "\\sin(x)");
  }

  lemma SineFirst(s: string)
    requires s == "sin(x)"
    ensures ReplaceAll(s, "sin(", "\\sin(") == "\\sin(x)"
  {
    assert OccursAt(s, "sin(", 0);
    ReplaceAllAt(s, "sin(", "\\sin(", 0);
    ReplaceAllAbsent("x)", "sin(", 0, "\\sin(");
    assert "\\sin(" + "x)" == "\\sin(x)";
  }

  lemma SineRest(t: string)
    requires t == "\\sin(x)"
    ensures ReplaceAll(t, "cos(", "\\cos(") == t && ReplaceAll(t, "tan(", "\\tan(") == t
    ensures ReplaceAll(t, "log(", "\\log(") == t && ReplaceAll(t, "ln(", "\\ln(") == t
    ensures ReplaceAll(t, "lim", "\\lim") == t
  {
    ReplaceAllAbsent(t, "cos(", 0, "\\cos(");
    ReplaceAllAbsent(t, "tan(", 0, "\\tan(");
    ReplaceAllAbsent(t, "log(", 0, "\\log(");
    ReplaceAllAbsent(t, "ln(", 0, "\\ln(");
    ReplaceAllAbsent(t, "lim", 0, "\\lim");
  }

  /** When only the sine escape changes anything, the escapes give its
      result. */
  lemma EscapeOnlySine(s: string, t: string)
    requires ReplaceAll(s, "sin(", "\\sin(") == t
    requires ReplaceAll(t, "cos(", "\\cos(") == t && ReplaceAll(t, "tan(", "\\tan(") == t
    requires ReplaceAll(t, "log(", "\\log(") == t && ReplaceAll(t, "ln(", "\\ln(") == t
    requires ReplaceAll(t, "lim", "\\lim") == t
    ensures EscapeFunctions(s) == t
  {
    ArrowRewriteIsIdentity(t);
  }

  lemma LimitConversionExample(e: string)
    requires e == "lim x\\to0"
    ensures ToLatex(e) == "\\lim x\\to0"
  {
    Absent(e, "sqrt(", 1);
    RewriteOfPlain(e);
    LimitEscapes(e);
    assert ToLatex(e) == EscapeFunctions(Rewrite(e));
  }

  lemma LimitEscapes(s: string)
    requires s == "lim x\\to0"
    ensures EscapeFunctions(s) == "\\lim x\\to0"
  {
    EscapeWithoutParen(s);
    LimitFirstEscape(s);
  }

  lemma LimitFirstEscape(s: string)
    requires s == "lim x\\to0"
    ensures ReplaceAll(s, "lim", "\\lim") == "\\lim x\\to0"
  {
    var rest := " x\\to0";
    assert s == "lim" + rest;
    assert ReplaceAll("lim" + rest, "lim", "\\lim") == "\\lim" + rest by {
      ReplaceAllLeading("lim", rest, "\\lim", 0);
    }
  }
}

=== FILE: reanimatedcropper.dfy ===
/** components/ReanimatedCropper.jsx: the crop frame driven by one pan
    gesture. The gesture's start fixes the grabbed corner (by the quadrant
    of the touch around the frame's centre) and the size to resize from;
    every move proposes a size from that baseline, clamped to
    `[75, maxSize]`; the gesture's end reports the centred frame. The screen
    size is a parameter. */
module ReanimatedCropper {
  import opened Basics
  import opened Crop

  const InitialSize: Size := Size(300.0, 150.0)
  const MinSide: real := 75.0

  /** The frame's centre is a sixth of the screen height above the middle. */
  function Lift(screenHeight: real): real { screenHeight / 6.0 }

  /** The shared values and the gesture context: the current size, the size
      captured at the gesture's start, the grabbed corner and whether a
      gesture is running. */
  datatype State = State(size: Size, start: Size, corner: Option<Corner>, started: bool)

  /** The state as the component mounts. */
  function Mount(): (s: State)
    ensures s.size == InitialSize && s.corner.None? && !s.started
  {
    State(InitialSize, InitialSize, None, false)
  }

  /** `onStart`: grab the corner of the touch's quadrant and remember the
      current size as the baseline. */
  function OnStart(screenWidth: real, screenHeight: real, s: State, x: real, y: real): (r: State)
    ensures r.started && r.size == s.size && r.start == s.size
    ensures r.corner.Some?
    ensures r.corner.value.IsTop() <==> y < screenHeight / 2.0 - Lift(screenHeight)
    ensures r.corner.value.IsLeft() <==> x < screenWidth / 2.0
  {
    var c := CornerAt(screenWidth / 2.0, screenHeight / 2.0 - Lift(screenHeight), x, y);
    State(s.size, s.size, Some(c), true)
  }

  /** `onActive`: resize from the baseline captured at the start. Without a
      grabbed corner the size stays as it is. */
  function OnActive(screenWidth: real, screenHeight: real, s: State, tx: real, ty: real): (r: State)
    ensures r.(size := s.size) == s
    ensures s.corner.None? ==> r == s
    ensures var m := MaxSize(screenWidth, screenHeight);
            s.corner.Some? ==>
              && MinSide <= r.size.width && MinSide <= r.size.height
              && (MinSide <= m ==> r.size.width <= m && r.size.height <= m)
    ensures var m := MaxSize(screenWidth, screenHeight);
            var d := if s.corner.Some? then Dragged(s.corner.value, s.start, tx, ty) else s.size;
            s.corner.Some? && MinSide <= d.width <= m ==> r.size.width == d.width
    ensures var m := MaxSize(screenWidth, screenHeight);
            var d := if s.corner.Some? then Dragged(s.corner.value, s.start, tx, ty) else s.size;
            s.corner.Some? && MinSide <= d.height <= m ==> r.size.height == d.height
    ensures var m := MaxSize(screenWidth, screenHeight);
            var d := if s.corner.Some? then Dragged(s.corner.value, s.start, tx, ty) else s.size;
            s.corner.Some? ==>
              && (d.width < MinSide || m < MinSide ==> r.size.width == MinSide)
              && (MinSide <= m < d.width ==> r.size.width == m)
              && (d.height < MinSide || m < MinSide ==> r.size.height == MinSide)
              && (MinSide <= m < d.height ==> r.size.height == m)
  {
    match s.corner
    case None => s
    case Some(c) =>
      var m := MaxSize(screenWidth, screenHeight);
      var d := Dragged(c, s.start, tx, ty);
      s.(size := Size(Clamp(MinSide, m, d.width), Clamp(MinSide, m, d.height)))
  }

  /** `onEnd`: the gesture stops and the centred frame is reported. */
  function OnEnd(screenWidth: real, screenHeight: real, s: State): (r: (State, Rect))
    ensures !r.0.started && r.0.(started := s.started) == s
    ensures r.1.width == s.size.width && r.1.height == s.size.height
    ensures r.1.left + r.1.width / 2.0 == screenWidth / 2.0
    ensures r.1.top + r.1.height / 2.0 == screenHeight / 2.0 - Lift(screenHeight)
  {
    (s.(started := false), CentredRect(screenWidth, screenHeight, Lift(screenHeight), s.size))
  }

  /** The rectangle reported on mount, before any gesture. */
  function MountReport(screenWidth: real, screenHeight: real): (r: Rect)
    ensures r.width == 300.0 && r.height == 150.0
    ensures r.left == (screenWidth - 300.0) / 2.0
    ensures r.top + 75.0 == screenHeight / 2.0 - Lift(screenHeight)
  {
    CentredRect(screenWidth, screenHeight, Lift(screenHeight), Mount().size)
  }

  /** Moves are measured from the gesture's start, so only the latest one
      counts. */
  lemma ActiveLatestWins(screenWidth: real, screenHeight: real, s: State, a: real, b: real, c: real, d: real)
    ensures OnActive(screenWidth, screenHeight, OnActive(screenWidth, screenHeight, s, a, b), c, d)
            == OnActive(screenWidth, screenHeight, s, c, d)
  {
  }

  /** Grabbing and not moving keeps a size that is within the limits. */
  lemma StillDragKeepsSize(screenWidth: real, screenHeight: real, s: State, x: real, y: real)
    requires var m := MaxSize(screenWidth, screenHeight);
             MinSide <= s.size.width <= m && MinSide <= s.size.height <= m
    ensures OnActive(screenWidth, screenHeight, OnStart(screenWidth, screenHeight, s, x, y), 0.0, 0.0).size
            == s.size
  {
  }

  /** Moving a right corner further right never narrows the frame and
      moving a left corner further right never widens it; likewise
      vertically for bottom and top corners. */
  lemma ActiveMonotone(screenWidth: real, screenHeight: real, s: State, tx: real, ty: real, tx': real, ty': real)
    requires s.corner.Some? && tx <= tx' && ty <= ty'
    ensures var r := OnActive(screenWidth, screenHeight, s, tx, ty).size;
            var r' := OnActive(screenWidth, screenHeight, s, tx', ty').size;
            && (if s.corner.value.IsLeft() then r'.width <= r.width else r.width <= r'.width)
            && (if s.corner.value.IsTop() then r'.height <= r.height else r.height <= r'.height)
  {
  }

  /** A whole gesture: the start at `(x, y)`, the moves in order, the end. */
  function Gesture(screenWidth: real, screenHeight: real, s: State, x: real, y: real,
                   moves: seq<(real, real)>): (r: (State, Rect))
    ensures var st := OnStart(screenWidth, screenHeight, s, x, y);
            && !r.0.started && r.0.corner == st.corner && r.0.start == s.size
            && (|moves| == 0 ==> r.0.size == s.size)
    ensures r.1 == CentredRect(screenWidth, screenHeight, Lift(screenHeight), r.0.size)
    ensures r.1.left + r.1.width / 2.0 == screenWidth / 2.0
  {
    OnEnd(screenWidth, screenHeight, Moves(screenWidth, screenHeight,
          OnStart(screenWidth, screenHeight, s, x, y), moves))
  }

  /** The moves of a gesture applied in order. */
  function Moves(screenWidth: real, screenHeight: real, s: State, moves: seq<(real, real)>): (r: State)
    ensures r.(size := s.size) == s
  {
    if |moves| == 0 then s
    else OnActive(screenWidth, screenHeight, Moves(screenWidth, screenHeight, s, moves[..|moves| - 1]),
                  moves[|moves| - 1].0, moves[|moves| - 1].1)
  }

  /** After at least one move, the frame's size is what the last move alone
      gives. */
  lemma {:induction false} MovesLastWins(screenWidth: real, screenHeight: real, s: State, moves: seq<(real, real)>)
    requires |moves| > 0
    ensures Moves(screenWidth, screenHeight, s, moves)
            == OnActive(screenWidth, screenHeight, s, moves[|moves| - 1].0, moves[|moves| - 1].1)
  {
    var ms := moves[..|moves| - 1];
    var last := moves[|moves| - 1];
    if |ms| > 0 {
      MovesLastWins(screenWidth, screenHeight, s, ms);
      assert ms[|ms| - 1] == moves[|moves| - 2];
      ActiveLatestWins(screenWidth, screenHeight, s, ms[|ms| - 1].0, ms[|ms| - 1].1, last.0, last.1);
    }
  }

  /** A gesture with moves reports a centred frame whose sides are within
      the limits and follow the last move from the size the gesture began
      with. */
  lemma GestureReport(screenWidth: real, screenHeight: real, s: State, x: real, y: real,
                      moves: seq<(real, real)>)
    requires |moves| > 0
    ensures var m := MaxSize(screenWidth, screenHeight);
            var rect := Gesture(screenWidth, screenHeight, s, x, y, moves).1;
            var st := OnStart(screenWidth, screenHeight, s, x, y);
            var last := moves[|moves| - 1];
            && rect == CentredRect(screenWidth, screenHeight, Lift(screenHeight),
                                   OnActive(screenWidth, screenHeight, st, last.0, last.1).size)
            && MinSide <= rect.width && MinSide <= rect.height
            && (MinSide <= m ==> rect.width <= m && rect.height <= m)
  {
    var st := OnStart(screenWidth, screenHeight, s, x, y);
    MovesLastWins(screenWidth, screenHeight, st, moves);
  }
}

=== FILE: resultspanel.dfy ===
/** components/ResultsPanel.jsx: the English result panel, that is the
    instruction line above the answer and the formulas of the answer. The
    panel receives the LaTeX converter as a property, so here it is a
    parameter. Each formula is the text the panel places between `$$`
    delimiters. */
module ResultsPanel {
  import opened Chars
  import opened Strings
  import opened Scan
  import opened Classify
  import MathUtils

  const TwoVariable: string := "Two-variable equation"

  /** `getInstructionText()` */
  function InstructionText(kind: string, letter: string): (r: string)
    ensures letter != "" ==> r == "Solve for " + letter
    ensures letter == "" && kind == TwoVariable ==> r == "Simplify the expression"
    ensures letter == "" && kind != TwoVariable ==> r == "Calculate"
  {
    if letter != "" then "Solve for " + letter
    else if kind == TwoVariable then "Simplify the expression"
    else "Calculate"
  }

  /** A two-variable classification never carries a letter. */
  lemma TwoVariableHasNoLetter(e: string)
    ensures MathUtils.Analyze(e).kind == TwoVariable ==> MathUtils.Analyze(e).letter == ""
  {
    var s := Lower(e);
    var k := MathUtils.Analyze(e).kind;
    MathUtils.LabelShape(e);
    match SelectRule(s)
    case DegreeRule(_) => assert k[0] != 'T';
    case LettersRule => if !('x' in s && 'y' in s) { assert k[0] != 'T'; }
    case _ =>
  }

  /** The instruction for whatever the English classifier reports: "Solve
      for" a letter of the expression, "Simplify the expression" exactly for
      a two-variable equation, and "Calculate" for everything else. */
  lemma InstructionForAnalysis(e: string)
    ensures var a := MathUtils.Analyze(e); var t := InstructionText(a.kind, a.letter);
            && (t == "Simplify the expression" <==> a.kind == TwoVariable)
            && (t == "Calculate" <==> a.letter == "" && a.kind != TwoVariable)
            && (a.letter != "" ==> |t| == 11 && t[..10] == "Solve for " && t[10] in Lower(e))
  {
    TwoVariableHasNoLetter(e);
  }

  /** The label before a solution: nothing without a letter, `x =` for a
      single solution and `x_{n} =` (numbered from 1) for several. */
  function SolutionPrefix(letter: string, count: nat, index: nat): (r: string)
    ensures r == "" <==> letter == ""
    ensures letter != "" ==> |r| > |letter| && r[..|letter|] == letter
    ensures letter != "" && count <= 1 ==> r == letter + " ="
    ensures letter != "" && count > 1 ==>
              && |r| >= |letter| + 6
              && r[..|letter| + 2] == letter + "_{" && r[|r| - 3..] == "} ="
              && forall i :: |letter| + 2 <= i < |r| - 3 ==> IsDigit(r[i])
  {
    if letter == "" then ""
    else if count > 1 then letter + "_{" + NatToString(index + 1) + "} ="
    else letter + " ="
  }

  /** The number written in the subscript after `letter` and `_{`; zero
      when there is none. */
  function SubscriptOf(block: string, letter: string): (n: nat)
  {
    var q := |letter| + 2;
    if q <= |block| then DigitsValue(block[q..q + DigitRun(block, q)]) else 0
  }

  /** The subscript of the `index`-th prefix reads back as `index + 1`,
      whatever follows the prefix. */
  lemma SubscriptReadsBack(letter: string, count: nat, index: nat, b: string)
    requires letter != "" && count > 1
    requires var p := SolutionPrefix(letter, count, index); |p| <= |b| && b[..|p|] == p
    ensures SubscriptOf(b, letter) == index + 1
  {
    var n := NatToString(index + 1);
    assert SolutionPrefix(letter, count, index) == letter + "_{" + n + "} =";
    LabelReadsBack(letter, n, b);
    NatToStringRoundTrip(index + 1);
  }

  /** A text starting with the label `letter_{n} =` has subscript `n`. */
  lemma LabelReadsBack(letter: string, n: string, b: string)
    requires forall i :: 0 <= i < |n| ==> IsDigit(n[i])
    requires var p := letter + "_{" + n + "} ="; |p| <= |b| && b[..|p|] == p
    ensures SubscriptOf(b, letter) == DigitsValue(n)
  {
    var p := letter + "_{" + n + "} =";
    var q := |letter| + 2;
    SubscriptLayout(letter, n, "} =");
    PrefixAgrees(b, p, q, q + |n|);
    ReadDigits(b, q, n);
  }

  /** Several solutions get pairwise different labels. */
  lemma PrefixesDistinct(letter: string, count: nat, i: nat, j: nat)
    requires letter != "" && count > 1 && i != j
    ensures SolutionPrefix(letter, count, i) != SolutionPrefix(letter, count, j)
  {
    var p := SolutionPrefix(letter, count, i);
    if p == SolutionPrefix(letter, count, j) {
      SubscriptReadsBack(letter, count, i, p);
      SubscriptReadsBack(letter, count, j, p);
    }
  }

  /** A text that starts with `p` agrees with `p` on `[i, j]`. */
  lemma PrefixAgrees(b: string, p: string, i: nat, j: nat)
    requires i <= j < |p| <= |b| && b[..|p|] == p
    ensures b[i..j] == p[i..j] && b[j] == p[j]
  {
    forall k | i <= k <= j
      ensures b[k] == p[k]
    {
      assert b[k] == b[..|p|][k];
    }
  }

  /** Where the subscript sits in a label. */
  lemma SubscriptLayout(letter: string, n: string, tail: string)
    requires |tail| > 0
    ensures var b := letter + "_{" + n + tail; var q := |letter| + 2;
            q + |n| < |b| && b[q..q + |n|] == n && b[q + |n|] == tail[0]
  {
    var b := letter + "_{" + n + tail;
    assert b == (letter + "_{") + n + tail;
  }

  /** A digit string followed by a non-digit is read back whole. */
  lemma ReadDigits(b: string, q: nat, n: string)
    requires q + |n| < |b| && b[q..q + |n|] == n && !IsDigit(b[q + |n|])
    requires forall i :: 0 <= i < |n| ==> IsDigit(n[i])
    ensures DigitRun(b, q) == |n| && b[q..q + DigitRun(b, q)] == n
  {
    forall k | q <= k < q + |n|
      ensures IsDigit(b[k])
    {
      assert b[k] == n[k - q];
    }
    DigitRunIs(b, q, |n|);
  }

  const Quadratic: string := "\\pm\\sqrt{\\text{expression}}"
  const Linear: string := "\\text{rearranged expression}"
  const NotIsolated: string := "\\text{Expression could not be isolated}"

  /** The right-hand side of the fallback message: the response is searched
      for the variable and for its square. */
  function FallbackMessage(v: string, response: string): (m: string)
    ensures m in {Quadratic, Linear, NotIsolated}
  {
    if Contains(response, v) then
      if Contains(response, v + "^2") then Quadratic else Linear
    else NotIsolated
  }

  /** Which message the fallback picks, as conditions on the response: the
      square alone decides the quadratic message, since a text containing
      `v^2` contains `v`. */
  lemma FallbackMessages(v: string, response: string)
    ensures FallbackMessage(v, response) == Quadratic <==> Contains(response, v + "^2")
    ensures FallbackMessage(v, response) == Linear <==>
              Contains(response, v) && !Contains(response, v + "^2")
    ensures FallbackMessage(v, response) == NotIsolated <==> !Contains(response, v)
  {
    if Contains(response, v + "^2") {
      ContainsPrefix(response, v, "^2");
    }
    assert Quadratic[1] != Linear[1] && Quadratic[1] != NotIsolated[1];
    assert Linear[6] != NotIsolated[6];
  }

  /** The fallback formula: the letter, or `y` when there is none, equated
      to the message. */
  function IsolationFallback(letter: string, response: string): (r: string)
    ensures var v := if letter != "" then letter else "y";
            |r| > |v| + 3 && r[..|v| + 3] == v + " = " && r[|v| + 3..] == FallbackMessage(v, response)
  {
    var v := if letter != "" then letter else "y";
    v + " = " + FallbackMessage(v, response)
  }

  /** `renderSolution()`: the formulas of the answer. A two-variable
      equation with solutions shows its isolated form; other solutions are
      shown one per formula behind their label; with no solutions the
      isolated form is shown bare, and failing that the fallback message. */
  function RenderSolution(kind: string, letter: string, response: string, isolated: string,
                          solutions: seq<string>, latex: string -> string): (blocks: seq<string>)
    ensures |solutions| > 0 && kind != TwoVariable ==> |blocks| == |solutions|
    ensures !(|solutions| > 0 && kind != TwoVariable) ==> |blocks| == 1
    ensures |solutions| > 0 && kind == TwoVariable ==> blocks == [latex(isolated)]
    ensures |solutions| == 0 && isolated != "" ==> blocks == [latex(isolated)]
    ensures |solutions| == 0 && isolated == "" ==> blocks == [IsolationFallback(letter, response)]
    ensures |solutions| > 0 && kind != TwoVariable ==>
              forall i :: 0 <= i < |solutions| ==>
                blocks[i] == SolutionPrefix(letter, |solutions|, i) + " " + latex(solutions[i])
  {
    if |solutions| > 0 then
      if kind == TwoVariable then [latex(isolated)]
      else seq(|solutions|, i requires 0 <= i < |solutions| =>
                 SolutionPrefix(letter, |solutions|, i) + " " + latex(solutions[i]))
    else if isolated != "" then [latex(isolated)]
    else [IsolationFallback(letter, response)]
  }

  /** The `i`-th of several labelled formulas: its subscript reads back as
      `i + 1` and it ends with the `i`-th solution's LaTeX. */
  lemma NumberedBlock(letter: string, solutions: seq<string>, latex: string -> string, i: nat, block: string)
    requires |solutions| > 1 && letter != "" && i < |solutions|
    requires block == SolutionPrefix(letter, |solutions|, i) + " " + latex(solutions[i])
    ensures SubscriptOf(block, letter) == i + 1
    ensures var t := latex(solutions[i]); |block| >= |t| && block[|block| - |t|..] == t
  {
    var t := latex(solutions[i]);
    var p := SolutionPrefix(letter, |solutions|, i);
    assert block[..|p|] == p;
    SubscriptReadsBack(letter, |solutions|, i, block);
    EndsWith(p + " ", t);
  }

  lemma EndsWith(p: string, t: string)
    ensures |p + t| >= |t| && (p + t)[|p + t| - |t|..] == t
  {
  }

  /** Several solutions of a lettered classification are numbered in order:
      the subscript of the `i`-th formula reads back as `i + 1`, so no two
      formulas coincide, and each ends with its own solution's LaTeX. */
  lemma SolutionsNumbered(kind: string, letter: string, response: string, isolated: string,
                          solutions: seq<string>, latex: string -> string)
    requires |solutions| > 1 && kind != TwoVariable && letter != ""
    ensures var blocks := RenderSolution(kind, letter, response, isolated, solutions, latex);
            && (forall i :: 0 <= i < |blocks| ==> SubscriptOf(blocks[i], letter) == i + 1)
            && (forall i, j :: 0 <= i < j < |blocks| ==> blocks[i] != blocks[j])
            && (forall i :: 0 <= i < |blocks| ==>
                  var t := latex(solutions[i]);
                  |blocks[i]| >= |t| && blocks[i][|blocks[i]| - |t|..] == t)
  {
    var blocks := RenderSolution(kind, letter, response, isolated, solutions, latex);
    forall i | 0 <= i < |blocks|
      ensures SubscriptOf(blocks[i], letter) == i + 1
      ensures var t := latex(solutions[i]); |blocks[i]| >= |t| && blocks[i][|blocks[i]| - |t|..] == t
    {
      NumberedBlock(letter, solutions, latex, i, blocks[i]);
    }
  }
}

=== FILE: scan.dfy ===
/** The building blocks of the source's regular expressions, each as an
    explicit scanner over a string position. Existence predicates follow the
    backtracking semantics of the pattern they name. */
module Scan {
  import opened Chars
  import opened Strings

  predicate WordAt(s: string, i: int) {
    0 <= i < |s| && IsWordChar(s[i])
  }

  /** `\b` at position `p`: a `\w` character on exactly one side. */
  predicate Boundary(s: string, p: int) {
    WordAt(s, p - 1) != WordAt(s, p)
  }

  /** The length of the longest run of digits starting at `q` (greedy `\d*`). */
  function DigitRun(s: string, q: nat): (n: nat)
    decreases |s| - q
    ensures n == 0 || q + n <= |s|
    ensures forall k :: q <= k < q + n ==> IsDigit(s[k])
    ensures q + n < |s| ==> !IsDigit(s[q + n])
  {
    if q < |s| && IsDigit(s[q]) then 1 + DigitRun(s, q + 1) else 0
  }

  /** Backtracking into a greedy digit run cannot reach a `\b`: inside the
      run both neighbours are digits. So `\d+\b` can only end where the
      longest run ends. */
  lemma InsideDigitRunNoBoundary(s: string, q: nat, m: nat)
    requires 0 < m < DigitRun(s, q)
    ensures !Boundary(s, q + m)
  {
    assert IsDigit(s[q + m - 1]) && IsDigit(s[q + m]);
  }

  /** A digit run of length `n` at `q` that nothing extends is the longest. */
  lemma {:induction false} DigitRunIs(s: string, q: nat, n: nat)
    requires q + n <= |s|
    requires forall k :: q <= k < q + n ==> IsDigit(s[k])
    requires q + n == |s| || !IsDigit(s[q + n])
    ensures DigitRun(s, q) == n
    decreases n
  {
    if n > 0 {
      DigitRunIs(s, q + 1, n - 1);
    }
  }

  /** `\d*\b` matches at `q`. */
  predicate DigitsThenBoundary(s: string, q: nat)
    decreases |s| - q
  {
    Boundary(s, q) || (q < |s| && IsDigit(s[q]) && DigitsThenBoundary(s, q + 1))
  }

  /** `\s*` followed by the literal `t` matches at `k`. */
  predicate SpacesThen(s: string, k: nat, t: string)
    decreases |s| - k
  {
    OccursAt(s, t, k) || (k < |s| && IsJsSpace(s[k]) && SpacesThen(s, k + 1, t))
  }

  /** No character `.` refuses in `s[a..b]`. */
  predicate NoLineTerminator(s: string, a: nat, b: nat)
    requires b <= |s|
  {
    forall k :: a <= k < b ==> !IsLineTerminator(s[k])
  }
}

=== FILE: strings.dfy ===
/** Character classes of ECMAScript regular expressions, as the source's
    patterns use them. */
module Chars {

  predicate IsDigit(c: char) { '0' <= c <= '9' }

  /** `[a-z]` */
  predicate IsLowerLetter(c: char) { 'a' <= c <= 'z' }

  predicate IsUpperAscii(c: char) { 'A' <= c <= 'Z' }

  /** `\w` = `[A-Za-z0-9_]` */
  predicate IsWordChar(c: char) {
    IsLowerLetter(c) || IsUpperAscii(c) || IsDigit(c) || c == '_'
  }

  /** The characters `.` does not match. */
  predicate IsLineTerminator(c: char) {
    c == '\n' || c == '\r' || c == '\U{2028}' || c == '\U{2029}'
  }

  /** `\s`, which is also what `String.prototype.trim` strips: the ECMAScript
      WhiteSpace and LineTerminator code points. */
  predicate IsJsSpace(c: char) {
    || c == '\t' || c == '\U{000B}' || c == '\U{000C}' || c == ' ' || c == '\U{00A0}'
    || c == '\U{1680}' || ('\U{2000}' <= c <= '\U{200A}') || c == '\U{202F}'
    || c == '\U{205F}' || c == '\U{3000}' || c == '\U{FEFF}'
    || IsLineTerminator(c)
  }

  /** `toLowerCase` on the ASCII range. */
  function LowerChar(c: char): (r: char)
    ensures !IsUpperAscii(r)
    ensures IsUpperAscii(c) ==> r as int == c as int + 32
    ensures !IsUpperAscii(c) ==> r == c
  {
    if IsUpperAscii(c) then (c as int + 32) as char else c
  }
}

/** The string operations of the JavaScript standard library the core uses,
    over `seq<char>`. */
module Strings {
  import opened Basics
  import opened Chars

  /** `s.toLowerCase()`, restricted to ASCII letters. */
  function Lower(s: string): (r: string)
    ensures |r| == |s|
    ensures forall i :: 0 <= i < |r| ==> !IsUpperAscii(r[i])
    ensures forall i :: 0 <= i < |s| ==> (r[i] == s[i] <==> !IsUpperAscii(s[i]))
    ensures forall i :: 0 <= i < |s| && IsUpperAscii(s[i]) ==> r[i] as int == s[i] as int + 32
  {
    seq(|s|, i requires 0 <= i < |s| => LowerChar(s[i]))
  }

  /** A text without capitals is its own lower-case form. */
  lemma LowerNoCapitals(s: string)
    requires forall i :: 0 <= i < |s| ==> !IsUpperAscii(s[i])
    ensures Lower(s) == s
  {
  }

  lemma LowerIdempotent(s: string)
    ensures Lower(Lower(s)) == Lower(s)
  {
  }

  /** Lower-casing leaves every non-letter where it was. */
  lemma LowerKeeps(s: string, c: char)
    requires !IsUpperAscii(c)
    requires !IsLowerLetter(c)
    ensures c in Lower(s) <==> c in s
  {
    if c in s {
      var i :| 0 <= i < |s| && s[i] == c;
      assert Lower(s)[i] == c;
    }
    if c in Lower(s) {
      var i :| 0 <= i < |s| && Lower(s)[i] == c;
      assert s[i] == c;
    }
  }

  predicate OccursAt(s: string, p: string, i: int) {
    0 <= i && i + |p| <= |s| && s[i..i + |p|] == p
  }

  /** `s.indexOf(p)`: the leftmost occurrence. */
  function IndexOf(s: string, p: string): (r: Option<nat>)
    ensures r.Some? ==> OccursAt(s, p, r.value)
    ensures r.Some? ==> forall j :: 0 <= j < r.value ==> !OccursAt(s, p, j)
    ensures r.None? ==> forall j :: !OccursAt(s, p, j)
  {
    var P := (j: nat) => OccursAt(s, p, j);
    var r := FindFirst(P, 0, |s| + 1);
    assert forall j: nat {:trigger P(j)} {:trigger OccursAt(s, p, j)} :: P(j) == OccursAt(s, p, j);
    r
  }

  /** `s.includes(p)` */
  predicate Contains(s: string, p: string) {
    IndexOf(s, p).Some?
  }

  lemma ContainsAt(s: string, p: string, i: int)
    requires OccursAt(s, p, i)
    ensures Contains(s, p)
  {
  }

  /** Whatever contains `p + q` contains `p`. */
  lemma ContainsPrefix(s: string, p: string, q: string)
    requires Contains(s, p + q)
    ensures Contains(s, p)
  {
    var i := IndexOf(s, p + q).value;
    assert s[i..i + |p|] == (p + q)[..|p|];
    ContainsAt(s, p, i);
  }

  /** `s.replace(p, r)` with a string pattern: only the leftmost occurrence. */
  function ReplaceFirst(s: string, p: string, r: string): (res: string)
    ensures (forall i :: !OccursAt(s, p, i)) ==> res == s
    ensures forall i :: OccursAt(s, p, i) && (forall j :: 0 <= j < i ==> !OccursAt(s, p, j))
                        ==> res == s[..i] + r + s[i + |p|..]
  {
    match IndexOf(s, p)
    case None => s
    case Some(i) => s[..i] + r + s[i + |p|..]
  }

  /** Removing a pattern the text starts with leaves the rest. */
  lemma ReplaceFirstAtStart(s: string, p: string)
    ensures |p| <= |s| && s[..|p|] == p ==> ReplaceFirst(s, p, "") == s[|p|..]
  {
    if |p| <= |s| && s[..|p|] == p {
      assert OccursAt(s, p, 0);
    }
  }

  /** Removing the leftmost occurrence of `p` joins the text around it. */
  lemma ReplaceFirstRemoves(s: string, p: string)
    ensures forall i :: OccursAt(s, p, i) && (forall j :: 0 <= j < i ==> !OccursAt(s, p, j))
                        ==> ReplaceFirst(s, p, "") == s[..i] + s[i + |p|..]
  {
    forall i | OccursAt(s, p, i) && (forall j :: 0 <= j < i ==> !OccursAt(s, p, j))
      ensures ReplaceFirst(s, p, "") == s[..i] + s[i + |p|..]
    {
      assert s[..i] + "" + s[i + |p|..] == s[..i] + s[i + |p|..];
    }
  }

  /** Replacing a pattern the text lacks changes nothing. */
  lemma ReplaceFirstAbsent(s: string, p: string, r: string)
    ensures !Contains(s, p) ==> ReplaceFirst(s, p, r) == s
  {
  }

  /** `s.replace(/p/g, r)` for a pattern with no special characters: a
      left-to-right scan that replaces non-overlapping occurrences. */
  function ReplaceAll(s: string, p: string, r: string): (res: string)
    requires |p| > 0
    decreases |s|
    ensures forall c :: c in res ==> c in s || c in r
  {
    if |s| < |p| then s
    else if s[..|p|] == p then r + ReplaceAll(s[|p|..], p, r)
    else [s[0]] + ReplaceAll(s[1..], p, r)
  }

  /** Replacing a pattern by itself changes nothing. */
  lemma {:induction false} ReplaceAllSelf(s: string, p: string)
    requires |p| > 0
    decreases |s|
    ensures ReplaceAll(s, p, p) == s
  {
    if |s| < |p| {
    } else if s[..|p|] == p {
      ReplaceAllSelf(s[|p|..], p);
      assert s == s[..|p|] + s[|p|..];
    } else {
      ReplaceAllSelf(s[1..], p);
      assert s == [s[0]] + s[1..];
    }
  }

  /** The global replacement takes the leftmost occurrence first and then
      carries on after it. */
  lemma {:induction false} ReplaceAllAt(s: string, p: string, r: string, i: nat)
    requires |p| > 0 && OccursAt(s, p, i)
    requires forall j :: 0 <= j < i ==> !OccursAt(s, p, j)
    decreases i
    ensures ReplaceAll(s, p, r) == s[..i] + r + ReplaceAll(s[i + |p|..], p, r)
  {
    if i == 0 {
      ReplaceAllHead(s, p, r);
    } else {
      var t := s[1..];
      ShiftOccurrences(s, p, i);
      ReplaceAllAt(t, p, r, i - 1);
      ReplaceAllStep(s, p, r, i);
    }
  }

  lemma ReplaceAllHead(s: string, p: string, r: string)
    requires |p| > 0 && OccursAt(s, p, 0)
    ensures ReplaceAll(s, p, r) == s[..0] + r + ReplaceAll(s[|p|..], p, r)
  {
    assert s[..|p|] == p;
  }

  lemma ShiftOccurrences(s: string, p: string, i: nat)
    requires |p| > 0 && 0 < i && OccursAt(s, p, i)
    requires forall j :: 0 <= j < i ==> !OccursAt(s, p, j)
    ensures OccursAt(s[1..], p, i - 1)
    ensures forall j :: 0 <= j < i - 1 ==> !OccursAt(s[1..], p, j)
  {
    forall j | 0 <= j < i - 1
      ensures !OccursAt(s[1..], p, j)
    {
      assert !OccursAt(s, p, j + 1);
      assert s[1..][j..j + |p|] == s[j + 1..j + 1 + |p|];
    }
    assert s[1..][i - 1..i - 1 + |p|] == s[i..i + |p|];
  }

  lemma ReplaceAllStep(s: string, p: string, r: string, i: nat)
    requires |p| > 0 && 0 < i && OccursAt(s, p, i) && !OccursAt(s, p, 0)
    requires ReplaceAll(s[1..], p, r) == s[1..][..i - 1] + r + ReplaceAll(s[1..][i - 1 + |p|..], p, r)
    ensures ReplaceAll(s, p, r) == s[..i] + r + ReplaceAll(s[i + |p|..], p, r)
  {
    ReplaceAllUnfold(s, p, r);
    assert s[1..][i - 1 + |p|..] == s[i + |p|..];
    assert s[..i] == [s[0]] + s[1..][..i - 1];
    ConcatShift(s[0], s[1..][..i - 1], r, ReplaceAll(s[i + |p|..], p, r));
  }

  lemma ReplaceAllUnfold(s: string, p: string, r: string)
    requires |p| > 0 && |s| >= |p| && s[..|p|] != p
    ensures ReplaceAll(s, p, r) == [s[0]] + ReplaceAll(s[1..], p, r)
  {
  }

  lemma ConcatShift(a: char, h: string, r: string, x: string)
    ensures [a] + (h + r + x) == ([a] + h) + r + x
  {
  }

  /** One mismatching character rules an occurrence out. */
  lemma Mismatch(s: string, p: string, i: nat, k: nat)
    requires k < |p| && i + k < |s| && s[i + k] != p[k]
    ensures !OccursAt(s, p, i)
  {
    if i + |p| <= |s| {
      assert s[i..i + |p|][k] == s[i + k];
    }
  }

  /** Text without upper-case letters is its own lower case. */
  lemma LowerNoUpper(s: string)
    requires forall k :: 0 <= k < |s| ==> !IsUpperAscii(s[k])
    ensures Lower(s) == s
  {
  }

  /** A pattern with a character absent from `s` occurs nowhere in it, so
      every replacement of it is the identity. */
  lemma {:induction false} ReplaceAllAbsent(s: string, p: string, k: nat, r: string)
    requires k < |p| && p[k] !in s
    decreases |s|
    ensures ReplaceAll(s, p, r) == s
  {
    if |s| >= |p| {
      assert s[..|p|][k] == s[k];
      ReplaceAllAbsent(s[1..], p, k, r);
      assert s == [s[0]] + s[1..];
    }
  }

  /** A text that is the pattern followed by text missing one of the
      pattern's characters has only the leading occurrence replaced. */
  lemma ReplaceAllLeading(p: string, rest: string, r: string, k: nat)
    requires k < |p| && p[k] !in rest
    ensures ReplaceAll(p + rest, p, r) == r + rest
  {
    var s := p + rest;
    assert s[..|p|] == p && s[|p|..] == rest;
    ReplaceAllAbsent(rest, p, k, r);
  }

  lemma AbsentAt(s: string, p: string, k: nat, i: int)
    requires k < |p| && p[k] !in s
    ensures !OccursAt(s, p, i)
  {
    if 0 <= i && i + |p| <= |s| {
      assert s[i..i + |p|][k] == s[i + k];
    }
  }

  lemma AbsentHeadAt(s: string, p: string, i: int)
    requires |p| > 0 && p[0] !in s
    ensures !OccursAt(s, p, i)
  {
    AbsentAt(s, p, 0, i);
  }

  lemma Absent(s: string, p: string, k: nat)
    requires k < |p| && p[k] !in s
    ensures !Contains(s, p)
  {
    forall i: int
      ensures !OccursAt(s, p, i)
    {
      AbsentAt(s, p, k, i);
    }
  }

  lemma AbsentHead(s: string, p: string)
    requires |p| > 0 && p[0] !in s
    ensures !Contains(s, p)
  {
    Absent(s, p, 0);
  }

  /** A one-character pattern replaced by text without it leaves none behind. */
  lemma {:induction false} ReplaceAllRemoves(s: string, c: char, r: string)
    requires c !in r
    decreases |s|
    ensures c !in ReplaceAll(s, [c], r)
  {
    if |s| < 1 {
    } else if s[..1] == [c] {
      ReplaceAllRemoves(s[1..], c, r);
    } else {
      assert s[0] != c;
      ReplaceAllRemoves(s[1..], c, r);
    }
  }

  /** `String.prototype.trim`: the slice between the leading and trailing
      white space. */
  function TrimStart(s: string): (r: string)
    decreases |s|
    ensures |r| <= |s| && r == s[|s| - |r|..]
    ensures forall k :: 0 <= k < |s| - |r| ==> IsJsSpace(s[k])
    ensures |r| > 0 ==> !IsJsSpace(r[0])
  {
    if |s| > 0 && IsJsSpace(s[0]) then TrimStart(s[1..]) else s
  }

  function TrimEnd(s: string): (r: string)
    decreases |s|
    ensures |r| <= |s| && r == s[..|r|]
    ensures forall k :: |r| <= k < |s| ==> IsJsSpace(s[k])
    ensures |r| > 0 ==> !IsJsSpace(r[|r| - 1])
  {
    if |s| > 0 && IsJsSpace(s[|s| - 1]) then TrimEnd(s[..|s| - 1]) else s
  }

  function Trim(s: string): (r: string)
    ensures exists a, b :: 0 <= a <= b <= |s| && r == s[a..b]
                           && (forall k :: 0 <= k < a ==> IsJsSpace(s[k]))
                           && (forall k :: b <= k < |s| ==> IsJsSpace(s[k]))
    ensures |r| > 0 ==> !IsJsSpace(r[0]) && !IsJsSpace(r[|r| - 1])
  {
    var t := TrimStart(s);
    var r := TrimEnd(t);
    var a := |s| - |t|;
    assert r == s[a..a + |r|];
    r
  }

  /** `xs.join(sep)` */
  function Join(xs: seq<string>, sep: string): (r: string)
    ensures |xs| == 1 ==> r == xs[0]
    ensures |xs| == 0 ==> r == ""
  {
    if |xs| == 0 then ""
    else if |xs| == 1 then xs[0]
    else xs[0] + sep + Join(xs[1..], sep)
  }

  /** `s.split(c)` for a one-character separator: the pieces between the
      separators, as many as there are separators plus one. */
  function Split(s: string, c: char): (parts: seq<string>)
    decreases |s|
    ensures |parts| == multiset(s)[c] + 1
  {
    if |s| == 0 then [""]
    else
      var rest := Split(s[1..], c);
      assert s == [s[0]] + s[1..];
      assert multiset(s) == multiset([s[0]]) + multiset(s[1..]);
      if s[0] == c then [""] + rest
      else [[s[0]] + rest[0]] + rest[1..]
  }

  /** No piece contains the separator. */
  lemma {:induction false} SplitPieces(s: string, c: char)
    decreases |s|
    ensures forall i :: 0 <= i < |Split(s, c)| ==> c !in Split(s, c)[i]
  {
    if |s| > 0 {
      var rest := Split(s[1..], c);
      var parts := Split(s, c);
      SplitPieces(s[1..], c);
      if s[0] == c {
        assert parts == [""] + rest;
        assert forall i :: 1 <= i < |parts| ==> parts[i] == rest[i - 1];
      } else {
        assert parts == [[s[0]] + rest[0]] + rest[1..];
        assert forall i :: 1 <= i < |parts| ==> parts[i] == rest[i];
      }
    }
  }

  /** Joining the pieces with the separator gives the text back. */
  lemma {:induction false} SplitJoin(s: string, c: char)
    decreases |s|
    ensures Join(Split(s, c), [c]) == s
  {
    if |s| > 0 {
      SplitJoin(s[1..], c);
      if s[0] == c {
        SplitJoinAtSeparator(s, c);
      } else {
        SplitJoinInPiece(s, c);
      }
    }
  }

  lemma SplitJoinAtSeparator(s: string, c: char)
    requires |s| > 0 && s[0] == c && Join(Split(s[1..], c), [c]) == s[1..]
    ensures Join(Split(s, c), [c]) == s
  {
    var rest := Split(s[1..], c);
    assert Split(s, c) == [""] + rest;
    JoinEmptyHead(rest, [c]);
    assert s == [s[0]] + s[1..];
  }

  lemma SplitJoinInPiece(s: string, c: char)
    requires |s| > 0 && s[0] != c && Join(Split(s[1..], c), [c]) == s[1..]
    ensures Join(Split(s, c), [c]) == s
  {
    var rest := Split(s[1..], c);
    assert Split(s, c) == [[s[0]] + rest[0]] + rest[1..];
    JoinGlueHead(s[0], rest, [c]);
    assert s == [s[0]] + s[1..];
  }

  lemma JoinTwo(a: string, b: string, sep: string)
    ensures Join([a, b], sep) == a + sep + b
  {
    assert [a, b][1..] == [b];
  }

  lemma JoinEmptyHead(xs: seq<string>, sep: string)
    requires |xs| > 0
    ensures Join([""] + xs, sep) == sep + Join(xs, sep)
  {
    assert ([""] + xs)[1..] == xs;
  }

  lemma JoinGlueHead(a: char, xs: seq<string>, sep: string)
    requires |xs| > 0
    ensures Join([[a] + xs[0]] + xs[1..], sep) == [a] + Join(xs, sep)
  {
    var ys := [[a] + xs[0]] + xs[1..];
    assert ys[1..] == xs[1..];
    if |xs| == 1 {
    } else {
      assert Join(xs, sep) == xs[0] + sep + Join(xs[1..], sep);
    }
  }

  /** `[...new Set(cs)]`: the distinct elements in first-occurrence order. */
  function Distinct(cs: seq<char>): (r: seq<char>)
    decreases |cs|
    ensures forall c :: c in r <==> c in cs
    ensures forall i, j :: 0 <= i < j < |r| ==> r[i] != r[j]
    ensures |cs| > 0 ==> |r| > 0 && r[0] == cs[0]
  {
    if |cs| == 0 then []
    else
      var d := Distinct(cs[..|cs| - 1]);
      assert |cs| > 1 ==> cs[..|cs| - 1][0] == cs[0];
      if cs[|cs| - 1] in d then d else d + [cs[|cs| - 1]]
  }

  /** The index of the first `c` in `cs`, or `|cs|`. */
  function FirstIndex(cs: seq<char>, c: char): (k: nat)
    ensures k <= |cs|
    ensures k < |cs| ==> cs[k] == c
    ensures forall j :: 0 <= j < k ==> cs[j] != c
  {
    if |cs| == 0 then 0
    else if cs[0] == c then 0
    else 1 + FirstIndex(cs[1..], c)
  }

  lemma FirstIndexOfPrefix(cs: seq<char>, n: nat, c: char)
    requires n <= |cs|
    requires c in cs[..n]
    ensures FirstIndex(cs[..n], c) == FirstIndex(cs, c)
  {
    var k := FirstIndex(cs, c);
    var k' := FirstIndex(cs[..n], c);
    assert cs[..n][k'] == c;
    assert cs[k'] == c;
  }

  lemma FirstIndexFresh(cs: seq<char>, n: nat)
    requires n < |cs|
    requires cs[n] !in cs[..n]
    ensures FirstIndex(cs, cs[n]) == n
  {
  }

  /** The set built from a sequence keeps the order in which elements are
      first seen. */
  lemma {:induction false} DistinctOrder(cs: seq<char>)
    decreases |cs|
    ensures var r := Distinct(cs);
            forall i, j :: 0 <= i < j < |r| ==> FirstIndex(cs, r[i]) < FirstIndex(cs, r[j])
  {
    if |cs| > 0 {
      var n := |cs| - 1;
      DistinctOrder(cs[..n]);
      DistinctOrderStep(cs, n, Distinct(cs[..n]));
    }
  }

  lemma DistinctOrderStep(cs: seq<char>, n: nat, d: seq<char>)
    requires n + 1 == |cs|
    requires d == Distinct(cs[..n])
    requires forall i, j :: 0 <= i < j < |d| ==> FirstIndex(cs[..n], d[i]) < FirstIndex(cs[..n], d[j])
    ensures var r := Distinct(cs);
            forall i, j :: 0 <= i < j < |r| ==> FirstIndex(cs, r[i]) < FirstIndex(cs, r[j])
  {
    var r := Distinct(cs);
    assert r == if cs[n] in d then d else d + [cs[n]];
    forall i, j | 0 <= i < j < |r|
      ensures FirstIndex(cs, r[i]) < FirstIndex(cs, r[j])
    {
      assert r[i] == d[i];
      FirstIndexOfPrefix(cs, n, d[i]);
      if j < |d| {
        assert r[j] == d[j];
        FirstIndexOfPrefix(cs, n, d[j]);
      } else {
        FirstIndexFresh(cs, n);
      }
    }
  }

  /** `String(n)` for a natural number. */
  function NatToString(n: nat): (r: string)
    decreases n
    ensures |r| > 0
    ensures forall i :: 0 <= i < |r| ==> IsDigit(r[i])
  {
    if n < 10 then [DigitChar(n)] else NatToString(n / 10) + [DigitChar(n % 10)]
  }

  function DigitChar(d: nat): (c: char)
    requires d < 10
    ensures IsDigit(c)
  {
    ('0' as int + d) as char
  }

  /** The decimal value of a digit string, the inverse of `NatToString`. */
  function DigitsValue(s: string): nat
    requires forall i :: 0 <= i < |s| ==> IsDigit(s[i])
  {
    if |s| == 0 then 0
    else
      var last := s[|s| - 1];
      assert IsDigit(last);
      10 * DigitsValue(s[..|s| - 1]) + (last as int - '0' as int)
  }

  lemma {:induction false} NatToStringRoundTrip(n: nat)
    decreases n
    ensures DigitsValue(NatToString(n)) == n
  {
    var r := NatToString(n);
    if n >= 10 {
      NatToStringRoundTrip(n / 10);
      assert r[..|r| - 1] == NatToString(n / 10);
    }
  }

  lemma NatToStringInjective(m: nat, n: nat)
    requires m != n
    ensures NatToString(m) != NatToString(n)
  {
    NatToStringRoundTrip(m);
    NatToStringRoundTrip(n);
  }
}
